=== FILE: README.md ===
# SentinelForge threat-intelligence aggregator: a Dafny model of its core

SentinelForge ingests indicators of compromise (IP addresses, domains, URLs,
file hashes, email addresses, CVE ids). It classifies and normalises each
indicator and files it in a PostgreSQL store keyed by (type, normalised
value). It enriches stored indicators through pluggable providers (WHOIS, DNS,
MaxMind GeoIP, AbuseIPDB, VirusTotal) and pulls new ones from feed collectors
(HoneyTrap, AlienVault OTX, Emerging Threats / Feodo Tracker).

This project models that core as pure Dafny functions over immutable data and
proves what each operation promises. The model is organised like the
repository:

- `models.dfy`, `ioc_utils.dfy` — the enums and records of `src/models`, and
  the ordered classification chain and per-type normalisation of
  `detect_ioc_type` / `normalize_ioc`.
- `storage.dfy` — the repository. The database is a `Store`:
  - a map from (type, normalised value) to indicator rows;
  - a map from (indicator, enrichment type, provider) to enrichment rows;
  - the append-only sequence of sightings.

  Each SQL statement is one state transition. The clock (`now`) and every
  freshly generated UUID are parameters.
- `enrichment.dfy` — the provider capability table (name, enrichment type,
  supported IOC types, TTL), the engine's registration list, and `enrich_all`.
  `enrich_all` runs over one abstract outcome per provider: `Failed`, `NoData`
  or `Found(payload)`.
- `whois.dfy`, `dns.dfy`, `geoip.dfy`, `abuseipdb.dfy`, `virustotal.dfy` — each
  provider's pure logic and its "no data" gate. The resolver answers, reader
  answers and HTTP replies a provider would receive are arguments.
- `api.dfy` — the `bulk_import` defaulting and counting loop, and the
  `enrich_indicator` store loop.
- `honeytrap.dfy`, `alienvault.dfy`, `emerging_threats.dfy` — the collectors'
  transforms from decoded feed records to `CreateIndicatorRequest`s.
- Support modules:
  - `wrappers.dfy` — `Option` and `Result`.
  - `text.dfy` — string operations over Unicode scalar values with Rust's
    `trim`, `lines`, `split`, `split_whitespace` and `find` semantics
    (Unicode White_Space), with ASCII case mapping and alphanumerics.
  - `decimal.dfy` — integer display and parsing.
  - `base64.dfy` — the URL-safe unpadded alphabet of section 5 of RFC 4648.
  - `utf8.dfy` — UTF-8 encoding.
  - `net.dfy` — Rust's `Ipv4Addr` grammar.
  - `json.dfy` — opaque JSON payloads.
  - `collections.dfy` — generic filter, map and first-occurrence helpers that
    the loops share.

An HTTP exchange is an `Enrichment.Reply<T>`. It is `SendFailed` or
`Status(code, body)`, where `body` is `None` when the body does not decode. A
2xx code is a success. IPv6 text syntax (section 2.2 of RFC 4291) is an
uninterpreted parameter `v6`. Lemmas that need it assume only that IPv6
literals consist of hex digits, colons and dots.

Some behaviours of the code that a reader might not expect, all modelled as
written:

- A hash is only 32, 40 or 64 hex digits (src/models/ioc_utils.rs:20). A
  128-digit digest is not a hash, and with no dot it is rejected altogether
  (`IocUtils.Sha512Rejected`).
- Tags and source ids are merged by `array_cat`, so duplicates are kept
  (src/storage/mod.rs:70-71, `Storage.UpsertMerge`).
- `delete_indicator` is a stub that deletes nothing (src/api/mod.rs:193-199),
  so there is no per-indicator cascade delete. Only `delete_expired` deletes
  rows.
- `bulk_import` never reports an update: every accepted item counts as
  created, including one merged into an existing row (src/api/mod.rs:143-144,
  `Api.MergeCountsAsCreated`).
- The item's source is defaulted to the bulk source but never stored: the
  upsert is called without a source id (src/api/mod.rs:131-133 and 143,
  `Api.BulkDefaultsStored`).

## Model

| member | source | states |
|---|---|---|
| Models.IocTypeNameRoundTrip | src/models/mod.rs:22-33 | the displayed type names are lowercase, distinct per variant, and read back as the same type |
| Models.SeverityFromScore | src/models/mod.rs:47-56 | each of the four bands 0-20, 21-50, 51-80, 81-100 maps to exactly Low, Medium, High, Critical (iff), and every score outside 0..100 is Unknown |
| Models.SeverityFromScoreMonotone | src/models/mod.rs:39-56 | over 0..100 the severity is never Unknown and a higher score never gives a lower rank |
| IocUtils.Classify | src/models/ioc_utils.rs:14-66 | on a trimmed value: empty gives none; Cve iff the uppercased value starts with "CVE-"; Hash iff 32/40/64 hex digits; Url iff an http(s) prefix without the CVE prefix; Email only with '@' and '.'; Ip only for an IPv4 or IPv6 literal or a value with one '/' and a literal before it; Domain only when domain-shaped; none iff the value is empty or no rule accepts it |
| IocUtils.DetectIocType | src/models/ioc_utils.rs:7-67 | the same rules, including the Ip, Email and Domain conditions and the characterisation of none, applied to the value with surrounding whitespace removed |
| IocUtils.DetectTrims | src/models/ioc_utils.rs:8 | detection depends only on the trimmed value |
| IocUtils.CveShape | src/models/ioc_utils.rs:14-17 | a CVE-prefixed value has at least four characters, with 'v' or 'V' second and '-' fourth |
| IocUtils.UrlShape | src/models/ioc_utils.rs:26-29 | an http(s) value has at least seven characters, starts with 'h' and has a colon at index 4 or 5 |
| IocUtils.ClassifyEmail | src/models/ioc_utils.rs:31-34 | Email iff not Cve, not an http(s) URL, and the value contains both '@' and '.', so it wins over every IP rule |
| IocUtils.ClassifyIpv4 | src/models/ioc_utils.rs:36-39 | every IPv4 literal is classified Ip |
| IocUtils.ClassifyIpv6 | src/models/ioc_utils.rs:41-44 | every IPv6 literal is classified Ip |
| IocUtils.ClassifyCidr | src/models/ioc_utils.rs:46-54 | a value with exactly one '/' and an IP literal before it is Ip once the CVE, URL and email rules pass it by; the part after '/' is never examined |
| IocUtils.DetectIp | src/models/ioc_utils.rs:36-44 | an IP literal surrounded by any whitespace is detected as Ip |
| IocUtils.ClassifyDomain | src/models/ioc_utils.rs:56-66 | every Domain is domain-shaped ('.', no space, '/' or '@', only alphanumerics, '.' and '-'), and a domain-shaped value that is not an IPv4 literal, CVE id or digest is Domain |
| IocUtils.ClassifyCveExample | src/models/ioc_utils.rs:14-17 | "CVE-2024-1234" is Cve |
| IocUtils.ClassifyIpExample | src/models/ioc_utils.rs:36-39 | "8.8.8.8" is Ip |
| IocUtils.ClassifyFivePartsExample | src/models/ioc_utils.rs:56-64 | "1.2.3.4.5" is not an address but is Domain |
| IocUtils.ClassifyWordExample | src/models/ioc_utils.rs:56-66 | "foo" has no dot and is classified as nothing |
| IocUtils.Sha512Rejected | src/models/ioc_utils.rs:19-24 | a 128-digit hex string is not a hash and, lacking a dot, is detected as nothing |
| IocUtils.UrlPathStart | src/models/ioc_utils.rs:76-79 | the verbatim part of a URL starts at a '/' found after "://", or is empty when either is missing |
| IocUtils.NormalizeUrl | src/models/ioc_utils.rs:75-87 | length is kept; every character before the path start is lowercased and every character from it on is kept verbatim |
| IocUtils.NormalizeIoc | src/models/ioc_utils.rs:70-92 | the result always has the trimmed value's length; Cve is uppercased, Domain/Email/Ip/Hash lowercased, and Url lowercased before its path and verbatim from it on |
| IocUtils.NormalizeIdempotent | src/models/ioc_utils.rs:70-92 | normalising an already normalised value with the same type returns it unchanged |
| IocUtils.UrlNormalizeIdempotent | src/models/ioc_utils.rs:75-87 | a normalised URL is trimmed and is its own normal form, because lowercasing keeps the "://" and '/' positions |
| Storage.ErrorMessage | src/storage/mod.rs:52-53 | an undetectable value reports "Could not detect IOC type for: " followed by the value |
| Storage.GetIndicator | src/storage/mod.rs:95-105 | with unique ids, a row is returned iff one has the id, and it is that stored row |
| Storage.ResolveType | src/storage/mod.rs:52-53 | the supplied type wins; otherwise the detected type |
| Storage.ExpirationAfter | src/storage/mod.rs:57 | an expiration exists iff days are given, and lies exactly that many days after now |
| Storage.SourceIdArray | src/storage/mod.rs:86 | a known source id is bound as a one-element array, an absent one as an empty array |
| Storage.HigherSeverity | src/storage/mod.rs:67 | the merged severity is one of the two and ranks at least as high as both |
| Storage.UpsertIndicator | src/storage/mod.rs:51-92 | fails with the undetectable-type error iff neither the request nor detection gives a type; otherwise writes exactly the key (type, normalised value) and leaves enrichments and sightings alone |
| Storage.UpsertFresh | src/storage/mod.rs:57-86 | a new key is inserted with the fresh id, first_seen = last_seen = now, severity or Unknown, confidence and threat score from the request or 50, tlp or Amber, tags or empty, and expiration now + days |
| Storage.UpsertMerge | src/storage/mod.rs:66-72 | a stored key is updated in place: severity and confidence only rise (an omitted confidence counts as 50), last_seen becomes now, tags and source ids are appended, and id, first_seen, threat score, tlp and expiration stay |
| Storage.UpsertTwiceOneRow | src/storage/mod.rs:59-73 | filing the same request twice leaves one row under its key, with the first row's id |
| Storage.UpsertUndetectable | src/storage/mod.rs:52-53 | an untyped undetectable value is rejected with its error message |
| Storage.UpsertBlankRejected | src/storage/mod.rs:52-53 | a blank value without an explicit type is rejected as undetectable |
| Storage.UpsertPreservesValid | src/storage/mod.rs:59-73 | with an unused fresh id an upsert keeps (type, value) and id unique and leaves nothing orphaned |
| Storage.PutRowValid | src/storage/mod.rs:59-73 | writing a row under its own key keeps the store valid when it keeps the existing row's id or, for a new key, uses an id no row has |
| Storage.UpsertKeepsSeenOrder | src/storage/mod.rs:65-69 | with a clock that does not run backwards, first_seen <= last_seen survives an upsert |
| Storage.FirstRawMatch | src/storage/mod.rs:125-131 | returns a row stored under the raw value for one of the given types iff there is one |
| Storage.GetIndicatorByValue | src/storage/mod.rs:108-134 | a detectable value is found iff its (detected type, normalised value) key is stored; any other value is found iff some type stores it verbatim, and the result is such a row |
| Storage.LookupFindsUpserted | src/storage/mod.rs:108-121 | a request filed under its detected type is found again by its raw value |
| Storage.LookupMissesMistypedRow | src/storage/mod.rs:110-121 | "8.8.8.8" stored with the explicit type Domain is not found by value, because lookup uses the detected type Ip |
| Storage.PageNumber | src/storage/mod.rs:138 | absent or below 1 gives page 1, and any page >= 1 is kept |
| Storage.PerPage | src/storage/mod.rs:139 | absent gives 50, above 1000 gives 1000, and any size up to 1000 is kept, negative ones included |
| Storage.SortByLastSeen | src/storage/mod.rs:166 | the rows are ordered by last_seen descending, keeping their number |
| Storage.SortPermutes | src/storage/mod.rs:166 | ordering is a permutation of the scanned rows |
| Storage.InsertPermutes | src/storage/mod.rs:166 | one insertion step adds exactly the inserted row |
| Storage.Window | src/storage/mod.rs:166 | LIMIT/OFFSET keeps min(limit, rows after offset) consecutive rows starting at the offset |
| Storage.WindowSorted | src/storage/mod.rs:166 | a window of an ordered sequence is ordered |
| Storage.SearchIndicators | src/storage/mod.rs:137-188 | fails iff a filter leaves an unbound placeholder or the page size is negative; otherwise total counts every row, page and per_page are the clamped values, and the page holds the right number of rows in last_seen order |
| Storage.SearchWindow | src/storage/mod.rs:164-172 | a successful page is exactly the LIMIT/OFFSET window of the ordered table |
| Storage.SearchReturnsStoredRows | src/storage/mod.rs:164-172 | a page holds only stored rows, each at most as often as stored |
| Storage.WindowsInOrder | src/storage/mod.rs:166 | a window that ends before another begins holds no row seen later than any row of the other |
| Storage.PagesInOrder | src/storage/mod.rs:138-166 | with the same page size, every row on an earlier page was seen no earlier than every row on a later page |
| Storage.FirstPageHoldsAll | src/storage/mod.rs:138-172 | an unfiltered first page at least as large as the table returns every stored row |
| Storage.UpdateThreatScore | src/storage/mod.rs:191-203 | the row with the id gets the score, the score's severity band and updated_at = now, and nothing else changes; other rows, enrichments and sightings are untouched; a missing id changes nothing |
| Storage.UpdateThreatScorePreservesValid | src/storage/mod.rs:191-203 | a rescore keeps the table constraints and first_seen <= last_seen |
| Storage.RescoreCanLowerSeverity | src/storage/mod.rs:193-196 | unlike an upsert, a rescore can lower severity: a Critical row rescored to 10 becomes Low |
| Storage.DeleteExpired | src/storage/mod.rs:206-215 | removes exactly the rows whose expiration is set and earlier than now and keeps the others unchanged; an enrichment remains, unchanged, iff its indicator remains; the sightings are the survivors; returns how many rows went |
| Storage.Unexpired | src/storage/mod.rs:206-215 | the rows kept are exactly the unexpired ones, unchanged, and kept plus expired add up to all rows |
| Storage.Survivors | src/storage/mod.rs:206-215 | after deletion exactly the sightings of surviving indicators remain |
| Storage.SurvivorsKeepCounts | src/storage/mod.rs:206-215 | the cascade keeps each surviving sighting as often as it was stored, duplicates included, and drops every other: an indicator's sighting count is unchanged if it survives and 0 otherwise |
| Storage.DeleteExpiredPreservesValid | src/storage/mod.rs:206-215 | deletion leaves no enrichment or sighting orphaned |
| Storage.DeleteExpiredIdempotent | src/storage/mod.rs:208 | nothing left behind is expired, so a second deletion removes nothing |
| Storage.ExpiresAfterHours | src/storage/mod.rs:228 | an expiry exists iff a TTL is given, and lies exactly that many hours after now |
| Storage.AddEnrichment | src/storage/mod.rs:220-252 | fails iff the indicator does not exist; otherwise writes only the (indicator, type, provider) key with the new data, fetched_at = now and the TTL expiry, keeping the id of an existing row |
| Storage.AddEnrichmentTwiceOneRow | src/storage/mod.rs:234-237 | a repeat for the same key adds no row, keeps the original id and stores the new data |
| Storage.AddEnrichmentPreservesValid | src/storage/mod.rs:230-239 | an enrichment upsert keeps the table constraints |
| Storage.AddSighting | src/storage/mod.rs:270-298 | fails iff the indicator does not exist; otherwise appends a new sighting observed now, even an identical one, and sets only that indicator's last_seen to now |
| Storage.CountSightings | src/storage/mod.rs:301-311 | the count is the number of sightings that reference the indicator, so zero iff none does |
| Storage.CountForMeaning | src/storage/mod.rs:301-311 | the recursive count equals the number of matching sighting positions |
| Storage.AddSightingCounts | src/storage/mod.rs:276-310 | a sighting raises its indicator's count by one and leaves every other count alone |
| Storage.AddSightingPreservesValid | src/storage/mod.rs:276-295 | recording a sighting keeps the table constraints |
| Storage.AddSightingKeepsSeenOrder | src/storage/mod.rs:292 | with a clock that does not run backwards, first_seen <= last_seen survives a sighting |
| Enrichment.TtlHours | src/enrichment/mod.rs:31-33 | a provider without its own TTL reports 24 hours |
| Enrichment.ResultOf | src/enrichment/mod.rs:60-66 | a result carries the provider's enrichment type, name and TTL with the returned payload |
| Enrichment.Contribution | src/enrichment/mod.rs:55-83 | a provider contributes one result iff it supports the type and returned data, and nothing otherwise |
| Enrichment.NewEngine | src/enrichment/mod.rs:42-44 | a new engine has no providers |
| Enrichment.AddProvider | src/enrichment/mod.rs:46-48 | registration appends the provider and keeps the earlier ones in order |
| Enrichment.EnrichAll | src/enrichment/mod.rs:51-87 | the results are at most one per provider, each from a supporting provider that returned data, and every such provider's result is present |
| Enrichment.Visit | src/enrichment/mod.rs:55-83 | a provider contributes nothing unless it supports the type, one result when it returns data, and nothing on no data or failure |
| Enrichment.CollectSound | src/enrichment/mod.rs:54-86 | every result comes from a supporting provider whose outcome was data |
| Enrichment.CollectComplete | src/enrichment/mod.rs:59-67 | a failure or empty outcome of one provider does not stop a later provider's result from appearing |
| Enrichment.CollectBound | src/enrichment/mod.rs:54-86 | never more results than registered providers |
| Enrichment.CollectAppend | src/enrichment/mod.rs:54-86 | results keep registration order: the results of two provider lists run in sequence are the concatenation |
| Enrichment.AddProviderExtends | src/enrichment/mod.rs:46-48 | registering a provider appends exactly its contribution to every later enrichment |
| Enrichment.EmptyEngineFindsNothing | src/enrichment/mod.rs:42-44 | an engine with no providers returns nothing |
| Enrichment.NoSupportNoResults | src/enrichment/mod.rs:55-57 | when no provider supports the type, nothing is returned whatever the outcomes |
| Whois.WhoisCapabilities | src/enrichment/whois.rs:108-140 | WHOIS supports exactly Domain, is named and typed "whois", and keeps results 168 hours |
| Whois.CleanKey | src/enrichment/whois.rs:63 | the key is the lowercased trimmed text, so it is trimmed, lowercase and without ':' |
| Whois.LineEntry | src/enrichment/whois.rs:56-68 | blank, '%' and '#' lines and lines without ':' give no entry; any other line splits at its first ':', and gives no entry iff the trimmed value is empty, else the cleaned key with the trimmed value |
| Text.SplitOnce | src/enrichment/whois.rs:62 | `split_once` gives none iff the separator is absent, else the text before and after an occurrence with none before it |
| Text.SplitOnceAt | src/enrichment/whois.rs:62 | any first occurrence of the separator is where `split_once` splits |
| Whois.FirstValueMeaning | src/enrichment/whois.rs:71-75 | the registrar is the value of the first registrar entry, and absent iff there is none |
| Whois.LastValueMeaning | src/enrichment/whois.rs:76-84 | registrant, organisation and country are the value of the last matching entry, and absent iff there is none |
| Whois.ValuesOfMeaning | src/enrichment/whois.rs:92-97 | name servers and statuses collect only values of matching entries, the value of every matching entry, one per matching entry, and none iff nothing matches |
| Whois.ValuesOfIsFilterMap | src/enrichment/whois.rs:92-97 | the collected values are the matching entries' values in input order, as the generic filter gives them |
| Whois.ValuesOfComplete | src/enrichment/whois.rs:92-97 | every matching entry contributes its value, and there is one value per matching entry |
| Whois.LowerAll | src/enrichment/whois.rs:93 | every name server is lowercased, position by position |
| Whois.UntrackedKeyIgnored | src/enrichment/whois.rs:85-98 | date keys and unrecognised keys change no field |
| Whois.ApplyDescribed | src/enrichment/whois.rs:70-98 | applying one entry keeps the fields equal to their first-wins, last-wins and collected definitions |
| Whois.ParseStep | src/enrichment/whois.rs:56-101 | processing one more line keeps the parse equal to its definition over the longer prefix |
| Whois.ParseWhoisResponse | src/enrichment/whois.rs:50-104 | raw is the whole input; registrar is first-wins, registrant, organisation and country last-wins, name servers lowercased in order, statuses verbatim in order |
| Whois.Payload | src/enrichment/whois.rs:128-135 | the payload holds exactly the six documented fields, each holding its parsed value: registrar, registrant, registrant organisation and country, name servers and statuses |
| Whois.Gate | src/enrichment/whois.rs:123-135 | no data iff there is no registrar and no name server; otherwise the payload |
| Whois.Enrich | src/enrichment/whois.rs:120-136 | a failed lookup task fails; a lookup that returns nothing is parsed as empty text and yields no data; otherwise no data iff the parse finds neither registrar nor name server |
| Dns.TxtTexts | src/enrichment/dns.rs:50-57 | each TXT record becomes the concatenation of its strings, one text per record |
| Dns.Lookup | src/enrichment/dns.rs:29-67 | an address is in the A list iff it is an IPv4 answer and in the AAAA list iff it is an IPv6 answer, in answer order, with none lost; MX and NS are copied; each TXT record becomes its concatenated text; a failed query leaves its list empty; CNAME is never filled |
| Dns.PartitionSizes | src/enrichment/dns.rs:33-40 | the A and AAAA lists together are as long as the address answer |
| Dns.PartitionMembers | src/enrichment/dns.rs:33-40 | an address is in the A list iff it is an IPv4 answer and in the AAAA list iff it is an IPv6 answer |
| Dns.DomainPayload | src/enrichment/dns.rs:111-118 | the domain payload holds exactly the six record lists, each under its own key |
| Dns.ReverseLookup | src/enrichment/dns.rs:70-81 | fails iff the value is not an IP literal; otherwise the PTR names, or none when the query fails |
| Dns.Enrich | src/enrichment/dns.rs:98-133 | a domain yields no data iff A, MX and NS are all empty; an IP fails iff it is not a literal and yields no data iff no PTR name came back; any other type yields no data |
| Dns.AaaaOnlyIsNoData | src/enrichment/dns.rs:104-109 | a domain with only AAAA answers yields no data |
| Dns.DnsCapabilities | src/enrichment/dns.rs:86-96 | DNS supports exactly Domain and Ip, is named and typed "dns", and keeps results 24 hours |
| GeoIp.Lookup | src/enrichment/geoip.rs:58-100 | fails iff the value is not an IP literal; otherwise every field is pinned: country code and English country name from the city answer's country (empty when it has none), city name, the first subdivision's name as the region, ASN number and organisation from the ASN answer, and all of them empty when the database or its answer is missing |
| GeoIp.LookupSeparates | src/enrichment/geoip.rs:58-100 | the two databases contribute independently: the lookup with both is the city-only lookup with the ASN fields of the ASN-only lookup |
| GeoIp.Payload | src/enrichment/geoip.rs:129-138 | the payload has exactly the six documented keys, each holding its looked-up field (country code, country name, city, region, ASN, AS organisation) |
| GeoIp.Enrich | src/enrichment/geoip.rs:117-139 | no data when neither database is loaded, checked before the address is parsed; otherwise fails iff the value is not an IP literal, and yields no data iff neither country code nor ASN was found |
| GeoIp.UnknownAddressIsNoData | src/enrichment/geoip.rs:125-127 | an address neither database knows yields no data |
| GeoIp.GeoIpCapabilities | src/enrichment/geoip.rs:105-115 | GeoIP supports exactly Ip, is named "maxmind" and typed "geoip", and keeps results 168 hours |
| AbuseIpDb.CheckIp | src/enrichment/abuseipdb.rs:56-82 | succeeds iff the request got a 2xx reply whose body decodes, and returns that body |
| AbuseIpDb.Payload | src/enrichment/abuseipdb.rs:142-153 | the payload holds exactly the ten documented keys, each holding its field of the check (confidence score, country code, usage type, ISP, domain, hostnames, report count, distinct users, last report time, whitelist flag) |
| AbuseIpDb.Enrich | src/enrichment/abuseipdb.rs:139-154 | never "no data": a successful check always yields its payload and a failed one fails |
| AbuseIpDb.CategoryTexts | src/enrichment/abuseipdb.rs:91-94 | each category is rendered in decimal, in the given order |
| AbuseIpDb.CategoriesField | src/enrichment/abuseipdb.rs:91-95 | an empty list gives "" and a single category its decimal text |
| AbuseIpDb.CategoriesRoundTrip | src/enrichment/abuseipdb.rs:91-95 | splitting the field at ',' gives back one piece per category, each parsing to that category, in order |
| AbuseIpDb.ReportForm | src/enrichment/abuseipdb.rs:97-104 | the form is ip then categories, plus a comment field iff a comment is given |
| AbuseIpDb.ReportFormFields | src/enrichment/abuseipdb.rs:97-104 | the form always names ip and categories, and names comment only when supplied |
| AbuseIpDb.CategoriesConsecutive | src/enrichment/abuseipdb.rs:162-186 | the 23 category constants are the distinct consecutive integers 1..23 |
| AbuseIpDb.AbuseIpDbCapabilities | src/enrichment/abuseipdb.rs:127-137 | AbuseIPDB supports exactly Ip, is named "abuseipdb" and typed "reputation", and keeps results 12 hours |
| VirusTotal.UrlId | src/enrichment/virustotal.rs:95-97 | the URL id uses only the URL-safe base64 alphabet |
| VirusTotal.UrlIdDecodes | src/enrichment/virustotal.rs:96-97 | the URL id decodes back to the URL's UTF-8 bytes |
| VirusTotal.UrlIdInjective | src/enrichment/virustotal.rs:96-97 | distinct ASCII URLs have distinct ids |
| Base64.RoundTrip | src/enrichment/virustotal.rs:96-97 | unpadded URL-safe encoding is undone by decoding, for every byte sequence |
| Utf8.AsciiBytes | src/enrichment/virustotal.rs:97 | an ASCII URL is encoded one byte per character |
| VirusTotal.RequestUrl | src/enrichment/virustotal.rs:80-98 | a lookup URL exists iff the type is supported; an IP, domain or hash is looked up under /ip_addresses/, /domains/ or /files/ with the value, and a URL under /urls/ with its base64url id |
| VirusTotal.DetectionRatio | src/enrichment/virustotal.rs:138-141 | the ratio text contains a '/' |
| VirusTotal.DetectionRatioRoundTrip | src/enrichment/virustotal.rs:138-141 | the ratio reads back as malicious+suspicious over malicious+suspicious+harmless+undetected, and the timeout count does not affect it |
| VirusTotal.TimeoutIgnored | src/enrichment/virustotal.rs:138-141 | the detection ratio does not depend on the timeout count |
| VirusTotal.Analysis | src/enrichment/virustotal.rs:132-143 | the analysis object carries the detection ratio and the malicious count |
| VirusTotal.Optional | src/enrichment/virustotal.rs:152-177 | an optional field appears iff it has a value, and then with that value |
| VirusTotal.CoreReport | src/enrichment/virustotal.rs:126-150 | found is true; analysis appears iff stats were returned (and is their analysis); votes appear iff votes were returned |
| VirusTotal.AddressFields | src/enrichment/virustotal.rs:152-161 | country, asn and as_owner appear iff present in the response |
| VirusTotal.ObjectFields | src/enrichment/virustotal.rs:163-177 | registrar, meaningful_name, type_description and size appear iff present in the response |
| VirusTotal.ReportCore | src/enrichment/virustotal.rs:126-150 | the whole report says found and has analysis iff stats were returned |
| VirusTotal.ReportAddressFields | src/enrichment/virustotal.rs:152-161 | the whole report holds each IP-specific field iff the response has it |
| VirusTotal.ReportObjectFields | src/enrichment/virustotal.rs:163-177 | the whole report holds each domain- and file-specific field iff the response has it |
| VirusTotal.Fetch | src/enrichment/virustotal.rs:101-180 | a 404 becomes {"found": false}; any other status succeeds iff 2xx with a decodable body, and then gives the report |
| VirusTotal.Enrich | src/enrichment/virustotal.rs:200-215 | Email and Cve yield no data; otherwise no data iff the reply was 404, failure iff the fetch failed, and data is the report |
| VirusTotal.VirusTotalCapabilities | src/enrichment/virustotal.rs:185-198 | VirusTotal supports every type except Email and Cve, is named "virustotal" and typed "reputation", and keeps results 12 hours |
| Decimal.IntRoundTrip | src/enrichment/abuseipdb.rs:93 | an integer's decimal text parses back to it |
| Api.WithBulkDefaults | src/api/mod.rs:130-141 | a missing source becomes the bulk source and a present one is kept; a missing tlp becomes the bulk tlp, which may be absent; bulk tags, when given, follow the item's own tags (or none); other fields are unchanged |
| Api.Defaulted | src/api/mod.rs:129-141 | every item is defaulted, one for one, in order |
| Api.DefaultsKeepKey | src/api/mod.rs:130-143 | defaulting never changes the key an item is filed under, or whether it is rejected |
| Api.ErrorsMeaning | src/api/mod.rs:143-149 | there is one error line per rejected item; each line is "value: message" of a rejected item, and every rejected item has its line |
| Collections.FilterMapMeaning | src/api/mod.rs:145-148 | a filtered map has one image per selected element, and only those |
| Api.ErrorsIgnoreDefaults | src/api/mod.rs:143-148 | the error lines are the same before and after defaulting |
| Api.ImportOneKeys | src/api/mod.rs:143 | one item adds its key when it is accepted, and leaves enrichments and sightings alone |
| Api.ImportKeys | src/api/mod.rs:129-150 | the import, each item upserted at its own clock reading, leaves exactly the old keys plus the keys of the accepted items |
| Api.ImportKeepsOtherTables | src/api/mod.rs:129-150 | a bulk import changes no enrichment and no sighting |
| Api.BulkImport | src/api/mod.rs:119-159 | total is the number of items, updated is 0, created + failed = total, errors are the rejected items' lines in input order with failed equal to their number, and the store is the sequential upsert of the defaulted items, the i-th with its own id and its own clock reading |
| Api.ImportItem | src/api/mod.rs:129-149 | one item is defaulted and upserted; it yields an error exactly when it is rejected, and the error is its "value: message" line |
| Api.BulkDefaultsStored | src/api/mod.rs:130-143 | a new bulk item is stored with its tlp, else the bulk tlp, else Amber, with the combined tags and no source id |
| Api.MergeCountsAsCreated | src/api/mod.rs:143-144 | an accepted item whose key already exists adds no row, yet is not counted as failed |
| Api.StoreResultKeys | src/api/mod.rs:225-232 | storing a result for an existing indicator succeeds and adds exactly that result's key |
| Api.StoreResult | src/api/mod.rs:226-232 | storing one result for an existing indicator always succeeds and adds exactly that result's key; the row holds the result's data, fetched now and expiring after the provider's TTL, keeping the row's id on a repeat; every other row and table is unchanged |
| Api.StoreResults | src/api/mod.rs:222-233 | with an existing indicator every result is stored and counted: the count equals the number of results, the keys added are exactly the results' keys, each row holds the last result with its key (its data, its own clock reading as fetch time, expiry after its TTL), and every other row is untouched |
| Api.EnrichIndicator | src/api/mod.rs:201-239 | a missing indicator is "Indicator not found"; otherwise enrichments_added equals the number of enrich_all results (at most one per provider), the results' keys are added, each holding the last result with that key as stored at its clock reading, and every other row, indicator and sighting is unchanged |
| Honeytrap.CredentialTags | src/collectors/honeytrap.rs:91-97 | has_credentials iff credentials are present; targets_admin iff the username is exactly "root" or "admin" |
| Honeytrap.CommandTags | src/collectors/honeytrap.rs:99-114 | executed_commands iff a command is present; on the lowercased command, download_attempt iff wget or curl, made_executable iff chmod and +x, credential_access iff /etc/passwd or /etc/shadow |
| Honeytrap.FileTagsLayout | src/collectors/honeytrap.rs:85-114 | tags start with "honeypot:<protocol>" and "category:<category>", and each later tag is present exactly under its condition |
| Honeytrap.SeverityOf | src/collectors/honeytrap.rs:116-122 | critical, high and low map to their variants and everything else, "medium" included, to Medium; never Unknown |
| Collections.SomesMeaning | src/collectors/honeytrap.rs:78 | keeping the lines that decode keeps every decoded event and invents none |
| Collections.FirstByKeyMeaning | src/collectors/honeytrap.rs:80-83 | first-occurrence deduplication keeps the same set of addresses, never one twice, each kept event the first with its address |
| Honeytrap.ParseLinesDistinct | src/collectors/honeytrap.rs:79-133 | the file path yields no address twice, and every request is Ip, confidence 90, Green, source "honeytrap", 30 days |
| Honeytrap.ParseLinesCover | src/collectors/honeytrap.rs:73-134 | the addresses requested are exactly the source addresses of the lines that decode |
| Honeytrap.ParseStep | src/collectors/honeytrap.rs:73-83 | one more line adds its event iff it decodes and its address is new |
| Honeytrap.ParseEventsFile | src/collectors/honeytrap.rs:65-138 | the loop computes the first-by-address requests of the decodable lines of the file, in order |
| Honeytrap.RepeatedAddressOnce | src/collectors/honeytrap.rs:80-83 | a second event from the same address is dropped |
| Honeytrap.ApiRequests | src/collectors/honeytrap.rs:170-186 | the API path maps every event, without deduplication, to a request with its address and severity High |
| Honeytrap.Fetch | src/collectors/honeytrap.rs:147-192 | with an API URL it succeeds iff the reply is 2xx and decodes, giving the API requests; without one it reads the events file |
| AlienVault.ConvertType | src/collectors/alienvault.rs:82-92 | IPv4/IPv6 are Ip, domain/hostname Domain, URL/URI Url, the three FileHash names Hash, email Email, CVE Cve, each iff; every other name converts to nothing |
| AlienVault.ConvertTypeSurjective | src/collectors/alienvault.rs:82-92 | every type of the model has an OTX name that converts to it |
| AlienVault.ConvertTlp | src/collectors/alienvault.rs:95-103 | absent or unknown labels are Amber, and any other result is the label of that TLP |
| AlienVault.ConvertTlpRoundTrip | src/collectors/alienvault.rs:95-103 | each TLP's lowercase label converts back to it |
| AlienVault.BaseTags | src/collectors/alienvault.rs:119-128 | the pulse's base tags are its own tags, then "pulse:<id>", then "adversary:<name>" when present, then "malware:<family>" per family in order |
| AlienVault.PulseRequestsSound | src/collectors/alienvault.rs:130-146 | every request is an indicator of a known type, with its converted type, the pulse's converted tlp, base tags then "otx_type:<type>", severity Medium, confidence 70, source "alienvault_otx" and 90 days |
| AlienVault.PulseRequestsComplete | src/collectors/alienvault.rs:130-146 | every indicator of a known type yields a request with its value |
| AlienVault.ExpandAppend | src/collectors/alienvault.rs:116-149 | pulses are expanded in order: the expansion of a concatenation is the concatenation of the expansions |
| AlienVault.ExpandSound | src/collectors/alienvault.rs:112-150 | every request comes from one of the pulses and carries the OTX constants |
| AlienVault.NoDeduplication | src/collectors/alienvault.rs:116-147 | two pulses give all the requests of both, with nothing merged |
| AlienVault.Fetch | src/collectors/alienvault.rs:112-150 | succeeds iff the pulse listing is a 2xx reply that decodes, and then is the expansion of its pulses |
| EmergingThreats.Candidate | src/collectors/emerging_threats.rs:38-42 | blank and '#' lines give nothing, and every other line always yields a candidate: the first whitespace-separated token of the trimmed line: non-empty, free of whitespace, and followed by whitespace or the end of the line |
| Text.FirstToken | src/collectors/emerging_threats.rs:42 | `split_whitespace().next()`: none iff all whitespace, else the maximal non-whitespace run that starts at the first non-whitespace character |
| EmergingThreats.LineAddress | src/collectors/emerging_threats.rs:42-43 | a line is listed iff its candidate is an IPv4 literal |
| EmergingThreats.ColonTokenDropped | src/collectors/emerging_threats.rs:43 | a candidate containing ':', such as an IPv6 address, is never listed |
| EmergingThreats.ParseLinesMeaning | src/collectors/emerging_threats.rs:37-55 | every request is a listed IPv4 line's address with High, 80, White, the list's tags and source and 30 days, and every such line has its request |
| EmergingThreats.ParseIpList | src/collectors/emerging_threats.rs:34-56 | the loop computes exactly the parsed list of the text's lines |
| EmergingThreats.FetchIpList | src/collectors/emerging_threats.rs:28-57 | succeeds iff the download is a 2xx reply with a body, and then is the parsed list |
| EmergingThreats.Fetch | src/collectors/emerging_threats.rs:72-94 | always succeeds: the Emerging Threats requests (none if that list failed) followed by the Feodo Tracker requests (none if that list failed) |
| EmergingThreats.FetchSources | src/collectors/emerging_threats.rs:72-94 | every fetched request is IPv4 and carries the source and tags of a list that was fetched successfully |

## Left out

- Database connection, pool and migrations (src/storage/mod.rs:24-46) are I/O. The schema is not among the source files. The model assumes what the schema's constraints imply:
  - unique (type, value);
  - unique (indicator, type, provider) for enrichments;
  - foreign keys from enrichments and sightings to indicators, with cascade delete;
  - the Postgres `severity` enum is declared in the variant order of src/models/mod.rs:36-45, Unknown < Low < Medium < High < Critical, so the `CASE WHEN EXCLUDED.severity > indicators.severity` of src/storage/mod.rs:67 keeps the higher severity in that order. Models.SeverityRank encodes this order.
- Storage.AddEnrichment, Storage.AddSighting: the failure for a missing indicator is the foreign-key violation the schema is assumed to raise; other database errors (lost connections, timeouts) are not modelled.
- Storage.SearchIndicators: only the page clamp, ordering and window are modelled. Any type, severity, confidence, score or search filter is an error, because its placeholder is never bound. `total_pages` is a floating-point ceiling and is left out.
- Storage.GetIndicatorByValue: when several types store the raw value verbatim, the database returns any one of them; the model returns the first in declaration order.
- Storage.AddEnrichment, Storage.AddSighting, Storage.AddSightingKeepsSeenOrder, Storage.DeleteExpired: the database clock `NOW()` and the application clock `Utc::now()` are one `now` parameter. add_enrichment takes fetched_at from `NOW()` but expires_at from `Utc::now()` (src/storage/mod.rs:228-233). add_sighting sets last_seen from `NOW()` (src/storage/mod.rs:292), while upsert_indicator sets first_seen from `Utc::now()`. delete_expired compares expirations computed with `Utc::now()` against `NOW()`. If the two clocks disagree, the premise of AddSightingKeepsSeenOrder compares readings of different clocks.
- Storage.ExpirationAfter, Storage.UpsertIndicator: `expiration_days` is an unbounded integer. In the source `Duration::days` and the date addition panic outside chrono's range, roughly 10^8 days, which an i32 can exceed (src/storage/mod.rs:57). The model gives such a request a far-off expiry instead, so "fails iff undetectable" holds only within that range.
- Storage.ExpiresAfterHours: likewise, an hour count outside chrono's `Duration::hours` range would panic in the source; the model does not range-check it.
- Storage.SearchIndicators: the offset `(page - 1) * per_page` is an unbounded integer. In the source it is an i64 product that overflows for pages above about 9.2 * 10^18 / per_page: a debug build panics and a release build wraps. The model returns the (empty) window at the true offset instead.
- get_enrichments, upsert_source, get_enabled_sources, update_source_fetch_time and get_stats (src/storage/mod.rs:255-408) are reads, source bookkeeping and calendar statistics outside this model.
- Api.BulkImport: the only upsert failure modelled is an undetectable type, so `failed` counts exactly those items. Database failures of individual upserts are not modelled.
- Api.EnrichIndicator: `add_enrichment` cannot fail for an indicator that was just found, so enrichments_added is stated as the number of results. A concurrent delete between the two statements is not modelled.
- The router, HTTP status mapping, JSON response shapes and the other handlers of src/api/mod.rs are left out. So is the background enrichment task that `create_indicator` spawns, and `add_sighting`'s default source "manual". `delete_indicator` is a stub that deletes nothing.
- Network, DNS and file I/O are arguments: HTTP replies, resolver answers, MaxMind database answers, the WHOIS text, and the HoneyTrap events file. Request headers, query parameters (such as OTX's `limit`/`modified_since` and AbuseIPDB's `maxAgeInDays`) and URLs other than VirusTotal's lookup paths are not modelled.
- JSON decoding is abstract. A HoneyTrap line is decoded by a parameter `Decoder`, and replies carry already-decoded bodies. OTX pagination (`next`) is not followed by the source either.
- Concurrency is left out: `tokio::spawn`, `spawn_blocking`, and atomicity under parallel writers. Each upsert is one atomic step.
- Whois: the WHOIS server lookup is the argument `lookup`. Date fields, which the parser ignores, are not modelled. The provider is never registered at start-up (src/main.rs), but its logic is modelled.
- GeoIp: latitude and longitude are floating point and are left out of the record and payload, as are localized names other than the English ones.
- VirusTotal.DetectionRatio: the sums are unbounded integers, whereas the source adds 32-bit integers that could overflow for counts near 2^31.
- VirusTotal: the continent and analysis-date attributes the response type declares are never used by the source and are not modelled.
- Text.Lower, Text.Upper: case mapping is ASCII only. Rust's `to_lowercase`/`to_uppercase` and `is_alphanumeric` are Unicode-aware; inputs are taken to be ASCII. This applies to normalisation, WHOIS keys and HoneyTrap command matching.
- Net: IPv6 syntax is the uninterpreted parameter `v6`, not a parser.
- Models: UUID generation is a fresh-id parameter. Times are integer seconds. `IocSource`, `DashboardStats`, `IndicatorResponse` and the GeoIP/WHOIS/DNS record shapes are modelled only as far as the operations above use them.
- Honeytrap.ParseLinesDistinct: that each kept request comes from the first event with its address is stated on the events (Collections.FirstByKeyMeaning), not re-stated on the requests.
- src/main.rs and src/collectors/mod.rs (CLI wiring, provider registration, the `FeedCollector` trait and its `is_configured` default) hold no logic beyond wiring. AlienVault's `is_configured` is the predicate `AlienVault.IsConfigured`.
- Logging (`tracing`) has no effect on results and is left out.

=== FILE: abuseipdb.dfy ===
/**
 * The AbuseIPDB provider: the reply handling of `check_ip`, `enrich` (which
 * always has a payload once the check succeeds), the `report_ip` form with
 * its comma-joined category list, and the attack-category constants.
 */
module AbuseIpDb {
  import opened Wrappers
  import opened Text
  import opened Json
  import opened Models
  import Decimal
  import Enrichment

  /** name "abuseipdb", enrichment type "reputation", IPs only, cached for 12 hours. */
  const AbuseIpDbProvider: Enrichment.Provider := Enrichment.Provider("abuseipdb", "reputation", {Ip}, Some(12))

  /** The `data` object of a check reply. */
  datatype CheckData = CheckData(
    ipAddress: string,
    isPublic: bool,
    ipVersion: int,
    isWhitelisted: Option<bool>,
    abuseConfidenceScore: int,
    countryCode: Option<string>,
    usageType: Option<string>,
    isp: Option<string>,
    domain: Option<string>,
    hostnames: seq<string>,
    totalReports: int,
    numDistinctUsers: int,
    lastReportedAt: Option<string>)

  /** `check_ip`: the decoded data of a 2xx reply; every other reply is an error. */
  function CheckIp(reply: Enrichment.Reply<CheckData>): (r: Result<CheckData, string>)
    ensures r.Ok? <==> reply.Status? && Enrichment.IsSuccess(reply.code) && reply.body.Some?
    ensures r.Ok? ==> r.value == reply.body.value
  {
    match reply
    case SendFailed => Err("Failed to send request to AbuseIPDB")
    case Status(code, body) =>
      if !Enrichment.IsSuccess(code) then Err("AbuseIPDB API error: " + Decimal.IntToString(code))
      else if body.None? then Err("Failed to parse AbuseIPDB response")
      else Ok(body.value)
  }

  function Payload(d: CheckData): (j: Json)
    ensures j.Obj? && j.fields.Keys == {"abuse_confidence_score", "country_code", "usage_type", "isp", "domain",
                                        "hostnames", "total_reports", "num_distinct_users", "last_reported_at", "is_whitelisted"}
    ensures Get(j, "abuse_confidence_score") == Some(Num(d.abuseConfidenceScore))
    ensures Get(j, "country_code") == Some(OptStr(d.countryCode))
    ensures Get(j, "usage_type") == Some(OptStr(d.usageType))
    ensures Get(j, "isp") == Some(OptStr(d.isp))
    ensures Get(j, "domain") == Some(OptStr(d.domain))
    ensures Get(j, "hostnames") == Some(StrArr(d.hostnames))
    ensures Get(j, "total_reports") == Some(Num(d.totalReports))
    ensures Get(j, "num_distinct_users") == Some(Num(d.numDistinctUsers))
    ensures Get(j, "last_reported_at") == Some(OptStr(d.lastReportedAt))
    ensures Get(j, "is_whitelisted") == Some(OptBool(d.isWhitelisted))
  {
    Obj(map[
      "abuse_confidence_score" := Num(d.abuseConfidenceScore),
      "country_code" := OptStr(d.countryCode),
      "usage_type" := OptStr(d.usageType),
      "isp" := OptStr(d.isp),
      "domain" := OptStr(d.domain),
      "hostnames" := StrArr(d.hostnames),
      "total_reports" := Num(d.totalReports),
      "num_distinct_users" := Num(d.numDistinctUsers),
      "last_reported_at" := OptStr(d.lastReportedAt),
      "is_whitelisted" := OptBool(d.isWhitelisted)])
  }

  /** `enrich`: a failed check is an error; a successful one always has a payload. */
  function Enrich(reply: Enrichment.Reply<CheckData>): (o: Enrichment.Outcome)
    ensures !o.NoData?
    ensures o.Found? <==> CheckIp(reply).Ok?
    ensures o.Found? ==> o.data == Payload(CheckIp(reply).value)
  {
    match CheckIp(reply)
    case Err(msg) => Enrichment.Failed(msg)
    case Ok(d) => Enrichment.Found(Payload(d))
  }

  /** The decimal texts of the categories. */
  function CategoryTexts(categories: seq<int>): (r: seq<string>)
    ensures |r| == |categories|
    ensures forall i :: 0 <= i < |r| ==> r[i] == Decimal.IntToString(categories[i])
  {
    seq(|categories|, i requires 0 <= i < |categories| => Decimal.IntToString(categories[i]))
  }

  /** The `categories` field of a report: the decimal texts joined by ",". */
  function CategoriesField(categories: seq<int>): (s: string)
    ensures categories == [] ==> s == ""
    ensures |categories| == 1 ==> s == Decimal.IntToString(categories[0])
  {
    Join(CategoryTexts(categories), ",")
  }

  /** Splitting the field on ',' and reading every piece back gives the categories. */
  lemma CategoriesRoundTrip(categories: seq<int>)
    requires categories != []
    ensures |Split(CategoriesField(categories), ',')| == |categories|
    ensures forall i :: 0 <= i < |categories| ==> Decimal.ParseInt(Split(CategoriesField(categories), ',')[i]) == Some(categories[i])
  {
    var texts := CategoryTexts(categories);
    forall i | 0 <= i < |texts|
      ensures ',' !in texts[i]
    {
      assert forall k :: 0 <= k < |texts[i]| ==> texts[i][k] != ',';
    }
    SplitJoin(texts, ',');
    forall i | 0 <= i < |categories|
      ensures Decimal.ParseInt(texts[i]) == Some(categories[i])
    {
      Decimal.IntRoundTrip(categories[i]);
    }
  }

  /**
   * The form of `report_ip`, in order: `ip`, `categories`, then `comment`
   * only when one is given.
   */
  function ReportForm(ip: string, categories: seq<int>, comment: Option<string>): (form: seq<(string, string)>)
    ensures |form| == if comment.Some? then 3 else 2
    ensures form[0] == ("ip", ip) && form[1] == ("categories", CategoriesField(categories))
    ensures comment.Some? ==> form[2] == ("comment", comment.value)
  {
    var base := [("ip", ip), ("categories", CategoriesField(categories))];
    match comment
    case Some(c) => base + [("comment", c)]
    case None => base
  }

  /** The report form's field names: `comment` appears iff a comment was given. */
  lemma ReportFormFields(ip: string, categories: seq<int>, comment: Option<string>)
    ensures var names := set i | 0 <= i < |ReportForm(ip, categories, comment)| :: ReportForm(ip, categories, comment)[i].0; names == if comment.Some? then {"ip", "categories", "comment"} else {"ip", "categories"}
  {
    var form := ReportForm(ip, categories, comment);
    var names := set i | 0 <= i < |form| :: form[i].0;
    if comment.Some? {
      assert form[2].0 == "comment";
      assert names == {"ip", "categories", "comment"};
    } else {
      assert names == {"ip", "categories"};
    }
  }

  // ---------------------------------------------------------------- categories

  const DnsCompromise: int := 1
  const DnsPoisoning: int := 2
  const FraudOrders: int := 3
  const DdosAttack: int := 4
  const FtpBruteForce: int := 5
  const PingOfDeath: int := 6
  const Phishing: int := 7
  const FraudVoip: int := 8
  const OpenProxy: int := 9
  const WebSpam: int := 10
  const EmailSpam: int := 11
  const BlogSpam: int := 12
  const VpnIp: int := 13
  const PortScan: int := 14
  const Hacking: int := 15
  const SqlInjection: int := 16
  const Spoofing: int := 17
  const BruteForce: int := 18
  const BadWebBot: int := 19
  const ExploitedHost: int := 20
  const WebAppAttack: int := 21
  const Ssh: int := 22
  const IotTargeted: int := 23

  /** The categories in declaration order. */
  const AllCategories: seq<int> := [
    DnsCompromise, DnsPoisoning, FraudOrders, DdosAttack, FtpBruteForce, PingOfDeath,
    Phishing, FraudVoip, OpenProxy, WebSpam, EmailSpam, BlogSpam, VpnIp, PortScan,
    Hacking, SqlInjection, Spoofing, BruteForce, BadWebBot, ExploitedHost, WebAppAttack,
    Ssh, IotTargeted]

  /** The constants are 1, 2, ..., 23 in declaration order, hence pairwise distinct. */
  lemma CategoriesConsecutive()
    ensures |AllCategories| == 23
    ensures forall i :: 0 <= i < 23 ==> AllCategories[i] == i + 1
    ensures forall i, j :: 0 <= i < j < 23 ==> AllCategories[i] != AllCategories[j]
  {
  }

  lemma AbuseIpDbCapabilities(t: IocType)
    ensures Enrichment.Supports(AbuseIpDbProvider, t) <==> t == Ip
    ensures Enrichment.TtlHours(AbuseIpDbProvider) == 12
    ensures AbuseIpDbProvider.name == "abuseipdb" && AbuseIpDbProvider.enrichmentType == "reputation"
  {
  }
}

=== FILE: alienvault.dfy ===
/**
 * The AlienVault OTX collector: mapping OTX indicator types and TLP labels
 * onto the model's, and expanding the subscribed pulses into indicator
 * requests, one per indicator of a known type, tagged with the pulse's
 * context. The pulse listing itself is the reply argument of `Fetch`.
 */
module AlienVault {
  import opened Wrappers
  import opened Models
  import opened Collections
  import Enrichment

  datatype OtxIndicator = OtxIndicator(indicator: string, indicatorType: string, description: Option<string>)

  datatype Pulse = Pulse(
    id: string,
    name: string,
    description: Option<string>,
    tags: seq<string>,
    indicators: seq<OtxIndicator>,
    tlp: Option<string>,
    adversary: Option<string>,
    malwareFamilies: seq<string>)

  /** The OTX type names the collector accepts. */
  const KnownTypes: set<string> := {
    "IPv4", "IPv6", "domain", "hostname", "URL", "URI",
    "FileHash-MD5", "FileHash-SHA1", "FileHash-SHA256", "email", "CVE"}

  /** `convert_type`: the model's type of an OTX type name, if it has one. */
  function ConvertType(otxType: string): (r: Option<IocType>)
    ensures r.Some? <==> otxType in KnownTypes
    ensures r == Some(Ip) <==> otxType == "IPv4" || otxType == "IPv6"
    ensures r == Some(Domain) <==> otxType == "domain" || otxType == "hostname"
    ensures r == Some(Url) <==> otxType == "URL" || otxType == "URI"
    ensures r == Some(Hash) <==> otxType in {"FileHash-MD5", "FileHash-SHA1", "FileHash-SHA256"}
    ensures r == Some(Email) <==> otxType == "email"
    ensures r == Some(Cve) <==> otxType == "CVE"
  {
    if otxType == "IPv4" || otxType == "IPv6" then Some(Ip)
    else if otxType == "domain" || otxType == "hostname" then Some(Domain)
    else if otxType == "URL" || otxType == "URI" then Some(Url)
    else if otxType == "FileHash-MD5" || otxType == "FileHash-SHA1" || otxType == "FileHash-SHA256" then Some(Hash)
    else if otxType == "email" then Some(Email)
    else if otxType == "CVE" then Some(Cve)
    else None
  }

  /** An OTX name for each type of the model. */
  function OtxName(t: IocType): string {
    match t
    case Ip => "IPv4"
    case Domain => "domain"
    case Url => "URL"
    case Hash => "FileHash-SHA256"
    case Email => "email"
    case Cve => "CVE"
  }

  /** Every type of the model is reachable from OTX: its OTX name converts back to it. */
  lemma ConvertTypeSurjective(t: IocType)
    ensures ConvertType(OtxName(t)) == Some(t)
  {
  }

  /** OTX's spelling of a TLP label. */
  function TlpLabel(t: Tlp): string {
    match t
    case White => "white"
    case Green => "green"
    case Amber => "amber"
    case Red => "red"
  }

  /** `convert_tlp`: the four lowercase labels; absent or anything else is Amber. */
  function ConvertTlp(otxTlp: Option<string>): (t: Tlp)
    ensures otxTlp.None? ==> t == Amber
    ensures t != Amber ==> otxTlp == Some(TlpLabel(t))
    ensures otxTlp.Some? && otxTlp.value !in {"white", "green", "amber", "red"} ==> t == Amber
  {
    match otxTlp
    case Some("white") => White
    case Some("green") => Green
    case Some("amber") => Amber
    case Some("red") => Red
    case _ => Amber
  }

  /** A label OTX writes reads back as the same TLP. */
  lemma ConvertTlpRoundTrip(t: Tlp)
    ensures ConvertTlp(Some(TlpLabel(t))) == t
  {
  }

  function MalwareTag(m: string): string {
    "malware:" + m
  }

  /**
   * The tags every request of a pulse starts with: the pulse's own tags,
   * "pulse:<id>", "adversary:<name>" when there is one, and one
   * "malware:<family>" per malware family.
   */
  function BaseTags(p: Pulse): (tags: seq<string>)
    ensures |tags| == |p.tags| + 1 + (if p.adversary.Some? then 1 else 0) + |p.malwareFamilies|
    ensures tags[..|p.tags|] == p.tags && tags[|p.tags|] == "pulse:" + p.id
    ensures p.adversary.Some? ==> tags[|p.tags| + 1] == "adversary:" + p.adversary.value
    ensures forall i :: 0 <= i < |p.malwareFamilies| ==>
      tags[|tags| - |p.malwareFamilies| + i] == "malware:" + p.malwareFamilies[i]
  {
    p.tags + ["pulse:" + p.id]
    + (match p.adversary case Some(a) => ["adversary:" + a] case None => [])
    + MapSeq(p.malwareFamilies, MalwareTag)
  }

  /** The request of one indicator of a pulse, when its type converts. */
  function IndicatorRequest(p: Pulse): OtxIndicator -> Option<CreateIndicatorRequest> {
    (ind: OtxIndicator) =>
      match ConvertType(ind.indicatorType)
      case None => None
      case Some(t) =>
        Some(CreateIndicatorRequest(ind.indicator, Some(t), Some(Medium), Some(70), Some(ConvertTlp(p.tlp)),
                                    Some(BaseTags(p) + ["otx_type:" + ind.indicatorType]), Some("alienvault_otx"), Some(90)))
  }

  /** The requests of one pulse, in indicator order. */
  function PulseRequests(p: Pulse): seq<CreateIndicatorRequest> {
    Somes(p.indicators, IndicatorRequest(p))
  }

  /** The requests of all pulses, pulse by pulse, without deduplication. */
  function Expand(pulses: seq<Pulse>): seq<CreateIndicatorRequest> {
    FlatMap(pulses, PulseRequests)
  }

  /** The constants of every OTX request. */
  predicate OtxDefaults(r: CreateIndicatorRequest) {
    r.severity == Some(Medium) && r.confidence == Some(70) && r.source == Some("alienvault_otx") && r.expirationDays == Some(90)
  }

  /**
   * Every request of a pulse comes from one of its indicators of a known
   * type: that indicator's value and converted type, the pulse's TLP, the
   * base tags followed by "otx_type:<type>", and the OTX constants.
   */
  lemma PulseRequestsSound(p: Pulse)
    ensures |PulseRequests(p)| <= |p.indicators|
    ensures forall r :: r in PulseRequests(p) ==>
      exists i :: 0 <= i < |p.indicators| && ConvertType(p.indicators[i].indicatorType).Some?
        && r.value == p.indicators[i].indicator && r.iocType == ConvertType(p.indicators[i].indicatorType)
        && r.tlp == Some(ConvertTlp(p.tlp)) && r.tags == Some(BaseTags(p) + ["otx_type:" + p.indicators[i].indicatorType])
        && OtxDefaults(r)
  {
    SomesMeaning(p.indicators, IndicatorRequest(p));
    forall r | r in PulseRequests(p)
      ensures exists i :: (0 <= i < |p.indicators| && ConvertType(p.indicators[i].indicatorType).Some?
        && r.value == p.indicators[i].indicator && r.iocType == ConvertType(p.indicators[i].indicatorType)
        && r.tlp == Some(ConvertTlp(p.tlp)) && r.tags == Some(BaseTags(p) + ["otx_type:" + p.indicators[i].indicatorType])
        && OtxDefaults(r))
    {
      var i :| 0 <= i < |p.indicators| && IndicatorRequest(p)(p.indicators[i]) == Some(r);
      var ind := p.indicators[i];
      var t := ConvertType(ind.indicatorType).value;
      assert r == CreateIndicatorRequest(ind.indicator, Some(t), Some(Medium), Some(70), Some(ConvertTlp(p.tlp)),
                                         Some(BaseTags(p) + ["otx_type:" + ind.indicatorType]), Some("alienvault_otx"), Some(90));
    }
  }

  /** Every indicator of a known type gives a request with its value. */
  lemma PulseRequestsComplete(p: Pulse)
    ensures forall i :: 0 <= i < |p.indicators| && p.indicators[i].indicatorType in KnownTypes ==>
      exists r :: r in PulseRequests(p) && r.value == p.indicators[i].indicator
  {
    SomesMeaning(p.indicators, IndicatorRequest(p));
    forall i | 0 <= i < |p.indicators| && p.indicators[i].indicatorType in KnownTypes
      ensures exists r :: r in PulseRequests(p) && r.value == p.indicators[i].indicator
    {
      var r := IndicatorRequest(p)(p.indicators[i]).value;
      assert r in PulseRequests(p);
    }
  }

  /** Expansion is concatenation: the requests of a pulse list then one more pulse. */
  lemma ExpandAppend(pulses: seq<Pulse>, more: seq<Pulse>)
    ensures Expand(pulses + more) == Expand(pulses) + Expand(more)
  {
    FlatMapAppend(pulses, more, PulseRequests);
  }

  /** Every request of the expansion comes from one of the pulses, and carries the OTX constants. */
  lemma {:induction false} ExpandSound(pulses: seq<Pulse>)
    ensures forall r :: r in Expand(pulses) ==> OtxDefaults(r) && exists k :: 0 <= k < |pulses| && r in PulseRequests(pulses[k])
  {
    if pulses != [] {
      var n := |pulses| - 1;
      ExpandSound(pulses[..n]);
      assert Expand(pulses) == Expand(pulses[..n]) + PulseRequests(pulses[n]);
      PulseRequestsSound(pulses[n]);
      assert forall k :: 0 <= k < n ==> pulses[..n][k] == pulses[k];
    }
  }

  /** `is_configured`: an API key is set. */
  predicate IsConfigured(apiKey: string) {
    apiKey != []
  }

  /**
   * `fetch`: the expansion of the subscribed pulses; a failed request, an
   * error status or an undecodable listing is an error.
   */
  function Fetch(reply: Enrichment.Reply<seq<Pulse>>): (r: Result<seq<CreateIndicatorRequest>, string>)
    ensures r.Ok? <==> reply.Status? && Enrichment.IsSuccess(reply.code) && reply.body.Some?
    ensures r.Ok? ==> r.value == Expand(reply.body.value)
  {
    match reply
    case SendFailed => Err("Failed to fetch OTX pulses")
    case Status(code, body) =>
      if !Enrichment.IsSuccess(code) then Err("OTX API error")
      else if body.None? then Err("Failed to parse OTX response")
      else Ok(Expand(body.value))
  }

  /** The same indicator in two pulses gives two requests: the collector does not deduplicate. */
  lemma NoDeduplication(p1: Pulse, p2: Pulse)
    ensures |Expand([p1, p2])| == |PulseRequests(p1)| + |PulseRequests(p2)|
  {
    ExpandAppend([p1], [p2]);
    assert [p1] + [p2] == [p1, p2];
    assert Expand([p1]) == PulseRequests(p1) by {
      assert [p1][..0] == [];
      assert FlatMap([p1], PulseRequests) == FlatMap([], PulseRequests) + PulseRequests(p1);
    }
    assert Expand([p2]) == PulseRequests(p2) by {
      assert [p2][..0] == [];
      assert FlatMap([p2], PulseRequests) == FlatMap([], PulseRequests) + PulseRequests(p2);
    }
  }
}

=== FILE: api.dfy ===
/**
 * The two handlers of the REST layer that hold logic of their own:
 * `bulk_import`, which applies the request-wide defaults to every item and
 * counts the outcomes of the upserts, and `enrich_indicator`, which stores
 * every result of the enrichment engine and counts the stored ones. The
 * clock and the ids the database would generate are arguments.
 */
module Api {
  import opened Wrappers
  import opened Models
  import opened Storage
  import Net
  import Enrichment
  import opened Collections

  // ---------------------------------------------------------------- bulk_import

  /**
   * The bulk defaults of one item: the bulk source when the item has none,
   * the bulk TLP (possibly absent) when the item has none, and, when bulk
   * tags are given, the item's tags (or none) followed by the bulk tags.
   */
  function WithBulkDefaults(item: CreateIndicatorRequest, bulk: BulkImportRequest): (r: CreateIndicatorRequest)
    ensures r.value == item.value && r.iocType == item.iocType
    ensures r.severity == item.severity && r.confidence == item.confidence && r.expirationDays == item.expirationDays
    ensures item.source.Some? ==> r.source == item.source
    ensures item.source.None? ==> r.source == Some(bulk.source)
    ensures item.tlp.Some? ==> r.tlp == item.tlp
    ensures item.tlp.None? ==> r.tlp == bulk.tlp
    ensures bulk.tags.None? ==> r.tags == item.tags
    ensures bulk.tags.Some? ==> r.tags == Some(item.tags.GetOr([]) + bulk.tags.value)
  {
    var withSource := if item.source.None? then item.(source := Some(bulk.source)) else item;
    var withTlp := if withSource.tlp.None? then withSource.(tlp := bulk.tlp) else withSource;
    match bulk.tags
    case Some(bulkTags) => withTlp.(tags := Some(withTlp.tags.GetOr([]) + bulkTags))
    case None => withTlp
  }

  /** Every item of a bulk request with the defaults applied, in order. */
  function Defaulted(req: BulkImportRequest): (items: seq<CreateIndicatorRequest>)
    ensures |items| == |req.indicators|
    ensures forall i :: 0 <= i < |items| ==> items[i] == WithBulkDefaults(req.indicators[i], req)
  {
    MapSeq(req.indicators, item => WithBulkDefaults(item, req))
  }

  /** The defaults never change where, or whether, an item is filed. */
  lemma DefaultsKeepKey(item: CreateIndicatorRequest, bulk: BulkImportRequest, v6: Net.Ipv6Syntax)
    ensures UpsertKey(WithBulkDefaults(item, bulk), v6) == UpsertKey(item, v6)
  {
  }

  /** An item the upsert rejects: its type is neither given nor detectable. */
  predicate Rejected(item: CreateIndicatorRequest, v6: Net.Ipv6Syntax) {
    UpsertKey(item, v6).None?
  }

  /** The `errors` line of a rejected item: its value, then the error's text. */
  function ErrorLine(item: CreateIndicatorRequest): string {
    item.value + ": " + ErrorMessage(UndetectableType(item.value))
  }

  /** The error lines of the rejected items, in input order. */
  function ErrorsOf(items: seq<CreateIndicatorRequest>, v6: Net.Ipv6Syntax): seq<string> {
    FilterMap(items, item => Rejected(item, v6), ErrorLine)
  }

  /** The positions of the rejected items. */
  function RejectedIndices(items: seq<CreateIndicatorRequest>, v6: Net.Ipv6Syntax): set<int> {
    Selected(items, item => Rejected(item, v6))
  }

  /**
   * One error line per rejected item and nothing else: every line is that of
   * a rejected item, every rejected item has its line, and there are exactly
   * as many lines as rejected items.
   */
  lemma ErrorsMeaning(items: seq<CreateIndicatorRequest>, v6: Net.Ipv6Syntax)
    ensures |ErrorsOf(items, v6)| == |RejectedIndices(items, v6)| <= |items|
    ensures forall e :: e in ErrorsOf(items, v6) ==> exists i :: 0 <= i < |items| && Rejected(items[i], v6) && e == ErrorLine(items[i])
    ensures forall i :: 0 <= i < |items| && Rejected(items[i], v6) ==> ErrorLine(items[i]) in ErrorsOf(items, v6)
  {
    FilterMapMeaning(items, item => Rejected(item, v6), ErrorLine);
  }

  /** The error lines are the same whether or not the defaults were applied. */
  lemma ErrorsIgnoreDefaults(req: BulkImportRequest, v6: Net.Ipv6Syntax)
    ensures ErrorsOf(Defaulted(req), v6) == ErrorsOf(req.indicators, v6)
  {
    forall x: CreateIndicatorRequest
      ensures Rejected(WithBulkDefaults(x, req), v6) == Rejected(x, v6)
      ensures ErrorLine(WithBulkDefaults(x, req)) == ErrorLine(x)
    {
      DefaultsKeepKey(x, req, v6);
    }
    FilterMapAfterMap(req.indicators, item => WithBulkDefaults(item, req), item => Rejected(item, v6), ErrorLine);
  }

  /** The store after one item: the upserted store, or the same store when it is rejected. */
  function ImportOne(st: Store, item: CreateIndicatorRequest, id: Uuid, now: Timestamp, v6: Net.Ipv6Syntax): Store {
    match UpsertIndicator(st, item, None, now, id, v6)
    case Ok(r) => r.0
    case Err(_) => st
  }

  /**
   * The store after the items, upserted in order, the i-th with fresh id
   * ids[i] at time nows[i]: each upsert reads the clock for itself.
   */
  function ImportAll(st: Store, items: seq<CreateIndicatorRequest>, ids: seq<Uuid>, nows: seq<Timestamp>, v6: Net.Ipv6Syntax): Store
    requires |ids| == |items| && |nows| == |items|
  {
    if items == [] then st
    else
      var n := |items| - 1;
      ImportOne(ImportAll(st, items[..n], ids[..n], nows[..n], v6), items[n], ids[n], nows[n], v6)
  }

  /** The keys an import files: one per accepted item. */
  function FiledKeys(items: seq<CreateIndicatorRequest>, v6: Net.Ipv6Syntax): set<Key> {
    KeysOf(items, item => UpsertKey(item, v6))
  }

  /** One item adds its key, if it has one, and touches nothing but the indicators. */
  lemma ImportOneKeys(st: Store, item: CreateIndicatorRequest, id: Uuid, now: Timestamp, v6: Net.Ipv6Syntax)
    ensures ImportOne(st, item, id, now, v6).indicators.Keys == st.indicators.Keys + (if UpsertKey(item, v6).Some? then {UpsertKey(item, v6).value} else {})
    ensures ImportOne(st, item, id, now, v6).enrichments == st.enrichments
    ensures ImportOne(st, item, id, now, v6).sightings == st.sightings
  {
  }

  /** An import adds exactly the keys of its accepted items to the indicators, new or already present. */
  lemma {:induction false} ImportKeys(st: Store, items: seq<CreateIndicatorRequest>, ids: seq<Uuid>, nows: seq<Timestamp>, v6: Net.Ipv6Syntax)
    requires |ids| == |items| && |nows| == |items|
    ensures ImportAll(st, items, ids, nows, v6).indicators.Keys == st.indicators.Keys + FiledKeys(items, v6)
  {
    if items != [] {
      var n := |items| - 1;
      ImportKeys(st, items[..n], ids[..n], nows[..n], v6);
      ImportOneKeys(ImportAll(st, items[..n], ids[..n], nows[..n], v6), items[n], ids[n], nows[n], v6);
      KeysOfLast(items, item => UpsertKey(item, v6));
    }
  }

  /** An import leaves the enrichments and the sightings alone. */
  lemma {:induction false} ImportKeepsOtherTables(st: Store, items: seq<CreateIndicatorRequest>, ids: seq<Uuid>, nows: seq<Timestamp>, v6: Net.Ipv6Syntax)
    requires |ids| == |items| && |nows| == |items|
    ensures ImportAll(st, items, ids, nows, v6).enrichments == st.enrichments
    ensures ImportAll(st, items, ids, nows, v6).sightings == st.sightings
  {
    if items != [] {
      var n := |items| - 1;
      ImportKeepsOtherTables(st, items[..n], ids[..n], nows[..n], v6);
      ImportOneKeys(ImportAll(st, items[..n], ids[..n], nows[..n], v6), items[n], ids[n], nows[n], v6);
    }
  }

  lemma ImportAllSnoc(st: Store, items: seq<CreateIndicatorRequest>, ids: seq<Uuid>, i: nat, nows: seq<Timestamp>, v6: Net.Ipv6Syntax)
    requires |ids| == |items| && |nows| == |items| && i < |items|
    ensures ImportAll(st, items[..i + 1], ids[..i + 1], nows[..i + 1], v6) == ImportOne(ImportAll(st, items[..i], ids[..i], nows[..i], v6), items[i], ids[i], nows[i], v6)
  {
    assert items[..i + 1][..i] == items[..i] && ids[..i + 1][..i] == ids[..i] && nows[..i + 1][..i] == nows[..i];
  }

  lemma ErrorsSnoc(items: seq<CreateIndicatorRequest>, i: nat, v6: Net.Ipv6Syntax)
    requires i < |items|
    ensures ErrorsOf(items[..i + 1], v6) == ErrorsOf(items[..i], v6) + (if Rejected(items[i], v6) then [ErrorLine(items[i])] else [])
  {
    TakeSnoc(items, i);
    FilterMapSnoc(items[..i], items[i], item => Rejected(item, v6), ErrorLine);
  }

  /**
   * One iteration of `bulk_import`: upsert the defaulted item without a
   * source id; report the error line when the store rejects it.
   */
  method ImportItem(cur: Store, original: CreateIndicatorRequest, req: BulkImportRequest, id: Uuid, now: Timestamp, v6: Net.Ipv6Syntax)
    returns (next: Store, err: Option<string>)
    ensures next == ImportOne(cur, WithBulkDefaults(original, req), id, now, v6)
    ensures err.None? <==> !Rejected(original, v6)
    ensures err.Some? ==> err.value == ErrorLine(original)
  {
    var item := WithBulkDefaults(original, req);
    DefaultsKeepKey(original, req, v6);
    var r := UpsertIndicator(cur, item, None, now, id, v6);
    if r.Ok? {
      next, err := r.value.0, None;
    } else {
      next, err := cur, Some(item.value + ": " + ErrorMessage(r.error));
    }
  }

  /**
   * `bulk_import`: every item gets the bulk defaults and is upserted; an
   * accepted item counts as created, whether it was new or merged into an
   * existing row, so `updated` stays 0; a rejected one counts as failed
   * and contributes its error line.
   */
  method BulkImport(st: Store, req: BulkImportRequest, ids: seq<Uuid>, nows: seq<Timestamp>, v6: Net.Ipv6Syntax)
    returns (st': Store, resp: BulkImportResponse)
    requires |ids| == |req.indicators| && |nows| == |req.indicators|
    ensures resp.total == |req.indicators|
    ensures resp.updated == 0
    ensures resp.created + resp.failed == resp.total
    ensures resp.errors == ErrorsOf(req.indicators, v6)
    ensures resp.failed == |resp.errors| == |RejectedIndices(req.indicators, v6)|
    ensures st' == ImportAll(st, Defaulted(req), ids, nows, v6)
  {
    var items := req.indicators;
    var defaulted := Defaulted(req);
    var created, failed := 0, 0;
    var errors: seq<string> := [];
    st' := st;
    for i := 0 to |items|
      invariant st' == ImportAll(st, defaulted[..i], ids[..i], nows[..i], v6)
      invariant errors == ErrorsOf(items[..i], v6)
      invariant created + failed == i && failed == |errors|
    {
      ImportAllSnoc(st, defaulted, ids, i, nows, v6);
      ErrorsSnoc(items, i, v6);
      var err;
      st', err := ImportItem(st', items[i], req, ids[i], nows[i], v6);
      if err.None? {
        created := created + 1;
      } else {
        failed := failed + 1;
        errors := errors + [err.value];
      }
    }
    TakeAll(items);
    TakeAll(defaulted);
    TakeAll(ids);
    TakeAll(nows);
    ErrorsMeaning(items, v6);
    resp := BulkImportResponse(|items|, created, 0, failed, errors);
  }

  /**
   * What a new row filed by a bulk import holds: the item's TLP, else the
   * bulk TLP, else Amber; the combined tags; and no source id, since the
   * bulk path files every item without one.
   */
  lemma BulkDefaultsStored(st: Store, item: CreateIndicatorRequest, bulk: BulkImportRequest, now: Timestamp, id: Uuid, v6: Net.Ipv6Syntax)
    requires UpsertKey(item, v6).Some? && UpsertKey(item, v6).value !in st.indicators
    ensures var r := UpsertIndicator(st, WithBulkDefaults(item, bulk), None, now, id, v6);
      && r.Ok?
      && r.value.1.tlp == (if item.tlp.Some? then item.tlp.value else bulk.tlp.GetOr(Amber))
      && (bulk.tags.Some? ==> r.value.1.tags == item.tags.GetOr([]) + bulk.tags.value)
      && (bulk.tags.None? ==> r.value.1.tags == item.tags.GetOr([]))
      && r.value.1.sourceIds == []
  {
    var d := WithBulkDefaults(item, bulk);
    DefaultsKeepKey(item, bulk, v6);
    UpsertFresh(st, d, None, now, id, v6);
  }

  /** An accepted item whose key is already stored is merged: no row is added, yet it counts as created. */
  lemma MergeCountsAsCreated(st: Store, item: CreateIndicatorRequest, id: Uuid, now: Timestamp, v6: Net.Ipv6Syntax)
    requires UpsertKey(item, v6).Some? && UpsertKey(item, v6).value in st.indicators
    ensures ErrorsOf([item], v6) == [] && |RejectedIndices([item], v6)| == 0
    ensures ImportAll(st, [item], [id], [now], v6).indicators.Keys == st.indicators.Keys
  {
    assert [item][..0] == [] && [id][..0] == [];
    assert ErrorsOf([item], v6) == [] by {
      assert [item] == [] + [item];
      FilterMapSnoc([], item, x => Rejected(x, v6), ErrorLine);
    }
    assert RejectedIndices([item], v6) == {} by {
      assert forall i :: 0 <= i < 1 ==> [item][i] == item;
    }
    assert ImportAll(st, [item], [id], [now], v6) == ImportOne(st, item, id, now, v6);
    ImportOneKeys(st, item, id, now, v6);
  }

  // ---------------------------------------------------------------- enrich_indicator

  /** The enrichments-table key a result is stored under. */
  function ResultKey(id: Uuid, res: Enrichment.EnrichmentResult): EnrichmentKey {
    (id, res.enrichmentType, res.provider)
  }

  function ResultKeys(id: Uuid, results: seq<Enrichment.EnrichmentResult>): set<EnrichmentKey> {
    set j | 0 <= j < |results| :: ResultKey(id, results[j])
  }

  /**
   * The row under a result's key holds that result's payload, fetched at
   * `now` and expiring after the provider's TTL.
   */
  predicate StoredAs(store: Store, id: Uuid, res: Enrichment.EnrichmentResult, now: Timestamp) {
    && ResultKey(id, res) in store.enrichments
    && var row := store.enrichments[ResultKey(id, res)];
    && row.data == res.data && row.fetchedAt == now
    && row.expiresAt == ExpiresAfterHours(now, Some(res.ttlHours))
  }

  /** No result after position i among the first n shares its key: results[i] is the one that stays. */
  predicate LastOfKey(id: Uuid, results: seq<Enrichment.EnrichmentResult>, i: nat, n: nat)
    requires i < n <= |results|
  {
    forall j :: i < j < n ==> ResultKey(id, results[j]) != ResultKey(id, results[i])
  }

  lemma ResultKeysSnoc(id: Uuid, results: seq<Enrichment.EnrichmentResult>, j: nat)
    requires j < |results|
    ensures ResultKeys(id, results[..j + 1]) == ResultKeys(id, results[..j]) + {ResultKey(id, results[j])}
  {
    assert results[..j + 1][j] == results[j];
    assert forall k :: 0 <= k < j ==> results[..j + 1][k] == results[..j][k];
  }

  /** Storing a result for an indicator that exists succeeds and adds exactly its key. */
  lemma StoreResultKeys(st: Store, id: Uuid, res: Enrichment.EnrichmentResult, now: Timestamp, freshId: Uuid)
    requires HasId(st, id)
    ensures var r := AddEnrichment(st, id, res.enrichmentType, res.provider, res.data, Some(res.ttlHours), now, freshId);
      && r.Ok?
      && r.value.0.enrichments.Keys == st.enrichments.Keys + {ResultKey(id, res)}
      && r.value.0.indicators == st.indicators && r.value.0.sightings == st.sightings
  {
  }

  /**
   * `enrich_indicator`: an unknown id is an error; otherwise every result of
   * the engine is stored with its provider's TTL and counted when the store
   * accepts it. The indicator exists throughout, so every result is stored
   * and the count is the number of results.
   */
  method EnrichIndicator(st: Store, e: Enrichment.Engine, id: Uuid, outcomes: seq<Enrichment.Outcome>,
                         nows: seq<Timestamp>, freshIds: seq<Uuid>) returns (r: Result<(Store, nat), string>)
    requires UniqueIds(st)
    requires |outcomes| == |e.providers| && |freshIds| == |e.providers| && |nows| == |e.providers|
    ensures r.Err? <==> !HasId(st, id)
    ensures r.Err? ==> r.error == "Indicator not found"
    ensures r.Ok? ==>
      var results := Enrichment.Collect(e.providers, GetIndicator(st, id).value.iocType, outcomes);
      && r.value.1 == |results| <= |e.providers|
      && r.value.0.enrichments.Keys == st.enrichments.Keys + ResultKeys(id, results)
      && (forall j :: 0 <= j < |results| && LastOfKey(id, results, j, |results|) ==> StoredAs(r.value.0, id, results[j], nows[j]))
      && (forall k :: k in st.enrichments && k !in ResultKeys(id, results) ==> r.value.0.enrichments[k] == st.enrichments[k])
      && r.value.0.indicators == st.indicators
      && r.value.0.sightings == st.sightings
  {
    var found := GetIndicator(st, id);
    if found.None? {
      return Err("Indicator not found");
    }
    var results := Enrichment.EnrichAll(e, found.value, outcomes);
    var store, added := StoreResults(st, id, results, nows, freshIds);
    return Ok((store, added));
  }

  /**
   * The storing loop of `enrich_indicator`: every result is stored and
   * counted. Each row holds the last result with its key, stored at that
   * result's own clock reading; rows under other keys are untouched.
   */
  method StoreResults(st: Store, id: Uuid, results: seq<Enrichment.EnrichmentResult>, nows: seq<Timestamp>, freshIds: seq<Uuid>)
    returns (store: Store, added: nat)
    requires HasId(st, id) && |results| <= |freshIds| && |results| <= |nows|
    ensures added == |results|
    ensures store.enrichments.Keys == st.enrichments.Keys + ResultKeys(id, results)
    ensures forall j :: 0 <= j < |results| && LastOfKey(id, results, j, |results|) ==> StoredAs(store, id, results[j], nows[j])
    ensures forall k :: k in st.enrichments && k !in ResultKeys(id, results) ==> store.enrichments[k] == st.enrichments[k]
    ensures store.indicators == st.indicators && store.sightings == st.sightings
  {
    store := st;
    added := 0;
    for j := 0 to |results|
      invariant added == j
      invariant store.indicators == st.indicators && store.sightings == st.sightings
      invariant StoredPrefix(st, store, id, results, nows, j)
    {
      var ok, next;
      next, ok := StoreResult(store, id, results[j], nows[j], freshIds[j]);
      StoredStep(st, store, next, id, results, nows, j);
      store := next;
      // `add_enrichment(...).is_ok()` always holds here, but the count stays
      // conditional to follow the source's loop.
      if ok {
        added := added + 1;
      }
    }
    TakeAll(results);
  }

  /**
   * After the first j results: the stored keys are the old ones plus the
   * results' keys, each result that is the last with its key is stored as
   * it came, and every other row is untouched.
   */
  predicate StoredPrefix(st: Store, store: Store, id: Uuid, results: seq<Enrichment.EnrichmentResult>, nows: seq<Timestamp>, j: nat)
    requires j <= |results| && j <= |nows|
  {
    && store.enrichments.Keys == st.enrichments.Keys + ResultKeys(id, results[..j])
    && (forall i :: 0 <= i < j && LastOfKey(id, results, i, j) ==> StoredAs(store, id, results[i], nows[i]))
    && (forall k :: k in st.enrichments && k !in ResultKeys(id, results[..j]) ==> store.enrichments[k] == st.enrichments[k])
  }

  /** One step of the storing loop extends StoredPrefix by one result. */
  lemma StoredStep(st: Store, store: Store, next: Store, id: Uuid, results: seq<Enrichment.EnrichmentResult>,
                   nows: seq<Timestamp>, j: nat)
    requires j < |results| && j < |nows|
    requires StoredPrefix(st, store, id, results, nows, j)
    requires next.enrichments.Keys == store.enrichments.Keys + {ResultKey(id, results[j])}
    requires StoredAs(next, id, results[j], nows[j])
    requires forall k :: k in store.enrichments && k != ResultKey(id, results[j]) ==> next.enrichments[k] == store.enrichments[k]
    ensures StoredPrefix(st, next, id, results, nows, j + 1)
  {
    ResultKeysSnoc(id, results, j);
    StoredRowsStep(store, next, id, results, nows, j);
    UntouchedRowsStep(st, store, next, id, results, j);
  }

  lemma StoredRowsStep(store: Store, next: Store, id: Uuid, results: seq<Enrichment.EnrichmentResult>, nows: seq<Timestamp>, j: nat)
    requires j < |results| && j < |nows|
    requires forall i :: 0 <= i < j && LastOfKey(id, results, i, j) ==> StoredAs(store, id, results[i], nows[i])
    requires StoredAs(next, id, results[j], nows[j])
    requires store.enrichments.Keys <= next.enrichments.Keys
    requires forall k :: k in store.enrichments && k != ResultKey(id, results[j]) ==> next.enrichments[k] == store.enrichments[k]
    ensures forall i :: 0 <= i < j + 1 && LastOfKey(id, results, i, j + 1) ==> StoredAs(next, id, results[i], nows[i])
  {
    forall i | 0 <= i < j && LastOfKey(id, results, i, j + 1)
      ensures StoredAs(next, id, results[i], nows[i])
    {
      var k := ResultKey(id, results[i]);
      assert ResultKey(id, results[j]) != k;
      assert LastOfKey(id, results, i, j);
      assert next.enrichments[k] == store.enrichments[k];
    }
  }

  lemma UntouchedRowsStep(st: Store, store: Store, next: Store, id: Uuid, results: seq<Enrichment.EnrichmentResult>, j: nat)
    requires j < |results|
    requires st.enrichments.Keys <= store.enrichments.Keys
    requires forall k :: k in st.enrichments && k !in ResultKeys(id, results[..j]) ==> store.enrichments[k] == st.enrichments[k]
    requires ResultKeys(id, results[..j + 1]) == ResultKeys(id, results[..j]) + {ResultKey(id, results[j])}
    requires store.enrichments.Keys <= next.enrichments.Keys
    requires forall k :: k in store.enrichments && k != ResultKey(id, results[j]) ==> next.enrichments[k] == store.enrichments[k]
    ensures forall k :: k in st.enrichments && k !in ResultKeys(id, results[..j + 1]) ==> next.enrichments[k] == st.enrichments[k]
  {
  }

  /**
   * One result of `enrich_indicator`: stored with its provider's TTL, and
   * counted when the store accepts it, which it does for an indicator that
   * exists. A repeat of the key keeps the row's id.
   */
  method StoreResult(store: Store, id: Uuid, res: Enrichment.EnrichmentResult, now: Timestamp, freshId: Uuid)
    returns (next: Store, ok: bool)
    requires HasId(store, id)
    ensures ok
    ensures next.enrichments.Keys == store.enrichments.Keys + {ResultKey(id, res)}
    ensures StoredAs(next, id, res, now)
    ensures next.enrichments[ResultKey(id, res)].id ==
      (if ResultKey(id, res) in store.enrichments then store.enrichments[ResultKey(id, res)].id else freshId)
    ensures forall k :: k in store.enrichments && k != ResultKey(id, res) ==> next.enrichments[k] == store.enrichments[k]
    ensures next.indicators == store.indicators && next.sightings == store.sightings
  {
    var stored := AddEnrichment(store, id, res.enrichmentType, res.provider, res.data, Some(res.ttlHours), now, freshId);
    StoreResultKeys(store, id, res, now, freshId);
    ok := stored.Ok?;
    next := if stored.Ok? then stored.value.0 else store;
  }
}

=== FILE: base64.dfy ===
/**
 * The URL-safe Base64 alphabet of section 5 of RFC 4648, without padding
 * (`base64::engine::general_purpose::URL_SAFE_NO_PAD`), and its decoder.
 */
module Base64 {
  import opened Wrappers

  type Byte = x: int | 0 <= x < 256

  /** The character for a 6-bit value: A-Z, a-z, 0-9, '-', '_'. */
  function Sextet(v: nat): (c: char)
    requires v < 64
    ensures IsUrlSafe(c)
  {
    if v < 26 then ('A' as int + v) as char
    else if v < 52 then ('a' as int + (v - 26)) as char
    else if v < 62 then ('0' as int + (v - 52)) as char
    else if v == 62 then '-'
    else '_'
  }

  predicate IsUrlSafe(c: char) {
    ('A' <= c <= 'Z') || ('a' <= c <= 'z') || ('0' <= c <= '9') || c == '-' || c == '_'
  }

  function SextetValue(c: char): (r: Option<nat>)
    ensures r.Some? <==> IsUrlSafe(c)
    ensures r.Some? ==> r.value < 64 && Sextet(r.value) == c
  {
    if 'A' <= c <= 'Z' then Some(c as int - 'A' as int)
    else if 'a' <= c <= 'z' then Some(c as int - 'a' as int + 26)
    else if '0' <= c <= '9' then Some(c as int - '0' as int + 52)
    else if c == '-' then Some(62)
    else if c == '_' then Some(63)
    else None
  }

  lemma SextetInverse(v: nat)
    requires v < 64
    ensures SextetValue(Sextet(v)) == Some(v)
  {
  }

  /** Three bytes as four characters. */
  function EncodeBlock(b0: Byte, b1: Byte, b2: Byte): (s: string)
    ensures |s| == 4
  {
    [Sextet(b0 / 4), Sextet((b0 % 4) * 16 + b1 / 16), Sextet((b1 % 16) * 4 + b2 / 64), Sextet(b2 % 64)]
  }

  /** Encodes `bytes` with no `=` padding: a final group of one or two bytes becomes two or three characters. */
  function Encode(bytes: seq<Byte>): (s: string)
    ensures |s| == (4 * |bytes| + 2) / 3
    ensures forall i :: 0 <= i < |s| ==> IsUrlSafe(s[i])
    decreases |bytes|
  {
    if |bytes| >= 3 then
      EncodeBlock(bytes[0], bytes[1], bytes[2]) + Encode(bytes[3..])
    else if |bytes| == 2 then
      EncodeBlock(bytes[0], bytes[1], 0)[..3]
    else if |bytes| == 1 then
      EncodeBlock(bytes[0], 0, 0)[..2]
    else
      []
  }

  function DecodeGroup(c: seq<nat>): (b: seq<Byte>)
    requires 2 <= |c| <= 4
    requires forall i :: 0 <= i < |c| ==> c[i] < 64
  {
    var c2 := if |c| > 2 then c[2] else 0;
    var c3 := if |c| > 3 then c[3] else 0;
    var b := [c[0] * 4 + c[1] / 16, (c[1] % 16) * 16 + c2 / 4, (c2 % 4) * 64 + c3];
    b[..|c| - 1]
  }

  function Values(s: string): (r: Option<seq<nat>>)
    ensures r.Some? <==> forall i :: 0 <= i < |s| ==> IsUrlSafe(s[i])
    ensures r.Some? ==> |r.value| == |s| && forall i :: 0 <= i < |s| ==> r.value[i] < 64 && Sextet(r.value[i]) == s[i]
  {
    if forall i :: 0 <= i < |s| ==> IsUrlSafe(s[i]) then
      Some(seq(|s|, i requires 0 <= i < |s| => SextetValue(s[i]).value))
    else None
  }

  /** Decodes unpadded URL-safe Base64; a lone trailing character is invalid. */
  function Decode(s: string): Option<seq<Byte>>
    decreases |s|
  {
    if |s| == 0 then Some([])
    else if |s| == 1 then None
    else
      var n := if |s| >= 4 then 4 else |s|;
      match (Values(s[..n]), Decode(s[n..]))
      case (Some(vs), Some(rest)) => Some(DecodeGroup(vs) + rest)
      case _ => None
  }

  lemma SextetInjective(v: nat, w: nat)
    requires v < 64 && w < 64 && Sextet(v) == Sextet(w)
    ensures v == w
  {
    SextetInverse(v);
    SextetInverse(w);
  }

  /** The four sextets of a block, as `Values` reads them back. */
  function Sextets(b0: Byte, b1: Byte, b2: Byte): seq<nat> {
    [b0 / 4, (b0 % 4) * 16 + b1 / 16, (b1 % 16) * 4 + b2 / 64, b2 % 64]
  }

  lemma BlockValues(b0: Byte, b1: Byte, b2: Byte)
    ensures Values(EncodeBlock(b0, b1, b2)) == Some(Sextets(b0, b1, b2))
  {
    var e := EncodeBlock(b0, b1, b2);
    var cs := Sextets(b0, b1, b2);
    var vs := Values(e).value;
    SextetInjective(vs[0], cs[0]);
    SextetInjective(vs[1], cs[1]);
    SextetInjective(vs[2], cs[2]);
    SextetInjective(vs[3], cs[3]);
    assert vs == cs;
  }

  /** Regrouping the sextets of a block gives its bytes, and a prefix of them gives a prefix of the bytes. */
  lemma SextetsDecode(b0: Byte, b1: Byte, b2: Byte)
    ensures DecodeGroup(Sextets(b0, b1, b2)) == [b0, b1, b2]
    ensures DecodeGroup(Sextets(b0, b1, b2)[..3]) == [b0, b1]
    ensures DecodeGroup(Sextets(b0, b1, b2)[..2]) == [b0]
  {
    var c1, c2 := (b0 % 4) * 16 + b1 / 16, (b1 % 16) * 4 + b2 / 64;
    assert c1 / 16 == b0 % 4 && c1 % 16 == b1 / 16;
    assert c2 / 4 == b1 % 16 && c2 % 4 == b2 / 64;
  }

  lemma BlockRoundTrip(b0: Byte, b1: Byte, b2: Byte)
    ensures Values(EncodeBlock(b0, b1, b2)).Some?
    ensures DecodeGroup(Values(EncodeBlock(b0, b1, b2)).value) == [b0, b1, b2]
    ensures DecodeGroup(Values(EncodeBlock(b0, b1, b2)[..3]).value) == [b0, b1]
    ensures DecodeGroup(Values(EncodeBlock(b0, b1, b2)[..2]).value) == [b0]
  {
    var e := EncodeBlock(b0, b1, b2);
    var vs := Sextets(b0, b1, b2);
    BlockValues(b0, b1, b2);
    SextetsDecode(b0, b1, b2);
    assert Values(e[..3]).value == vs[..3];
    assert Values(e[..2]).value == vs[..2];
  }

  lemma TwoByteTail(b0: Byte, b1: Byte)
    ensures Decode(Encode([b0, b1])) == Some([b0, b1])
  {
    var s := Encode([b0, b1]);
    BlockRoundTrip(b0, b1, 0);
    assert s[..3] == s && s[3..] == [];
    var d := DecodeGroup(Values(s).value);
    assert d == [b0, b1];
    assert Decode([]) == Some([]);
    assert Decode(s) == Some(d + []);
    assert d + [] == [b0, b1];
  }

  lemma OneByteTail(b0: Byte)
    ensures Decode(Encode([b0])) == Some([b0])
  {
    var s := Encode([b0]);
    BlockRoundTrip(b0, 0, 0);
    assert s[..2] == s && s[2..] == [];
    var d := DecodeGroup(Values(s).value);
    assert d == [b0];
    assert Decode([]) == Some([]);
    assert Decode(s) == Some(d + []);
    assert d + [] == [b0];
  }

  /** Decoding an encoding gives the bytes back. */
  lemma {:induction false} RoundTrip(bytes: seq<Byte>)
    ensures Decode(Encode(bytes)) == Some(bytes)
    decreases |bytes|
  {
    if |bytes| >= 3 {
      RoundTrip(bytes[3..]);
      FullBlockStep(bytes);
    } else if |bytes| == 2 {
      assert bytes == [bytes[0], bytes[1]];
      TwoByteTail(bytes[0], bytes[1]);
    } else if |bytes| == 1 {
      assert bytes == [bytes[0]];
      OneByteTail(bytes[0]);
    }
  }

  /** A leading full block decodes to its three bytes, in front of whatever the rest decodes to. */
  lemma FullBlockStep(bytes: seq<Byte>)
    requires |bytes| >= 3
    requires Decode(Encode(bytes[3..])) == Some(bytes[3..])
    ensures Decode(Encode(bytes)) == Some(bytes)
  {
    var blk := EncodeBlock(bytes[0], bytes[1], bytes[2]);
    assert Encode(bytes) == blk + Encode(bytes[3..]);
    DecodeFour(blk, Encode(bytes[3..]));
    BlockRoundTrip(bytes[0], bytes[1], bytes[2]);
    FirstThree(bytes);
  }

  /** Four characters in front are decoded as one group, independently of the rest. */
  lemma DecodeFour(blk: string, tail: string)
    requires |blk| == 4
    ensures Decode(blk + tail) ==
      match (Values(blk), Decode(tail))
      case (Some(vs), Some(rest)) => Some(DecodeGroup(vs) + rest)
      case _ => None
  {
    var s := blk + tail;
    assert s[..4] == blk && s[4..] == tail;
  }

  lemma FirstThree(bytes: seq<Byte>)
    requires |bytes| >= 3
    ensures bytes == [bytes[0], bytes[1], bytes[2]] + bytes[3..]
  {
  }
}

=== FILE: collections.dfy ===
/**
 * Two loop shapes the handlers and collectors share, stated once over
 * arbitrary element types: keeping the elements a predicate selects (and
 * mapping them), and collecting the keys a partial key function yields.
 */
module Collections {
  import opened Wrappers

  /** The images under f of the elements keep selects, in order. */
  function FilterMap<T, U>(xs: seq<T>, keep: T -> bool, f: T -> U): seq<U> {
    if xs == [] then []
    else
      var last := xs[|xs| - 1];
      FilterMap(xs[..|xs| - 1], keep, f) + (if keep(last) then [f(last)] else [])
  }

  /** The positions keep selects. */
  function Selected<T>(xs: seq<T>, keep: T -> bool): set<int> {
    set i | 0 <= i < |xs| && keep(xs[i])
  }

  lemma FilterMapSnoc<T, U>(xs: seq<T>, x: T, keep: T -> bool, f: T -> U)
    ensures FilterMap(xs + [x], keep, f) == FilterMap(xs, keep, f) + (if keep(x) then [f(x)] else [])
  {
    assert (xs + [x])[..|xs|] == xs;
  }

  /** A set of indices below n has at most n elements. */
  lemma {:induction false} IndexSetBound(s: set<int>, n: nat)
    requires forall i :: i in s ==> 0 <= i < n
    ensures |s| <= n
  {
    if n > 0 {
      IndexSetBound(s - {n - 1}, n - 1);
    } else {
      assert forall i :: i !in s;
      assert s == {};
    }
  }

  lemma SelectedSnoc<T>(xs: seq<T>, x: T, keep: T -> bool)
    ensures Selected(xs + [x], keep) == Selected(xs, keep) + (if keep(x) then {|xs|} else {})
    ensures |xs| !in Selected(xs, keep)
  {
    var ys := xs + [x];
    assert forall i :: 0 <= i < |xs| ==> ys[i] == xs[i];
  }

  /**
   * FilterMap keeps exactly one image per selected element: as many images
   * as selected positions, each the image of a selected element, and the
   * image of every selected element among them.
   */
  lemma {:induction false} FilterMapMeaning<T, U>(xs: seq<T>, keep: T -> bool, f: T -> U)
    ensures |FilterMap(xs, keep, f)| == |Selected(xs, keep)| <= |xs|
    ensures forall u :: u in FilterMap(xs, keep, f) ==> exists i :: 0 <= i < |xs| && keep(xs[i]) && u == f(xs[i])
    ensures forall i :: 0 <= i < |xs| && keep(xs[i]) ==> f(xs[i]) in FilterMap(xs, keep, f)
  {
    if xs == [] {
      assert Selected(xs, keep) == {};
    } else {
      var n := |xs| - 1;
      var init := xs[..n];
      assert xs == init + [xs[n]];
      FilterMapMeaning(init, keep, f);
      SelectedSnoc(init, xs[n], keep);
      IndexSetBound(Selected(xs, keep), |xs|);
      assert forall i :: 0 <= i < n ==> init[i] == xs[i];
    }
  }

  /** The keys the elements yield, skipping those that yield none. */
  function KeysOf<T, K>(xs: seq<T>, key: T -> Option<K>): set<K> {
    set i | 0 <= i < |xs| && key(xs[i]).Some? :: key(xs[i]).value
  }

  lemma KeysOfSnoc<T, K>(xs: seq<T>, x: T, key: T -> Option<K>)
    ensures KeysOf(xs + [x], key) == KeysOf(xs, key) + (if key(x).Some? then {key(x).value} else {})
  {
    var ys := xs + [x];
    assert forall i :: 0 <= i < |xs| ==> ys[i] == xs[i];
    assert key(x).Some? ==> key(ys[|xs|]).value in KeysOf(ys, key);
  }

  lemma KeysOfLast<T, K>(xs: seq<T>, key: T -> Option<K>)
    requires xs != []
    ensures var x := xs[|xs| - 1];
      KeysOf(xs, key) == KeysOf(xs[..|xs| - 1], key) + (if key(x).Some? then {key(x).value} else {})
  {
    assert xs == xs[..|xs| - 1] + [xs[|xs| - 1]];
    KeysOfSnoc(xs[..|xs| - 1], xs[|xs| - 1], key);
  }

  /** The present results of f over the elements, in order. */
  function Somes<T, U>(xs: seq<T>, f: T -> Option<U>): seq<U> {
    if xs == [] then []
    else
      var last := xs[|xs| - 1];
      Somes(xs[..|xs| - 1], f) + (if f(last).Some? then [f(last).value] else [])
  }

  lemma SomesSnoc<T, U>(xs: seq<T>, x: T, f: T -> Option<U>)
    ensures Somes(xs + [x], f) == Somes(xs, f) + (if f(x).Some? then [f(x).value] else [])
  {
    assert (xs + [x])[..|xs|] == xs;
  }

  /** Somes keeps every present result and invents none. */
  lemma {:induction false} SomesMeaning<T, U>(xs: seq<T>, f: T -> Option<U>)
    ensures |Somes(xs, f)| <= |xs|
    ensures forall u :: u in Somes(xs, f) ==> exists i :: 0 <= i < |xs| && f(xs[i]) == Some(u)
    ensures forall i :: 0 <= i < |xs| && f(xs[i]).Some? ==> f(xs[i]).value in Somes(xs, f)
  {
    if xs != [] {
      var n := |xs| - 1;
      var init := xs[..n];
      assert xs == init + [xs[n]];
      SomesMeaning(init, f);
      assert forall i :: 0 <= i < n ==> init[i] == xs[i];
    }
  }

  /** The keys of all elements. */
  function KeySet<T, K>(xs: seq<T>, key: T -> K): set<K> {
    set i | 0 <= i < |xs| :: key(xs[i])
  }

  lemma KeySetSnoc<T, K>(xs: seq<T>, x: T, key: T -> K)
    ensures KeySet(xs + [x], key) == KeySet(xs, key) + {key(x)}
  {
    var ys := xs + [x];
    assert forall i :: 0 <= i < |xs| ==> ys[i] == xs[i];
    assert ys[|xs|] == x;
  }

  /** The elements whose key no earlier element had, in order. */
  function FirstByKey<T, K(==)>(xs: seq<T>, key: T -> K): seq<T> {
    if xs == [] then []
    else
      var n := |xs| - 1;
      var kept := FirstByKey(xs[..n], key);
      if key(xs[n]) in KeySet(kept, key) then kept else kept + [xs[n]]
  }

  lemma FirstByKeySnoc<T, K>(xs: seq<T>, x: T, key: T -> K)
    ensures FirstByKey(xs + [x], key) ==
      if key(x) in KeySet(FirstByKey(xs, key), key) then FirstByKey(xs, key) else FirstByKey(xs, key) + [x]
  {
    assert (xs + [x])[..|xs|] == xs;
  }

  /** Deduplication keeps every key. */
  lemma {:induction false} FirstByKeyKeys<T, K>(xs: seq<T>, key: T -> K)
    ensures KeySet(FirstByKey(xs, key), key) == KeySet(xs, key)
  {
    if xs != [] {
      var n := |xs| - 1;
      var init := xs[..n];
      var kept := FirstByKey(init, key);
      FirstByKeyKeys(init, key);
      assert xs == init + [xs[n]];
      KeySetSnoc(init, xs[n], key);
      if key(xs[n]) !in KeySet(kept, key) {
        KeySetSnoc(kept, xs[n], key);
      }
    }
  }

  /** Deduplication keeps no key twice. */
  lemma {:induction false} FirstByKeyDistinct<T, K>(xs: seq<T>, key: T -> K)
    ensures forall i, j :: 0 <= i < j < |FirstByKey(xs, key)| ==> key(FirstByKey(xs, key)[i]) != key(FirstByKey(xs, key)[j])
  {
    if xs != [] {
      var n := |xs| - 1;
      var kept := FirstByKey(xs[..n], key);
      FirstByKeyDistinct(xs[..n], key);
      if key(xs[n]) !in KeySet(kept, key) {
        var r := kept + [xs[n]];
        assert forall i :: 0 <= i < |kept| ==> r[i] == kept[i] && key(r[i]) in KeySet(kept, key);
      }
    }
  }

  /** Every kept element is the first one with its key. */
  lemma {:induction false} FirstByKeyFirst<T, K>(xs: seq<T>, key: T -> K)
    ensures forall k :: 0 <= k < |FirstByKey(xs, key)| ==>
      exists i :: 0 <= i < |xs| && xs[i] == FirstByKey(xs, key)[k] && forall j :: 0 <= j < i ==> key(xs[j]) != key(xs[i])
  {
    if xs != [] {
      var n := |xs| - 1;
      var init := xs[..n];
      var kept := FirstByKey(init, key);
      var r := FirstByKey(xs, key);
      FirstByKeyFirst(init, key);
      FirstByKeyKeys(init, key);
      var isNew := key(xs[n]) !in KeySet(kept, key);
      assert r == if isNew then kept + [xs[n]] else kept;
      forall k | 0 <= k < |r|
        ensures exists i :: 0 <= i < |xs| && xs[i] == r[k] && forall j :: 0 <= j < i ==> key(xs[j]) != key(xs[i])
      {
        if k < |kept| {
          assert r[k] == kept[k];
          var i :| 0 <= i < |init| && init[i] == kept[k] && forall j :: 0 <= j < i ==> key(init[j]) != key(init[i]);
          assert forall j :: 0 <= j <= i ==> init[j] == xs[j];
        } else {
          assert isNew && r[k] == xs[n];
          assert forall j :: 0 <= j < n ==> init[j] == xs[j] && key(init[j]) in KeySet(init, key);
        }
      }
    } else {
      assert FirstByKey(xs, key) == [];
    }
  }

  /**
   * The first element of every key, and nothing else: the same keys, no key
   * twice, and each kept element the first one with its key.
   */
  lemma FirstByKeyMeaning<T, K>(xs: seq<T>, key: T -> K)
    ensures KeySet(FirstByKey(xs, key), key) == KeySet(xs, key)
    ensures forall i, j :: 0 <= i < j < |FirstByKey(xs, key)| ==> key(FirstByKey(xs, key)[i]) != key(FirstByKey(xs, key)[j])
    ensures forall k :: 0 <= k < |FirstByKey(xs, key)| ==>
      exists i :: 0 <= i < |xs| && xs[i] == FirstByKey(xs, key)[k] && forall j :: 0 <= j < i ==> key(xs[j]) != key(xs[i])
  {
    FirstByKeyKeys(xs, key);
    FirstByKeyDistinct(xs, key);
    FirstByKeyFirst(xs, key);
  }

  /** The images under f of all elements, in order. */
  function MapSeq<T, U>(xs: seq<T>, f: T -> U): (ys: seq<U>)
    ensures |ys| == |xs|
    ensures forall i :: 0 <= i < |xs| ==> ys[i] == f(xs[i])
  {
    if xs == [] then [] else MapSeq(xs[..|xs| - 1], f) + [f(xs[|xs| - 1])]
  }

  /** Mapping the elements first changes nothing when g keeps both the selection and the image. */
  lemma {:induction false} FilterMapAfterMap<T, U>(xs: seq<T>, g: T -> T, keep: T -> bool, f: T -> U)
    requires forall x :: keep(g(x)) == keep(x) && f(g(x)) == f(x)
    ensures FilterMap(MapSeq(xs, g), keep, f) == FilterMap(xs, keep, f)
  {
    if xs != [] {
      var n := |xs| - 1;
      FilterMapAfterMap(xs[..n], g, keep, f);
      assert MapSeq(xs, g) == MapSeq(xs[..n], g) + [g(xs[n])];
      FilterMapSnoc(MapSeq(xs[..n], g), g(xs[n]), keep, f);
    }
  }

  lemma MapSeqSnoc<T, U>(xs: seq<T>, x: T, f: T -> U)
    ensures MapSeq(xs + [x], f) == MapSeq(xs, f) + [f(x)]
  {
    assert (xs + [x])[..|xs|] == xs;
  }

  /** The images under f of all elements, concatenated in order. */
  function FlatMap<T, U>(xs: seq<T>, f: T -> seq<U>): seq<U> {
    if xs == [] then [] else FlatMap(xs[..|xs| - 1], f) + f(xs[|xs| - 1])
  }

  /** FlatMap distributes over concatenation. */
  lemma {:induction false} FlatMapAppend<T, U>(xs: seq<T>, ys: seq<T>, f: T -> seq<U>)
    ensures FlatMap(xs + ys, f) == FlatMap(xs, f) + FlatMap(ys, f)
    decreases |ys|
  {
    if ys == [] {
      assert xs + ys == xs;
    } else {
      var n := |ys| - 1;
      FlatMapAppend(xs, ys[..n], f);
      assert (xs + ys)[..|xs + ys| - 1] == xs + ys[..n];
    }
  }

  /** Taking one more element of a sequence appends that element. */
  lemma TakeSnoc<T>(xs: seq<T>, i: nat)
    requires i < |xs|
    ensures xs[..i + 1] == xs[..i] + [xs[i]]
  {
  }

  /** Taking every element gives the sequence back. */
  lemma TakeAll<T>(xs: seq<T>)
    ensures xs[..|xs|] == xs
  {
  }
}

=== FILE: decimal.dfy ===
/**
 * Rust's `Display` for integers (`i32::to_string`, `format!("{}")`): an
 * optional minus sign followed by decimal digits without leading zeros,
 * together with the parser that inverts it.
 */
module Decimal {
  import opened Wrappers
  import opened Text

  function DigitChar(d: nat): (c: char)
    requires d < 10
    ensures IsAsciiDigit(c)
  {
    ('0' as int + d) as char
  }

  function DigitValue(c: char): (d: nat)
    requires IsAsciiDigit(c)
    ensures d < 10 && DigitChar(d) == c
  {
    c as int - '0' as int
  }

  predicate AllDigits(s: string) {
    forall i :: 0 <= i < |s| ==> IsAsciiDigit(s[i])
  }

  /** The decimal text of a natural number: digits only, no leading zero. */
  function NatToString(n: nat): (s: string)
    ensures |s| >= 1 && AllDigits(s)
    ensures s[0] == '0' ==> s == "0"
    decreases n
  {
    if n < 10 then [DigitChar(n)] else NatToString(n / 10) + [DigitChar(n % 10)]
  }

  /** `i32::to_string` / `i64::to_string`. */
  function IntToString(n: int): (s: string)
    ensures |s| >= 1
    ensures forall i :: 0 <= i < |s| ==> IsAsciiDigit(s[i]) || s[i] == '-'
    ensures n >= 0 <==> AllDigits(s)
  {
    if n < 0 then
      var s := "-" + NatToString(-n);
      assert !IsAsciiDigit(s[0]);
      s
    else NatToString(n)
  }

  function DigitsValue(s: string): nat
    requires AllDigits(s)
  {
    if s == [] then 0 else DigitsValue(s[..|s| - 1]) * 10 + DigitValue(s[|s| - 1])
  }

  function ParseNat(s: string): (r: Option<nat>)
    ensures r.Some? <==> s != [] && AllDigits(s)
  {
    if s != [] && AllDigits(s) then Some(DigitsValue(s)) else None
  }

  /** Reads back what `IntToString` writes. */
  function ParseInt(s: string): (r: Option<int>)
    ensures r.Some? ==> s != []
  {
    if |s| > 0 && s[0] == '-' then
      match ParseNat(s[1..])
      case Some(n) => Some(0 - n as int)
      case None => None
    else
      match ParseNat(s)
      case Some(n) => Some(n)
      case None => None
  }

  lemma {:induction false} NatToStringValue(n: nat)
    ensures DigitsValue(NatToString(n)) == n
    decreases n
  {
    var s := NatToString(n);
    if n >= 10 {
      NatToStringValue(n / 10);
      assert s[..|s| - 1] == NatToString(n / 10);
    }
  }

  /** Printing an integer and parsing the text gives the integer back. */
  lemma IntRoundTrip(n: int)
    ensures ParseInt(IntToString(n)) == Some(n)
  {
    if n < 0 {
      var t := NatToString(-n);
      NatToStringValue(-n);
      assert IntToString(n)[0] == '-' && IntToString(n)[1..] == t;
      assert ParseNat(t) == Some(-n);
    } else {
      var t := NatToString(n);
      NatToStringValue(n);
      assert IsAsciiDigit(t[0]);
      assert ParseNat(t) == Some(n);
    }
  }
}

=== FILE: dns.dfy ===
/**
 * The DNS provider: assembling a `DnsData` from the resolver's answers, the
 * per-type gate of `enrich`, and the capability table. Each resolver query is
 * an argument: `None` when the query failed, which the source ignores.
 */
module Dns {
  import opened Wrappers
  import opened Json
  import opened Models
  import Net
  import Enrichment

  /** name "dns", enrichment type "dns", domains and IPs, cached for a day. */
  const DnsProvider: Enrichment.Provider := Enrichment.Provider("dns", "dns", {Domain, Ip}, Some(24))

  /** An address from `lookup_ip`, as its display text. */
  datatype IpAddr = V4(text: string) | V6(text: string)

  /** The answers to the four forward queries; a TXT record is a list of character-strings. */
  datatype Answers = Answers(
    ips: Option<seq<IpAddr>>,
    mx: Option<seq<string>>,
    txt: Option<seq<seq<string>>>,
    ns: Option<seq<string>>)

  /** The texts of the IPv4 addresses, in answer order. */
  function V4Texts(ips: seq<IpAddr>): seq<string> {
    if ips == [] then []
    else if ips[0].V4? then [ips[0].text] + V4Texts(ips[1..])
    else V4Texts(ips[1..])
  }

  /** The texts of the IPv6 addresses, in answer order. */
  function V6Texts(ips: seq<IpAddr>): seq<string> {
    if ips == [] then []
    else if ips[0].V6? then [ips[0].text] + V6Texts(ips[1..])
    else V6Texts(ips[1..])
  }

  /** Concatenates a TXT record's character-strings. */
  function Concat(parts: seq<string>): string {
    if parts == [] then [] else parts[0] + Concat(parts[1..])
  }

  function TxtTexts(records: seq<seq<string>>): (r: seq<string>)
    ensures |r| == |records|
    ensures forall i :: 0 <= i < |records| ==> r[i] == Concat(records[i])
  {
    seq(|records|, i requires 0 <= i < |records| => Concat(records[i]))
  }

  /**
   * `lookup`: every address goes to exactly one of the A and AAAA lists, by
   * family; a failed query leaves its lists empty; CNAME is never filled.
   */
  function Lookup(a: Answers): (d: DnsData)
    ensures a.ips.None? ==> d.aRecords == [] && d.aaaaRecords == []
    ensures a.ips.Some? ==> |d.aRecords| + |d.aaaaRecords| == |a.ips.value|
    ensures d.aRecords == V4Texts(a.ips.GetOr([])) && d.aaaaRecords == V6Texts(a.ips.GetOr([]))
    ensures forall x :: x in d.aRecords <==> V4(x) in a.ips.GetOr([])
    ensures forall x :: x in d.aaaaRecords <==> V6(x) in a.ips.GetOr([])
    ensures d.mxRecords == a.mx.GetOr([]) && d.nsRecords == a.ns.GetOr([])
    ensures d.txtRecords == TxtTexts(a.txt.GetOr([]))
    ensures d.cnameRecords == []
  {
    var ips := a.ips.GetOr([]);
    PartitionSizes(ips);
    PartitionAll(ips);
    DnsData(V4Texts(ips), V6Texts(ips), a.mx.GetOr([]), TxtTexts(a.txt.GetOr([])), a.ns.GetOr([]), [])
  }

  /** The two families together account for every address once. */
  lemma {:induction false} PartitionSizes(ips: seq<IpAddr>)
    ensures |V4Texts(ips)| + |V6Texts(ips)| == |ips|
  {
    if ips != [] {
      PartitionSizes(ips[1..]);
    }
  }

  /** An address is listed under its own family and not under the other. */
  lemma {:induction false} PartitionMembers(ips: seq<IpAddr>, x: string)
    ensures x in V4Texts(ips) <==> V4(x) in ips
    ensures x in V6Texts(ips) <==> V6(x) in ips
  {
    if ips != [] {
      PartitionMembers(ips[1..], x);
      assert ips == [ips[0]] + ips[1..];
    }
  }

  lemma PartitionAll(ips: seq<IpAddr>)
    ensures forall x :: x in V4Texts(ips) <==> V4(x) in ips
    ensures forall x :: x in V6Texts(ips) <==> V6(x) in ips
  {
    forall x {
      PartitionMembers(ips, x);
    }
  }

  /** The payload for a domain. */
  function DomainPayload(d: DnsData): (j: Json)
    ensures j.Obj? && j.fields.Keys == {"a_records", "aaaa_records", "mx_records", "txt_records", "ns_records", "cname_records"}
    ensures Get(j, "a_records") == Some(StrArr(d.aRecords)) && Get(j, "aaaa_records") == Some(StrArr(d.aaaaRecords))
    ensures Get(j, "mx_records") == Some(StrArr(d.mxRecords)) && Get(j, "txt_records") == Some(StrArr(d.txtRecords))
    ensures Get(j, "ns_records") == Some(StrArr(d.nsRecords)) && Get(j, "cname_records") == Some(StrArr(d.cnameRecords))
  {
    Obj(map[
      "a_records" := StrArr(d.aRecords),
      "aaaa_records" := StrArr(d.aaaaRecords),
      "mx_records" := StrArr(d.mxRecords),
      "txt_records" := StrArr(d.txtRecords),
      "ns_records" := StrArr(d.nsRecords),
      "cname_records" := StrArr(d.cnameRecords)])
  }

  /**
   * `reverse_lookup`: fails only when the value is not an address literal; a
   * failed PTR query gives no names.
   */
  function ReverseLookup(value: string, v6: Net.Ipv6Syntax, ptr: Option<seq<string>>): (r: Result<seq<string>, string>)
    ensures r.Err? <==> !Net.IsIpLiteral(value, v6)
    ensures r.Ok? ==> r.value == ptr.GetOr([])
  {
    if Net.IsIpLiteral(value, v6) then Ok(ptr.GetOr([])) else Err("invalid IP address syntax")
  }

  /**
   * `enrich`: a domain yields data unless its A, MX and NS lists are all empty
   * (AAAA and TXT alone do not count); an IP yields data iff it has PTR names;
   * every other type yields nothing.
   */
  function Enrich(ind: Indicator, v6: Net.Ipv6Syntax, forward: Answers, ptr: Option<seq<string>>): (o: Enrichment.Outcome)
    ensures ind.iocType !in {Domain, Ip} ==> o == Enrichment.NoData
    ensures ind.iocType == Domain ==> !o.Failed?
    ensures ind.iocType == Domain ==> (o.NoData? <==> Lookup(forward).aRecords == [] && forward.mx.GetOr([]) == [] && forward.ns.GetOr([]) == [])
    ensures ind.iocType == Domain && o.Found? ==> o.data == DomainPayload(Lookup(forward))
    ensures ind.iocType == Ip ==> (o.Failed? <==> !Net.IsIpLiteral(ind.value, v6))
    ensures ind.iocType == Ip && Net.IsIpLiteral(ind.value, v6) ==> (o.NoData? <==> ptr.GetOr([]) == [])
    ensures ind.iocType == Ip && o.Found? ==> o.data == Obj(map["ptr_records" := StrArr(ptr.value)])
  {
    match ind.iocType
    case Domain =>
      var d := Lookup(forward);
      if d.aRecords == [] && d.mxRecords == [] && d.nsRecords == [] then Enrichment.NoData
      else Enrichment.Found(DomainPayload(d))
    case Ip =>
      (match ReverseLookup(ind.value, v6, ptr)
       case Err(msg) => Enrichment.Failed(msg)
       case Ok(names) =>
         if names == [] then Enrichment.NoData
         else Enrichment.Found(Obj(map["ptr_records" := StrArr(names)])))
    case _ => Enrichment.NoData
  }

  /** A domain that only has AAAA or TXT records is still reported as having no data. */
  lemma AaaaOnlyIsNoData(ind: Indicator, v6: Net.Ipv6Syntax, addrs: seq<string>, ptr: Option<seq<string>>)
    requires ind.iocType == Domain
    ensures Enrich(ind, v6, Answers(Some(seq(|addrs|, i requires 0 <= i < |addrs| => V6(addrs[i]))), None, None, None), ptr) == Enrichment.NoData
  {
    var ips := seq(|addrs|, i requires 0 <= i < |addrs| => V6(addrs[i]));
    assert V4Texts(ips) == [] by {
      PartitionMembers(ips, if V4Texts(ips) == [] then "" else V4Texts(ips)[0]);
    }
  }

  lemma DnsCapabilities(t: IocType)
    ensures Enrichment.Supports(DnsProvider, t) <==> t == Domain || t == Ip
    ensures Enrichment.TtlHours(DnsProvider) == 24
    ensures DnsProvider.name == "dns" && DnsProvider.enrichmentType == "dns"
  {
  }
}

=== FILE: emerging_threats.dfy ===
/**
 * The Emerging Threats collector: reading plain-text IP blocklists line by
 * line, and combining the Emerging Threats compromised-hosts list with the
 * Feodo Tracker botnet list. Each list's download is a reply argument.
 */
module EmergingThreats {
  import opened Wrappers
  import opened Text
  import opened Models
  import opened Collections
  import Net
  import Enrichment

  /** The candidate address of a line: its first token, once trimmed, unless blank or a comment. */
  function Candidate(line: string): (r: Option<string>)
    ensures r.Some? ==> Trim(line) != [] && Trim(line)[0] != '#'
    ensures r.Some? ==> r.value != [] && StartsWith(Trim(line), r.value)
    ensures Trim(line) == [] || Trim(line)[0] == '#' ==> r.None?
    ensures Trim(line) != [] && Trim(line)[0] != '#' ==> r == FirstToken(Trim(line)) && r.Some?
    ensures r.Some? ==> r == FirstToken(Trim(line))
    ensures r.Some? ==> forall i :: 0 <= i < |r.value| ==> !IsWhitespace(r.value[i])
    ensures r.Some? && |r.value| < |Trim(line)| ==> IsWhitespace(Trim(line)[|r.value|])
  {
    var t := Trim(line);
    if t == [] || StartsWith(t, "#") then None
    else
      var tok := FirstToken(t);
      var word := tok.GetOr(t);
      assert TrimOffset(t) == 0;
      assert tok.Some?;
      assert StartsWith(t, word);
      Some(word)
  }

  /** The address of a line, when its candidate is an IPv4 literal; IPv6 and anything else are dropped. */
  function LineAddress(line: string): (r: Option<string>)
    ensures r.Some? ==> Net.IsIpv4(r.value) && Candidate(line) == r
    ensures Candidate(line).Some? && Net.IsIpv4(Candidate(line).value) ==> r == Candidate(line)
  {
    match Candidate(line)
    case Some(ip) => if Net.IsIpv4(ip) then Some(ip) else None
    case None => None
  }

  /** The request of a listed address: High, 80, White, the list's tags and source, 30 days. */
  function ListedRequest(source: string, tags: seq<string>, ip: string): CreateIndicatorRequest {
    CreateIndicatorRequest(ip, Some(Ip), Some(High), Some(80), Some(White), Some(tags), Some(source), Some(30))
  }

  function LineRequest(source: string, tags: seq<string>): string -> Option<CreateIndicatorRequest> {
    line =>
      match LineAddress(line)
      case Some(ip) => Some(ListedRequest(source, tags, ip))
      case None => None
  }

  /** The requests of a list's lines, in order. */
  function ParseLines(lines: seq<string>, source: string, tags: seq<string>): seq<CreateIndicatorRequest> {
    Somes(lines, LineRequest(source, tags))
  }

  /**
   * The list parse keeps exactly the lines whose first token is an IPv4
   * literal: every request is the listed request of such a line's address,
   * and every such line has its request.
   */
  lemma ParseLinesMeaning(lines: seq<string>, source: string, tags: seq<string>)
    ensures |ParseLines(lines, source, tags)| <= |lines|
    ensures forall r :: r in ParseLines(lines, source, tags) ==>
      Net.IsIpv4(r.value) && r == ListedRequest(source, tags, r.value)
      && exists i :: 0 <= i < |lines| && LineAddress(lines[i]) == Some(r.value)
    ensures forall i :: 0 <= i < |lines| && LineAddress(lines[i]).Some? ==>
      ListedRequest(source, tags, LineAddress(lines[i]).value) in ParseLines(lines, source, tags)
  {
    var f := LineRequest(source, tags);
    SomesMeaning(lines, f);
    forall r | r in ParseLines(lines, source, tags)
      ensures Net.IsIpv4(r.value) && r == ListedRequest(source, tags, r.value)
      ensures exists i :: 0 <= i < |lines| && LineAddress(lines[i]) == Some(r.value)
    {
      var i :| 0 <= i < |lines| && f(lines[i]) == Some(r);
      assert LineAddress(lines[i]).Some?;
    }
    forall i | 0 <= i < |lines| && LineAddress(lines[i]).Some?
      ensures ListedRequest(source, tags, LineAddress(lines[i]).value) in ParseLines(lines, source, tags)
    {
      assert f(lines[i]) == Some(ListedRequest(source, tags, LineAddress(lines[i]).value));
    }
  }

  /** The loop of `fetch_ip_list` over the downloaded text. */
  method ParseIpList(text: string, source: string, tags: seq<string>) returns (reqs: seq<CreateIndicatorRequest>)
    ensures reqs == ParseLines(Lines(text), source, tags)
  {
    var lines := Lines(text);
    reqs := [];
    for i := 0 to |lines|
      invariant reqs == ParseLines(lines[..i], source, tags)
    {
      var line := lines[i];
      TakeSnoc(lines, i);
      SomesSnoc(lines[..i], line, LineRequest(source, tags));
      var address := LineAddress(line);
      if address.Some? {
        reqs := reqs + [ListedRequest(source, tags, address.value)];
      }
    }
    TakeAll(lines);
  }

  /** `fetch_ip_list`: a failed download or an error status is an error, otherwise the parsed list. */
  function FetchIpList(reply: Enrichment.Reply<string>, source: string, tags: seq<string>): (r: Result<seq<CreateIndicatorRequest>, string>)
    ensures r.Ok? <==> reply.Status? && Enrichment.IsSuccess(reply.code) && reply.body.Some?
    ensures r.Ok? ==> r.value == ParseLines(Lines(reply.body.value), source, tags)
  {
    match reply
    case SendFailed => Err("Failed to fetch feed")
    case Status(code, body) =>
      if !Enrichment.IsSuccess(code) then Err("Failed to fetch feed: error status")
      else if body.None? then Err("Failed to read feed")
      else Ok(ParseLines(Lines(body.value), source, tags))
  }

  const EtSource := "emerging_threats"
  const EtTags := ["compromised", "et_rules"]
  const FeodoSource := "feodo_tracker"
  const FeodoTags := ["botnet", "banking_trojan"]

  /** What a list contributes to `fetch`: its requests, or nothing when it failed. */
  function Contribution(r: Result<seq<CreateIndicatorRequest>, string>): seq<CreateIndicatorRequest> {
    match r
    case Ok(reqs) => reqs
    case Err(_) => []
  }

  /**
   * `fetch`: the Emerging Threats list followed by the Feodo Tracker list; a
   * list that fails contributes nothing and does not stop the other, so the
   * fetch itself never fails.
   */
  function Fetch(et: Enrichment.Reply<string>, feodo: Enrichment.Reply<string>): (r: Result<seq<CreateIndicatorRequest>, string>)
    ensures r.Ok?
    ensures var first := Contribution(FetchIpList(et, EtSource, EtTags));
      |first| <= |r.value| && r.value[..|first|] == first && r.value[|first|..] == Contribution(FetchIpList(feodo, FeodoSource, FeodoTags))
  {
    var first := Contribution(FetchIpList(et, EtSource, EtTags));
    var second := Contribution(FetchIpList(feodo, FeodoSource, FeodoTags));
    assert (first + second)[..|first|] == first && (first + second)[|first|..] == second;
    Ok(first + second)
  }

  /**
   * Every fetched request is an IPv4 address carrying the source and tags of
   * the list it came from; nothing comes from a list that failed.
   */
  lemma FetchSources(et: Enrichment.Reply<string>, feodo: Enrichment.Reply<string>)
    ensures forall r :: r in Fetch(et, feodo).value ==>
      && Net.IsIpv4(r.value)
      && ((r.source == Some(EtSource) && r.tags == Some(EtTags) && FetchIpList(et, EtSource, EtTags).Ok?)
          || (r.source == Some(FeodoSource) && r.tags == Some(FeodoTags) && FetchIpList(feodo, FeodoSource, FeodoTags).Ok?))
  {
    var a := FetchIpList(et, EtSource, EtTags);
    var b := FetchIpList(feodo, FeodoSource, FeodoTags);
    var all := Fetch(et, feodo).value;
    assert all == Contribution(a) + Contribution(b) by {
      assert all == all[..|Contribution(a)|] + all[|Contribution(a)|..];
    }
    if a.Ok? {
      ParseLinesMeaning(Lines(et.body.value), EtSource, EtTags);
    }
    if b.Ok? {
      ParseLinesMeaning(Lines(feodo.body.value), FeodoSource, FeodoTags);
    }
  }

  /** A token with a colon, such as an IPv6 address, is never listed. */
  lemma ColonTokenDropped(line: string)
    requires Candidate(line).Some?
    ensures ':' in Candidate(line).value ==> LineAddress(line).None?
  {
    var ip := Candidate(line).value;
    if Net.IsIpv4(ip) {
      Net.Ipv4Chars(ip);
    }
  }
}

=== FILE: enrichment.dfy ===
/**
 * The enrichment engine: an ordered list of providers, each with a fixed
 * capability table (name, enrichment type, supported indicator types, cache
 * lifetime), and `enrich_all`, which asks every provider that supports the
 * indicator's type and keeps the payloads of those that found something.
 *
 * Calling a provider is I/O, so what each provider's `enrich` reports for the
 * indicator at hand is an argument: `outcomes[i]` belongs to `providers[i]`.
 */
module Enrichment {
  import opened Json
  import opened Wrappers
  import opened Models
  import Collections

  /** The trait's default `ttl_hours`. */
  const DefaultTtlHours: int := 24

  /**
   * The constant part of an `EnrichmentProvider` implementation.
   * `ttlOverride` is `None` for an implementation that keeps the default.
   */
  datatype Provider = Provider(
    name: string,
    enrichmentType: string,
    supported: set<IocType>,
    ttlOverride: Option<int>)

  predicate Supports(p: Provider, t: IocType) {
    t in p.supported
  }

  /** `ttl_hours`: the override, or the trait's default of one day. */
  function TtlHours(p: Provider): (h: int)
    ensures p.ttlOverride.None? ==> h == DefaultTtlHours
    ensures p.ttlOverride.Some? ==> h == p.ttlOverride.value
  {
    p.ttlOverride.GetOr(DefaultTtlHours)
  }

  /**
   * An HTTP exchange of a provider's client: the request never completed, or
   * a status code with a body that did or did not decode.
   */
  datatype Reply<T> = SendFailed | Status(code: int, body: Option<T>)

  /** `StatusCode::is_success`: a 2xx code. */
  predicate IsSuccess(code: int) {
    200 <= code < 300
  }

  /** What one call of `enrich` reports: an error, `Ok(None)` or `Ok(Some(data))`. */
  datatype Outcome = Failed(reason: string) | NoData | Found(data: Json)

  /** One element of `enrich_all`'s result: (enrichment type, provider name, data, ttl). */
  datatype EnrichmentResult = EnrichmentResult(
    enrichmentType: string,
    provider: string,
    data: Json,
    ttlHours: int)

  /** The result a provider contributes when it found `data`. */
  function ResultOf(p: Provider, data: Json): (r: EnrichmentResult)
    ensures r.enrichmentType == p.enrichmentType && r.provider == p.name
    ensures r.data == data && r.ttlHours == TtlHours(p)
  {
    EnrichmentResult(p.enrichmentType, p.name, data, TtlHours(p))
  }

  /** A provider's share of the results: nothing unless it supports `t` and found data. */
  function Contribution(p: Provider, t: IocType, o: Outcome): (r: seq<EnrichmentResult>)
    ensures |r| <= 1
    ensures |r| == 1 <==> Supports(p, t) && o.Found?
    ensures |r| == 1 ==> r[0] == ResultOf(p, o.data)
  {
    if Supports(p, t) && o.Found? then [ResultOf(p, o.data)] else []
  }

  /** The reference meaning of `enrich_all`: the contributions, in provider order. */
  function Collect(ps: seq<Provider>, t: IocType, outcomes: seq<Outcome>): seq<EnrichmentResult>
    requires |outcomes| == |ps|
  {
    if ps == [] then []
    else Contribution(ps[0], t, outcomes[0]) + Collect(ps[1..], t, outcomes[1..])
  }

  /** `EnrichmentEngine`: providers in registration order. */
  datatype Engine = Engine(providers: seq<Provider>)

  /** `EnrichmentEngine::new`: no providers. */
  function NewEngine(): (e: Engine)
    ensures |e.providers| == 0
  {
    Engine([])
  }

  /** `add_provider`: registers `p` after every provider already there. */
  function AddProvider(e: Engine, p: Provider): (r: Engine)
    ensures |r.providers| == |e.providers| + 1
    ensures r.providers[..|e.providers|] == e.providers
    ensures r.providers[|e.providers|] == p
  {
    Engine(e.providers + [p])
  }

  /**
   * `enrich_all`: a sequential pass over the providers. An unsupported
   * provider is skipped, a failure or an empty answer is dropped, and the
   * loop always goes on to the next provider.
   */
  method EnrichAll(e: Engine, indicator: Indicator, outcomes: seq<Outcome>) returns (results: seq<EnrichmentResult>)
    requires |outcomes| == |e.providers|
    ensures results == Collect(e.providers, indicator.iocType, outcomes)
    ensures |results| <= |e.providers|
    ensures forall r :: r in results ==> exists i :: 0 <= i < |e.providers| && Supports(e.providers[i], indicator.iocType) && outcomes[i].Found? && r == ResultOf(e.providers[i], outcomes[i].data)
    ensures forall i :: 0 <= i < |e.providers| && Supports(e.providers[i], indicator.iocType) && outcomes[i].Found? ==> ResultOf(e.providers[i], outcomes[i].data) in results
  {
    var ps := e.providers;
    var t := indicator.iocType;
    results := [];
    for i := 0 to |ps|
      invariant results == Collect(ps[..i], t, outcomes[..i])
    {
      CollectSnoc(ps, t, outcomes, i);
      var part := Visit(ps[i], t, outcomes[i]);
      results := results + part;
    }
    Collections.TakeAll(ps);
    Collections.TakeAll(outcomes);
    CollectBound(ps, t, outcomes);
    CollectSound(ps, t, outcomes);
    CollectComplete(ps, t, outcomes);
  }

  /** One provider's turn in `enrich_all`: skipped, dropped, or one result. */
  method Visit(p: Provider, t: IocType, o: Outcome) returns (part: seq<EnrichmentResult>)
    ensures part == Contribution(p, t, o)
  {
    part := [];
    if Supports(p, t) {
      match o {
        case Found(data) =>
          part := [ResultOf(p, data)];
        case NoData =>
        case Failed(_) =>
      }
    }
  }

  /** The first `i + 1` providers give the first `i`'s results followed by provider `i`'s. */
  lemma CollectSnoc(ps: seq<Provider>, t: IocType, outcomes: seq<Outcome>, i: nat)
    requires |outcomes| == |ps| && i < |ps|
    ensures Collect(ps[..i + 1], t, outcomes[..i + 1]) == Collect(ps[..i], t, outcomes[..i]) + Contribution(ps[i], t, outcomes[i])
  {
    Collections.TakeSnoc(ps, i);
    Collections.TakeSnoc(outcomes, i);
    CollectAppend(ps[..i], [ps[i]], t, outcomes[..i], [outcomes[i]]);
    assert Collect([ps[i]], t, [outcomes[i]]) == Contribution(ps[i], t, outcomes[i]) + Collect([], t, []);
  }

  /** At most one result per provider. */
  lemma {:induction false} CollectBound(ps: seq<Provider>, t: IocType, outcomes: seq<Outcome>)
    requires |outcomes| == |ps|
    ensures |Collect(ps, t, outcomes)| <= |ps|
  {
    if ps != [] {
      CollectBound(ps[1..], t, outcomes[1..]);
    }
  }

  /** Every result comes from a supporting provider that found data. */
  lemma {:induction false} CollectSound(ps: seq<Provider>, t: IocType, outcomes: seq<Outcome>)
    requires |outcomes| == |ps|
    ensures forall r :: r in Collect(ps, t, outcomes) ==> exists i :: 0 <= i < |ps| && Supports(ps[i], t) && outcomes[i].Found? && r == ResultOf(ps[i], outcomes[i].data)
  {
    if ps != [] {
      CollectSound(ps[1..], t, outcomes[1..]);
      forall r | r in Collect(ps, t, outcomes)
        ensures exists i :: 0 <= i < |ps| && Supports(ps[i], t) && outcomes[i].Found? && r == ResultOf(ps[i], outcomes[i].data)
      {
        if r !in Contribution(ps[0], t, outcomes[0]) {
          assert r in Collect(ps[1..], t, outcomes[1..]);
          var j :| 0 <= j < |ps[1..]| && Supports(ps[1..][j], t) && outcomes[1..][j].Found? && r == ResultOf(ps[1..][j], outcomes[1..][j].data);
          assert ps[j + 1] == ps[1..][j];
        }
      }
    }
  }

  /**
   * Every supporting provider that found data is represented, whatever the
   * providers before it reported: failures never stop the pass.
   */
  lemma {:induction false} CollectComplete(ps: seq<Provider>, t: IocType, outcomes: seq<Outcome>)
    requires |outcomes| == |ps|
    ensures forall i :: 0 <= i < |ps| && Supports(ps[i], t) && outcomes[i].Found? ==> ResultOf(ps[i], outcomes[i].data) in Collect(ps, t, outcomes)
  {
    if ps != [] {
      CollectComplete(ps[1..], t, outcomes[1..]);
      forall i | 0 <= i < |ps| && Supports(ps[i], t) && outcomes[i].Found?
        ensures ResultOf(ps[i], outcomes[i].data) in Collect(ps, t, outcomes)
      {
        if i > 0 {
          assert ps[1..][i - 1] == ps[i] && outcomes[1..][i - 1] == outcomes[i];
        }
      }
    }
  }

  /**
   * Results keep registration order: the results of two groups of providers
   * registered one after the other are the first group's followed by the
   * second's.
   */
  lemma {:induction false} CollectAppend(ps: seq<Provider>, qs: seq<Provider>, t: IocType, os: seq<Outcome>, us: seq<Outcome>)
    requires |os| == |ps| && |us| == |qs|
    ensures Collect(ps + qs, t, os + us) == Collect(ps, t, os) + Collect(qs, t, us)
  {
    if ps != [] {
      assert (ps + qs)[1..] == ps[1..] + qs;
      assert (os + us)[1..] == os[1..] + us;
      CollectAppend(ps[1..], qs, t, os[1..], us);
    } else {
      assert ps + qs == qs && os + us == us;
    }
  }

  /** Registering a provider adds its contribution, and only that, at the end. */
  lemma AddProviderExtends(e: Engine, p: Provider, t: IocType, outcomes: seq<Outcome>, o: Outcome)
    requires |outcomes| == |e.providers|
    ensures Collect(AddProvider(e, p).providers, t, outcomes + [o]) == Collect(e.providers, t, outcomes) + Contribution(p, t, o)
  {
    CollectAppend(e.providers, [p], t, outcomes, [o]);
  }

  /** An engine nobody registered a provider with returns nothing, for every indicator. */
  lemma EmptyEngineFindsNothing(t: IocType)
    ensures Collect(NewEngine().providers, t, []) == []
  {
  }

  /** When no provider supports the type, nothing is returned whatever the outcomes. */
  lemma {:induction false} NoSupportNoResults(ps: seq<Provider>, t: IocType, outcomes: seq<Outcome>)
    requires |outcomes| == |ps|
    requires forall i :: 0 <= i < |ps| ==> !Supports(ps[i], t)
    ensures Collect(ps, t, outcomes) == []
  {
    if ps != [] {
      NoSupportNoResults(ps[1..], t, outcomes[1..]);
    }
  }
}

=== FILE: geoip.dfy ===
/**
 * The MaxMind GeoIP provider: assembling `GeoIpData` from the city and ASN
 * database records, the gates of `enrich`, and the capability table. A
 * database is `NotLoaded` when its file was absent; a loaded database answers
 * a lookup with `Some(record)`, or `None` when the address is not in it.
 */
module GeoIp {
  import opened Wrappers
  import opened Json
  import opened Models
  import Net
  import Enrichment

  /** name "maxmind", enrichment type "geoip", IPs only, cached for a week. */
  const GeoIpProvider: Enrichment.Provider := Enrichment.Provider("maxmind", "geoip", {Ip}, Some(168))

  /** The country part of a city record: ISO code and English name. */
  datatype Country = Country(isoCode: Option<string>, englishName: Option<string>)

  /** The fields of a city record the provider reads (English names only). */
  datatype CityRecord = CityRecord(
    country: Option<Country>,
    cityName: Option<string>,
    regionNames: seq<Option<string>>)

  datatype AsnRecord = AsnRecord(number: Option<int>, organization: Option<string>)

  /** A database: not loaded, or loaded with a lookup answer for the address at hand. */
  datatype Database<R> = NotLoaded | Loaded(answer: Option<R>)

  /** The record a database gave for the address: none when it is not loaded or has no entry. */
  function Answer<R>(db: Database<R>): Option<R> {
    if db.Loaded? then db.answer else None
  }

  /**
   * `lookup`: an address that does not parse is an error; otherwise the city
   * record fills the country, city and first-subdivision fields and the ASN
   * record the AS number and organisation, each only when it answered.
   */
  function Lookup(ip: string, v6: Net.Ipv6Syntax, city: Database<CityRecord>, asn: Database<AsnRecord>): (r: Result<GeoIpData, string>)
    ensures r.Err? <==> !Net.IsIpLiteral(ip, v6)
    ensures r.Ok? && (city.NotLoaded? || city.answer.None?) ==> r.value.countryCode.None? && r.value.city.None? && r.value.region.None?
    ensures r.Ok? && (asn.NotLoaded? || asn.answer.None?) ==> r.value.asn.None? && r.value.asOrg.None?
    ensures r.Ok? && asn.Loaded? && asn.answer.Some? ==> r.value.asn == asn.answer.value.number
    ensures r.Ok? && city.Loaded? && city.answer.Some? && city.answer.value.country.Some? ==> r.value.countryCode == city.answer.value.country.value.isoCode
    ensures r.Ok? ==> var c := Answer(city);
      && r.value.countryCode == (if c.Some? && c.value.country.Some? then c.value.country.value.isoCode else None)
      && r.value.countryName == (if c.Some? && c.value.country.Some? then c.value.country.value.englishName else None)
      && r.value.city == (if c.Some? then c.value.cityName else None)
      && r.value.region == (if c.Some? && |c.value.regionNames| > 0 then c.value.regionNames[0] else None)
    ensures r.Ok? ==> var a := Answer(asn);
      && r.value.asn == (if a.Some? then a.value.number else None)
      && r.value.asOrg == (if a.Some? then a.value.organization else None)
  {
    if !Net.IsIpLiteral(ip, v6) then Err("Invalid IP address")
    else
      var empty := GeoIpData(None, None, None, None, None, None);
      var withCity :=
        match city
        case Loaded(Some(c)) =>
          var d1 := match c.country
            case Some(k) => empty.(countryCode := k.isoCode, countryName := k.englishName)
            case None => empty;
          var d2 := d1.(city := c.cityName);
          if |c.regionNames| > 0 then d2.(region := c.regionNames[0]) else d2
        case _ => empty;
      var withAsn :=
        match asn
        case Loaded(Some(a)) => withCity.(asn := a.number, asOrg := a.organization)
        case _ => withCity;
      Ok(withAsn)
  }

  /**
   * The two databases fill disjoint fields: a lookup with both is the city
   * fields of a city-only lookup together with the ASN fields of an ASN-only one.
   */
  lemma LookupSeparates(ip: string, v6: Net.Ipv6Syntax, city: Database<CityRecord>, asn: Database<AsnRecord>)
    requires Net.IsIpLiteral(ip, v6)
    ensures var both := Lookup(ip, v6, city, asn).value;
      var c := Lookup(ip, v6, city, NotLoaded).value;
      var a := Lookup(ip, v6, NotLoaded, asn).value;
      both == c.(asn := a.asn, asOrg := a.asOrg)
  {
  }

  /** The payload of `enrich` (latitude and longitude are not modelled). */
  function Payload(d: GeoIpData): (j: Json)
    ensures j.Obj? && j.fields.Keys == {"country_code", "country_name", "city", "region", "asn", "as_org"}
    ensures Get(j, "country_code") == Some(OptStr(d.countryCode)) && Get(j, "asn") == Some(OptNum(d.asn))
    ensures Get(j, "country_name") == Some(OptStr(d.countryName)) && Get(j, "city") == Some(OptStr(d.city))
    ensures Get(j, "region") == Some(OptStr(d.region)) && Get(j, "as_org") == Some(OptStr(d.asOrg))
  {
    Obj(map[
      "country_code" := OptStr(d.countryCode),
      "country_name" := OptStr(d.countryName),
      "city" := OptStr(d.city),
      "region" := OptStr(d.region),
      "asn" := OptNum(d.asn),
      "as_org" := OptStr(d.asOrg)])
  }

  /**
   * `enrich`: nothing when neither database is loaded (checked before the
   * address is parsed); an error for a value that is not an address; nothing
   * when the lookup found neither a country code nor an AS number.
   */
  function Enrich(ind: Indicator, v6: Net.Ipv6Syntax, city: Database<CityRecord>, asn: Database<AsnRecord>): (o: Enrichment.Outcome)
    ensures city.NotLoaded? && asn.NotLoaded? ==> o == Enrichment.NoData
    ensures !(city.NotLoaded? && asn.NotLoaded?) ==> (o.Failed? <==> !Net.IsIpLiteral(ind.value, v6))
    ensures o.Found? ==> Lookup(ind.value, v6, city, asn).Ok?
    ensures o.Found? ==> var d := Lookup(ind.value, v6, city, asn).value; (d.countryCode.Some? || d.asn.Some?) && o.data == Payload(d)
    ensures Lookup(ind.value, v6, city, asn).Ok? && !(city.NotLoaded? && asn.NotLoaded?) ==> var d := Lookup(ind.value, v6, city, asn).value; (o.NoData? <==> d.countryCode.None? && d.asn.None?)
  {
    if city.NotLoaded? && asn.NotLoaded? then Enrichment.NoData
    else
      match Lookup(ind.value, v6, city, asn)
      case Err(msg) => Enrichment.Failed(msg)
      case Ok(d) =>
        if d.countryCode.None? && d.asn.None? then Enrichment.NoData
        else Enrichment.Found(Payload(d))
  }

  /** An address missing from both databases yields nothing, never an error. */
  lemma UnknownAddressIsNoData(ind: Indicator, v6: Net.Ipv6Syntax)
    requires Net.IsIpLiteral(ind.value, v6)
    ensures Enrich(ind, v6, Loaded(None), Loaded(None)) == Enrichment.NoData
  {
  }

  lemma GeoIpCapabilities(t: IocType)
    ensures Enrichment.Supports(GeoIpProvider, t) <==> t == Ip
    ensures Enrichment.TtlHours(GeoIpProvider) == 168
    ensures GeoIpProvider.name == "maxmind" && GeoIpProvider.enrichmentType == "geoip"
  {
  }
}

=== FILE: honeytrap.dfy ===
/**
 * The HoneyTrap collector: turning honeypot events into indicator requests,
 * from a local events file (one JSON event per line, the first event of each
 * attacker address only) or from the HoneyTrap API (every event, with fixed
 * severity and tags). Decoding a line into an event is the argument `decode`,
 * `None` when the line is not an event.
 */
module Honeytrap {
  import opened Wrappers
  import opened Text
  import opened Models
  import Enrichment
  import opened Collections

  datatype Source = Source(ip: string, port: int)

  datatype Credentials = Credentials(username: string, password: string)

  /** A decoded event; `command` is the text of the command, when one was run. */
  datatype Event = Event(
    sessionId: string,
    protocol: string,
    category: string,
    severity: string,
    source: Source,
    credentials: Option<Credentials>,
    command: Option<string>)

  type Decoder = string -> Option<Event>

  /** The tags the credential rules and the command rules can add. */
  const CredentialTagNames: set<string> := {"has_credentials", "targets_admin"}
  const CommandTagNames: set<string> := {"executed_commands", "download_attempt", "made_executable", "credential_access"}

  lemma TagNamesDisjoint()
    ensures CredentialTagNames !! CommandTagNames
  {
  }

  /** "has_credentials", then "targets_admin" when the username is exactly "root" or "admin". */
  function CredentialTags(creds: Option<Credentials>): (tags: seq<string>)
    ensures "has_credentials" in tags <==> creds.Some?
    ensures "targets_admin" in tags <==> creds.Some? && (creds.value.username == "root" || creds.value.username == "admin")
    ensures creds.Some? ==> tags[0] == "has_credentials"
    ensures |tags| <= 2
    ensures forall i :: 0 <= i < |tags| ==> tags[i] in CredentialTagNames
  {
    match creds
    case None => []
    case Some(c) => ["has_credentials"] + (if c.username == "root" || c.username == "admin" then ["targets_admin"] else [])
  }

  /**
   * "executed_commands", then the tags of the suspicious patterns found in
   * the lowercased command: a download tool, chmod with +x, or a read of the
   * password or shadow file.
   */
  function CommandTags(command: Option<string>): (tags: seq<string>)
    ensures "executed_commands" in tags <==> command.Some?
    ensures "download_attempt" in tags <==> command.Some? && (Contains(Lower(command.value), "wget") || Contains(Lower(command.value), "curl"))
    ensures "made_executable" in tags <==> command.Some? && Contains(Lower(command.value), "chmod") && Contains(Lower(command.value), "+x")
    ensures "credential_access" in tags <==> command.Some? && (Contains(Lower(command.value), "/etc/passwd") || Contains(Lower(command.value), "/etc/shadow"))
    ensures command.Some? ==> tags[0] == "executed_commands"
    ensures |tags| <= 4
    ensures forall i :: 0 <= i < |tags| ==> tags[i] in CommandTagNames
  {
    match command
    case None => []
    case Some(c) =>
      var lower := Lower(c);
      ["executed_commands"]
      + (if Contains(lower, "wget") || Contains(lower, "curl") then ["download_attempt"] else [])
      + (if Contains(lower, "chmod") && Contains(lower, "+x") then ["made_executable"] else [])
      + (if Contains(lower, "/etc/passwd") || Contains(lower, "/etc/shadow") then ["credential_access"] else [])
  }

  /** The two tags every request carries: the honeypot protocol and the attack category. */
  function BaseTags(e: Event): (tags: seq<string>)
    ensures |tags| == 2
  {
    ["honeypot:" + e.protocol, "category:" + e.category]
  }

  /** The tags of an event read from the file: the base tags, then the credential and command tags. */
  function FileTags(e: Event): seq<string> {
    BaseTags(e) + CredentialTags(e.credentials) + CommandTags(e.command)
  }

  /**
   * A file event's tags: first the protocol and category tags, then
   * "has_credentials" iff credentials were captured, "targets_admin" iff the
   * username is root or admin, "executed_commands" iff a command was run, and
   * the command pattern tags; at most eight in all.
   */
  lemma FileTagsLayout(e: Event)
    ensures var tags := FileTags(e);
      && 2 <= |tags| <= 8
      && tags[0] == "honeypot:" + e.protocol && tags[1] == "category:" + e.category
      && ("has_credentials" in tags[2..] <==> e.credentials.Some?)
      && ("targets_admin" in tags[2..] <==> e.credentials.Some? && (e.credentials.value.username == "root" || e.credentials.value.username == "admin"))
      && ("executed_commands" in tags[2..] <==> e.command.Some?)
      && ("download_attempt" in tags[2..] <==> e.command.Some? && (Contains(Lower(e.command.value), "wget") || Contains(Lower(e.command.value), "curl")))
      && ("made_executable" in tags[2..] <==> e.command.Some? && Contains(Lower(e.command.value), "chmod") && Contains(Lower(e.command.value), "+x"))
      && ("credential_access" in tags[2..] <==> e.command.Some? && (Contains(Lower(e.command.value), "/etc/passwd") || Contains(Lower(e.command.value), "/etc/shadow")))
  {
    FileTagsTail(e);
    var creds := CredentialTags(e.credentials);
    var cmds := CommandTags(e.command);
    CredentialNamesInTail(creds, cmds);
    CommandNamesInTail(creds, cmds);
  }

  /** The base tags come first, then the credential tags, then the command tags. */
  lemma FileTagsTail(e: Event)
    ensures |FileTags(e)| >= 2 && FileTags(e)[..2] == BaseTags(e)
    ensures FileTags(e)[2..] == CredentialTags(e.credentials) + CommandTags(e.command)
  {
  }

  /** Behind credential tags, a command tag name is present iff the command tags have it, and so on. */
  lemma CredentialNamesInTail(creds: seq<string>, cmds: seq<string>)
    requires forall i :: 0 <= i < |cmds| ==> cmds[i] in CommandTagNames
    ensures "has_credentials" in creds + cmds <==> "has_credentials" in creds
    ensures "targets_admin" in creds + cmds <==> "targets_admin" in creds
  {
    TagNamesDisjoint();
    assert "has_credentials" in CredentialTagNames && "targets_admin" in CredentialTagNames;
  }

  lemma CommandNamesInTail(creds: seq<string>, cmds: seq<string>)
    requires forall i :: 0 <= i < |creds| ==> creds[i] in CredentialTagNames
    ensures "executed_commands" in creds + cmds <==> "executed_commands" in cmds
    ensures "download_attempt" in creds + cmds <==> "download_attempt" in cmds
    ensures "made_executable" in creds + cmds <==> "made_executable" in cmds
    ensures "credential_access" in creds + cmds <==> "credential_access" in cmds
  {
    TagNamesDisjoint();
    assert "executed_commands" in CommandTagNames && "download_attempt" in CommandTagNames;
    assert "made_executable" in CommandTagNames && "credential_access" in CommandTagNames;
  }

  /** The event's severity text; anything but the four known names is Medium. */
  function SeverityOf(s: string): (r: Severity)
    ensures r != Unknown
    ensures r == Critical <==> s == "critical"
    ensures r == High <==> s == "high"
    ensures r == Low <==> s == "low"
    ensures r == Medium <==> s != "critical" && s != "high" && s != "low"
  {
    if s == "critical" then Critical
    else if s == "high" then High
    else if s == "medium" then Medium
    else if s == "low" then Low
    else Medium
  }

  /** The request of an event from the file. */
  function FileRequest(e: Event): CreateIndicatorRequest {
    CreateIndicatorRequest(e.source.ip, Some(Ip), Some(SeverityOf(e.severity)), Some(90), Some(Green), Some(FileTags(e)), Some("honeytrap"), Some(30))
  }

  /** The request of an event from the API: always High, with the base tags only. */
  function ApiRequest(e: Event): CreateIndicatorRequest {
    CreateIndicatorRequest(e.source.ip, Some(Ip), Some(High), Some(90), Some(Green), Some(BaseTags(e)), Some("honeytrap"), Some(30))
  }

  /** The constants every HoneyTrap request carries, whichever path produced it. */
  predicate HoneytrapDefaults(r: CreateIndicatorRequest) {
    r.iocType == Some(Ip) && r.confidence == Some(90) && r.tlp == Some(Green)
    && r.source == Some("honeytrap") && r.expirationDays == Some(30)
  }

  predicate IsBlank(line: string) {
    Trim(line) == []
  }

  /** The event of a line: none for a blank line, otherwise what the decoder makes of it. */
  function LineEvent(decode: Decoder): string -> Option<Event> {
    line => if IsBlank(line) then None else decode(line)
  }

  /** The source address of an event, the key of the file path's deduplication. */
  function SourceIp(e: Event): string {
    e.source.ip
  }

  /** The requests of events from the file, in order. */
  function FileRequests(events: seq<Event>): seq<CreateIndicatorRequest> {
    MapSeq(events, FileRequest)
  }

  /** The requests of the file's lines: the first event of every address, in order. */
  function ParseLines(lines: seq<string>, decode: Decoder): seq<CreateIndicatorRequest> {
    FileRequests(FirstByKey(Somes(lines, LineEvent(decode)), SourceIp))
  }

  /** `parse_events_file`, as a function of the file's content. */
  function ParseEvents(content: string, decode: Decoder): seq<CreateIndicatorRequest> {
    ParseLines(Lines(content), decode)
  }

  /** The file path keeps one request per address, each with the HoneyTrap constants. */
  lemma ParseLinesDistinct(lines: seq<string>, decode: Decoder)
    ensures var reqs := ParseLines(lines, decode);
      && (forall i, j :: 0 <= i < j < |reqs| ==> reqs[i].value != reqs[j].value)
      && (forall r :: r in reqs ==> HoneytrapDefaults(r))
  {
    var kept := FirstByKey(Somes(lines, LineEvent(decode)), SourceIp);
    FirstByKeyMeaning(Somes(lines, LineEvent(decode)), SourceIp);
    assert forall i :: 0 <= i < |kept| ==> FileRequests(kept)[i].value == SourceIp(kept[i]);
  }

  /** The file path covers every address among the decoded events, and no other. */
  lemma ParseLinesCover(lines: seq<string>, decode: Decoder)
    ensures (set r | r in ParseLines(lines, decode) :: r.value) == KeySet(Somes(lines, LineEvent(decode)), SourceIp)
  {
    var events := Somes(lines, LineEvent(decode));
    var kept := FirstByKey(events, SourceIp);
    var reqs := FileRequests(kept);
    FirstByKeyKeys(events, SourceIp);
    assert forall i :: 0 <= i < |kept| ==> reqs[i].value == SourceIp(kept[i]);
    forall x | x in KeySet(kept, SourceIp)
      ensures x in (set r | r in reqs :: r.value)
    {
      var i :| 0 <= i < |kept| && SourceIp(kept[i]) == x;
      assert reqs[i] in reqs;
    }
  }

  /** One more line: its event is kept iff it decodes and its address is new. */
  lemma ParseStep(prefix: seq<string>, line: string, decode: Decoder, kept: seq<Event>)
    requires kept == FirstByKey(Somes(prefix, LineEvent(decode)), SourceIp)
    ensures var event := LineEvent(decode)(line);
      FirstByKey(Somes(prefix + [line], LineEvent(decode)), SourceIp) ==
        if event.Some? && SourceIp(event.value) !in KeySet(kept, SourceIp) then kept + [event.value] else kept
  {
    SomesSnoc(prefix, line, LineEvent(decode));
    var event := LineEvent(decode)(line);
    if event.Some? {
      FirstByKeySnoc(Somes(prefix, LineEvent(decode)), event.value, SourceIp);
      assert Somes(prefix + [line], LineEvent(decode)) == Somes(prefix, LineEvent(decode)) + [event.value];
    } else {
      assert Somes(prefix + [line], LineEvent(decode)) == Somes(prefix, LineEvent(decode));
    }
  }

  /**
   * `parse_events_file`: skips blank lines and lines that are not events,
   * and turns the first event of every source address into a request.
   */
  method ParseEventsFile(content: string, decode: Decoder) returns (reqs: seq<CreateIndicatorRequest>)
    ensures reqs == ParseEvents(content, decode)
  {
    var lines := Lines(content);
    var seen: set<string> := {};
    ghost var kept: seq<Event> := [];
    reqs := [];
    for i := 0 to |lines|
      invariant kept == FirstByKey(Somes(lines[..i], LineEvent(decode)), SourceIp)
      invariant seen == KeySet(kept, SourceIp)
      invariant reqs == FileRequests(kept)
    {
      var line := lines[i];
      TakeSnoc(lines, i);
      ParseStep(lines[..i], line, decode, kept);
      var event := if IsBlank(line) then None else decode(line);
      assert LineEvent(decode)(line) == event;
      if event.Some? && event.value.source.ip !in seen {
        KeySetSnoc(kept, event.value, SourceIp);
        MapSeqSnoc(kept, event.value, FileRequest);
        seen := seen + {event.value.source.ip};
        kept := kept + [event.value];
        reqs := reqs + [FileRequest(event.value)];
      }
    }
    TakeAll(lines);
  }

  /** The API path: one request per event, no deduplication. */
  function ApiRequests(events: seq<Event>): (reqs: seq<CreateIndicatorRequest>)
    ensures |reqs| == |events|
    ensures forall i :: 0 <= i < |reqs| ==> reqs[i].value == events[i].source.ip && reqs[i].severity == Some(High)
    ensures forall r :: r in reqs ==> HoneytrapDefaults(r)
  {
    seq(|events|, i requires 0 <= i < |events| => ApiRequest(events[i]))
  }

  /**
   * `fetch`: with an API URL, the API's events (a failed request, an error
   * status or an undecodable body is an error); without one, the local
   * events file (an unreadable file is an error).
   */
  function Fetch(apiUrl: string, reply: Enrichment.Reply<seq<Event>>, file: Result<string, string>, decode: Decoder): (r: Result<seq<CreateIndicatorRequest>, string>)
    ensures apiUrl != [] ==> (r.Ok? <==> reply.Status? && Enrichment.IsSuccess(reply.code) && reply.body.Some?)
    ensures apiUrl != [] && r.Ok? ==> r.value == ApiRequests(reply.body.value)
    ensures apiUrl == [] ==> (r.Ok? <==> file.Ok?)
    ensures apiUrl == [] && r.Ok? ==> r.value == ParseEvents(file.value, decode)
  {
    if apiUrl != [] then
      match reply
      case SendFailed => Err("Failed to fetch from HoneyTrap API")
      case Status(code, body) =>
        if !Enrichment.IsSuccess(code) then Err("HoneyTrap API error")
        else if body.None? then Err("Failed to parse HoneyTrap response")
        else Ok(ApiRequests(body.value))
    else
      match file
      case Err(_) => Err("Failed to read events file")
      case Ok(content) => Ok(ParseEvents(content, decode))
  }

  /** Two events from one address in the file give one request, from the first of them. */
  lemma RepeatedAddressOnce(e1: Event, e2: Event)
    requires e1.source.ip == e2.source.ip
    ensures FirstByKey([e1, e2], SourceIp) == [e1]
  {
    FirstByKeySnoc([], e1, SourceIp);
    assert [e1] == [] + [e1];
    FirstByKeySnoc([e1], e2, SourceIp);
    KeySetSnoc([], e1, SourceIp);
    assert [e1, e2] == [e1] + [e2];
  }
}

=== FILE: ioc_utils.dfy ===
/**
 * Classification and normalisation of raw indicator values
 * (`detect_ioc_type`, `normalize_ioc`).
 */
module IocUtils {
  import opened Wrappers
  import opened Text
  import opened Net
  import opened Models

  /** Uppercased, the value starts with "CVE-". */
  predicate IsCvePrefixed(t: string) {
    StartsWith(Upper(t), "CVE-")
  }

  /** An MD5, SHA-1 or SHA-256 digest: 32, 40 or 64 hex digits of either case. */
  predicate IsHashDigest(t: string) {
    && (|t| == 32 || |t| == 40 || |t| == 64)
    && forall i :: 0 <= i < |t| ==> IsAsciiHexDigit(t[i])
  }

  /** The case-sensitive scheme prefixes that make a URL. */
  predicate IsHttpUrl(t: string) {
    StartsWith(t, "http://") || StartsWith(t, "https://")
  }

  predicate LooksLikeEmail(t: string) {
    '@' in t && '.' in t
  }

  /** Exactly one '/', with an address literal before it; the suffix is never looked at. */
  predicate IsCidr(t: string, v6: Ipv6Syntax) {
    var parts := Split(t, '/');
    '/' in t && |parts| == 2 && IsIpLiteral(parts[0], v6)
  }

  predicate IsDomainChar(c: char) {
    IsAlphanumeric(c) || c == '.' || c == '-'
  }

  predicate IsDomainShaped(t: string) {
    && '.' in t && ' ' !in t && '/' !in t && '@' !in t
    && forall i :: 0 <= i < |t| ==> IsDomainChar(t[i])
  }

  /** An IPv4 or IPv6 literal, or a CIDR-shaped value: what is classified as an IP. */
  predicate IsIpShaped(t: string, v6: Ipv6Syntax) {
    IsIpv4(t) || v6(t) || IsCidr(t, v6)
  }

  /** Some rule of the classification chain accepts the value. */
  predicate MatchesSomeRule(t: string, v6: Ipv6Syntax) {
    || IsCvePrefixed(t) || IsHashDigest(t) || IsHttpUrl(t) || LooksLikeEmail(t)
    || IsIpShaped(t, v6) || IsDomainShaped(t)
  }

  /**
   * `detect_ioc_type` on an already trimmed value: CVE, hash, URL, email,
   * IP/CIDR and domain are tried in that order and the first match wins.
   */
  function Classify(t: string, v6: Ipv6Syntax): (r: Option<IocType>)
    ensures t == [] ==> r == None
    ensures r == Some(Cve) <==> t != [] && IsCvePrefixed(t)
    ensures r == Some(Hash) <==> IsHashDigest(t)
    ensures r == Some(Url) <==> !IsCvePrefixed(t) && IsHttpUrl(t)
    ensures r == Some(Email) ==> LooksLikeEmail(t)
    ensures r == Some(Ip) ==> IsIpShaped(t, v6)
    ensures r == Some(Domain) ==> IsDomainShaped(t)
    ensures r == None <==> t == [] || !MatchesSomeRule(t, v6)
  {
    CveShape(t);
    UrlShape(t);
    if t == [] then None
    else if IsCvePrefixed(t) then Some(Cve)
    else if IsHashDigest(t) then Some(Hash)
    else if IsHttpUrl(t) then Some(Url)
    else if LooksLikeEmail(t) then Some(Email)
    else if IsIpv4(t) then Some(Ip)
    else if v6(t) then Some(Ip)
    else if IsCidr(t, v6) then Some(Ip)
    else if IsDomainShaped(t) then Some(Domain)
    else None
  }

  /** `detect_ioc_type`: classifies the value with surrounding whitespace removed. */
  function DetectIocType(value: string, v6: Ipv6Syntax): (r: Option<IocType>)
    ensures Trim(value) == [] ==> r == None
    ensures r == Some(Cve) <==> Trim(value) != [] && IsCvePrefixed(Trim(value))
    ensures r == Some(Hash) <==> IsHashDigest(Trim(value))
    ensures r == Some(Url) <==> !IsCvePrefixed(Trim(value)) && IsHttpUrl(Trim(value))
    ensures r == Some(Email) ==> LooksLikeEmail(Trim(value))
    ensures r == Some(Ip) ==> IsIpShaped(Trim(value), v6)
    ensures r == Some(Domain) ==> IsDomainShaped(Trim(value))
    ensures r == None <==> Trim(value) == [] || !MatchesSomeRule(Trim(value), v6)
  {
    Classify(Trim(value), v6)
  }

  /** What a CVE prefix forces on the first four characters. */
  lemma CveShape(t: string)
    ensures IsCvePrefixed(t) ==> |t| >= 4 && (t[1] == 'v' || t[1] == 'V') && t[3] == '-'
  {
    if IsCvePrefixed(t) {
      assert Upper(t)[..4][1] == UpperChar(t[1]);
      assert Upper(t)[..4][3] == UpperChar(t[3]);
    }
  }

  /** What an http(s) prefix forces: a leading 'h' and a colon at index 4 or 5. */
  lemma UrlShape(t: string)
    ensures IsHttpUrl(t) ==> |t| >= 7 && t[0] == 'h' && (t[4] == ':' || t[5] == ':')
  {
    if StartsWith(t, "http://") {
      assert t[..7][0] == t[0] && t[..7][4] == t[4];
    }
    if StartsWith(t, "https://") {
      assert t[..8][0] == t[0] && t[..8][5] == t[5];
    }
  }

  /** Only the trimmed value matters. */
  lemma DetectTrims(value: string, v6: Ipv6Syntax)
    ensures DetectIocType(value, v6) == DetectIocType(Trim(value), v6)
  {
    TrimIdempotent(value);
  }

  /** An email needs '@' and '.', and is checked before any IP rule. */
  lemma ClassifyEmail(t: string, v6: Ipv6Syntax)
    ensures Classify(t, v6) == Some(Email) <==> !IsCvePrefixed(t) && !IsHttpUrl(t) && LooksLikeEmail(t)
  {
    if '@' in t {
      var i :| 0 <= i < |t| && t[i] == '@';
      assert !IsAsciiHexDigit(t[i]);
    }
  }

  /** An IPv4 literal is an IP: it cannot match any earlier rule. */
  lemma ClassifyIpv4(t: string, v6: Ipv6Syntax)
    requires IsIpv4(t)
    ensures Classify(t, v6) == Some(Ip)
  {
    Ipv4Chars(t);
    CveShape(t);
    UrlShape(t);
    assert !IsAsciiDigit('-') && !IsAsciiDigit('h') && !IsAsciiDigit('@');
    assert '@' !in t;
  }

  /** An IPv6 literal is an IP, given that IPv6 text is colons, hex digits and dots. */
  lemma ClassifyIpv6(t: string, v6: Ipv6Syntax)
    requires Ipv6WellFormed(v6)
    requires v6(t)
    ensures Classify(t, v6) == Some(Ip)
  {
    assert ':' in t;
    CveShape(t);
    UrlShape(t);
    assert forall i :: 0 <= i < |t| ==> IsAsciiHexDigit(t[i]) || t[i] == ':' || t[i] == '.';
    assert !IsAsciiHexDigit('@') && !IsAsciiHexDigit('-') && !IsAsciiHexDigit('h');
    assert '@' !in t;
  }

  /**
   * A value with one '/' after an address literal is an IP whatever follows
   * the slash, once the CVE, URL and email rules have passed it by.
   */
  lemma ClassifyCidr(t: string, v6: Ipv6Syntax)
    requires !IsCvePrefixed(t) && !IsHttpUrl(t) && !LooksLikeEmail(t)
    requires IsCidr(t, v6)
    ensures Classify(t, v6) == Some(Ip)
  {
    var i :| 0 <= i < |t| && t[i] == '/';
    assert !IsAsciiHexDigit(t[i]);
  }

  /** Every IP literal, wherever it sits in the input's whitespace, is classified as an IP. */
  lemma DetectIp(value: string, v6: Ipv6Syntax)
    requires Ipv6WellFormed(v6)
    requires IsIpLiteral(Trim(value), v6)
    ensures DetectIocType(value, v6) == Some(Ip)
  {
    if IsIpv4(Trim(value)) {
      ClassifyIpv4(Trim(value), v6);
    } else {
      ClassifyIpv6(Trim(value), v6);
    }
  }

  /**
   * Domain is the fallback: a domain-shaped value that is not an IPv4
   * literal, a CVE id or a digest is a domain, and every domain is
   * domain-shaped.
   */
  lemma ClassifyDomain(t: string, v6: Ipv6Syntax)
    requires Ipv6WellFormed(v6)
    ensures Classify(t, v6) == Some(Domain) ==> IsDomainShaped(t)
    ensures IsDomainShaped(t) && !IsIpv4(t) && !IsCvePrefixed(t) && !IsHashDigest(t)
            ==> Classify(t, v6) == Some(Domain)
  {
    UrlShape(t);
    if IsDomainShaped(t) {
      assert !IsDomainChar(':');
      assert ':' !in t;
      assert !v6(t);
    }
  }

  lemma ClassifyCveExample(v6: Ipv6Syntax)
    ensures Classify("CVE-2024-1234", v6) == Some(Cve)
  {
    assert Upper("CVE-2024-1234")[..4] == "CVE-";
  }

  lemma ClassifyIpExample(v6: Ipv6Syntax)
    ensures Classify("8.8.8.8", v6) == Some(Ip)
  {
    Ipv4Example();
    ClassifyIpv4("8.8.8.8", v6);
  }

  /** Five dotted numbers are not an address but are domain-shaped. */
  lemma ClassifyFivePartsExample(v6: Ipv6Syntax)
    requires Ipv6WellFormed(v6)
    ensures Classify("1.2.3.4.5", v6) == Some(Domain)
  {
    FiveParts();
    FivePartsShape();
    ClassifyDomain("1.2.3.4.5", v6);
  }

  lemma FivePartsShape()
    ensures IsDomainShaped("1.2.3.4.5") && !IsCvePrefixed("1.2.3.4.5") && !IsHashDigest("1.2.3.4.5")
  {
    var d := "1.2.3.4.5";
    CveShape(d);
    assert d[1] == '.';
    assert forall i :: 0 <= i < |d| ==> d[i] == '.' || IsAsciiDigit(d[i]);
  }

  lemma ClassifyWordExample(v6: Ipv6Syntax)
    requires Ipv6WellFormed(v6)
    ensures Classify("foo", v6) == None
  {
    var w := "foo";
    CveShape(w);
    UrlShape(w);
    assert forall i :: 0 <= i < |w| ==> w[i] == 'f' || w[i] == 'o';
    assert ':' !in w && '.' !in w && '/' !in w && '@' !in w;
    assert !v6(w);
    DotlessNotIpv4(w);
    SplitNone(w, '/');
  }

  /** A 128-digit (SHA-512) digest is not a hash: it has no dot either, so it is rejected. */
  lemma Sha512Rejected(value: string, v6: Ipv6Syntax)
    requires Ipv6WellFormed(v6)
    requires |value| == 128 && forall i :: 0 <= i < |value| ==> IsAsciiHexDigit(value[i])
    ensures DetectIocType(value, v6) == None
  {
    TrimOfTrimmed(value);
    HexHasNoSeparators(value);
    assert !IsCvePrefixed(value) by {
      CveShape(value);
      assert !IsAsciiHexDigit('-');
    }
    assert !IsHttpUrl(value) by {
      UrlShape(value);
    }
    assert !IsIpv4(value) by {
      DotlessNotIpv4(value);
    }
    assert !IsCidr(value, v6);
    assert Classify(value, v6) == None;
  }

  lemma HexHasNoSeparators(s: string)
    requires forall i :: 0 <= i < |s| ==> IsAsciiHexDigit(s[i])
    ensures '.' !in s && '@' !in s && '/' !in s && ':' !in s
  {
    assert !IsAsciiHexDigit('.') && !IsAsciiHexDigit('@') && !IsAsciiHexDigit('/') && !IsAsciiHexDigit(':');
  }

  // ---------------------------------------------------------------- normalisation

  /**
   * Where the verbatim tail of a URL starts: the first '/' after the first
   * "://", or the end of the value when either is missing.
   */
  function UrlPathStart(t: string): (b: nat)
    ensures b <= |t|
    ensures b < |t| ==> t[b] == '/' && Contains(t, "://")
  {
    match Find(t, "://")
    case None => |t|
    case Some(idx) =>
      match FindChar(t[idx + 3..], '/')
      case None => |t|
      case Some(p) => idx + 3 + p
  }

  /**
   * The URL arm of `normalize_ioc`: scheme and host (everything before the
   * first '/' after "://") are lowercased and the path is kept verbatim.
   * Lowercasing the scheme and the host one after the other is lowercasing
   * their concatenation, which is the prefix before `UrlPathStart`; without
   * "://" or without a path that prefix is the whole value.
   */
  function NormalizeUrl(t: string): (r: string)
    ensures |r| == |t|
    ensures forall i :: 0 <= i < UrlPathStart(t) ==> r[i] == LowerChar(t[i])
    ensures forall i :: UrlPathStart(t) <= i < |t| ==> r[i] == t[i]
  {
    var b := UrlPathStart(t);
    Lower(t[..b]) + t[b..]
  }

  /**
   * `normalize_ioc`: trims, then uppercases a CVE id, lowercases scheme and
   * host of a URL while keeping its path verbatim, and lowercases the rest.
   */
  function NormalizeIoc(value: string, ty: IocType): (r: string)
    ensures |r| == |Trim(value)|
    ensures ty == Cve ==> r == Upper(Trim(value))
    ensures ty != Cve && ty != Url ==> r == Lower(Trim(value))
    ensures ty == Url ==> forall i :: 0 <= i < UrlPathStart(Trim(value)) ==> r[i] == LowerChar(Trim(value)[i])
    ensures ty == Url ==> forall i :: UrlPathStart(Trim(value)) <= i < |r| ==> r[i] == Trim(value)[i]
  {
    var t := Trim(value);
    match ty
    case Domain => Lower(t)
    case Url => NormalizeUrl(t)
    case Email => Lower(t)
    case Ip => Lower(t)
    case Hash => Lower(t)
    case Cve => Upper(t)
  }

  /** `s` and `u` have their colons and slashes in the same places. */
  predicate SeparatorsAgree(s: string, u: string) {
    |s| == |u| && forall i :: 0 <= i < |s| ==> (s[i] == ':' <==> u[i] == ':') && (s[i] == '/' <==> u[i] == '/')
  }

  lemma SchemeSeparatorAt(s: string, j: int)
    ensures OccursAt(s, "://", j) <==> 0 <= j && j + 3 <= |s| && s[j] == ':' && s[j + 1] == '/' && s[j + 2] == '/'
  {
    if 0 <= j && j + 3 <= |s| {
      assert s[j..j + 3] == [s[j], s[j + 1], s[j + 2]];
    }
  }

  lemma {:induction false} FindFromAgree(s: string, u: string, sub: string, from: nat)
    requires |s| == |u| && from <= |s|
    requires forall j :: OccursAt(s, sub, j) <==> OccursAt(u, sub, j)
    ensures FindFrom(s, sub, from) == FindFrom(u, sub, from)
    decreases |s| - from
  {
    if !OccursAt(s, sub, from) && from < |s| {
      FindFromAgree(s, u, sub, from + 1);
    }
  }

  lemma {:induction false} FindCharAgree(s: string, u: string, c: char)
    requires |s| == |u|
    requires forall i :: 0 <= i < |s| ==> (s[i] == c <==> u[i] == c)
    ensures FindChar(s, c) == FindChar(u, c)
    decreases |s|
  {
    if s != [] && s[0] != c {
      FindCharAgree(s[1..], u[1..], c);
    }
  }

  lemma UrlPathStartAgree(s: string, u: string)
    requires SeparatorsAgree(s, u)
    ensures UrlPathStart(s) == UrlPathStart(u)
  {
    forall j
      ensures OccursAt(s, "://", j) <==> OccursAt(u, "://", j)
    {
      SchemeSeparatorAt(s, j);
      SchemeSeparatorAt(u, j);
    }
    FindFromAgree(s, u, "://", 0);
    match Find(s, "://")
    case None =>
    case Some(idx) =>
      FindCharAgree(s[idx + 3..], u[idx + 3..], '/');
  }

  /** Lowercasing a trimmed value twice is lowercasing it once. */
  lemma LowerNormalizeIdempotent(t: string)
    requires IsTrimmed(t)
    ensures Trim(Lower(t)) == Lower(t) && Lower(Lower(t)) == Lower(t)
  {
    LowerKeepsTrimmed(t);
    TrimOfTrimmed(Lower(t));
  }

  lemma UpperNormalizeIdempotent(t: string)
    requires IsTrimmed(t)
    ensures Trim(Upper(t)) == Upper(t) && Upper(Upper(t)) == Upper(t)
  {
    UpperKeepsTrimmed(t);
    TrimOfTrimmed(Upper(t));
  }

  /** Lowercasing never creates or removes a colon or a slash. */
  lemma NormalizeUrlSeparators(t: string)
    ensures SeparatorsAgree(t, NormalizeUrl(t))
  {
  }

  lemma NormalizeUrlKeepsTrimmed(t: string)
    requires IsTrimmed(t)
    ensures IsTrimmed(NormalizeUrl(t))
  {
    var r := NormalizeUrl(t);
    if r != [] {
      assert r[0] == t[0] || r[0] == LowerChar(t[0]);
      assert r[|r| - 1] == t[|t| - 1] || r[|r| - 1] == LowerChar(t[|t| - 1]);
    }
  }

  /** A normalised URL of a trimmed value is trimmed, has the same path start, and is its own normal form. */
  lemma {:induction false} UrlNormalizeIdempotent(t: string)
    requires IsTrimmed(t)
    ensures Trim(NormalizeUrl(t)) == NormalizeUrl(t)
    ensures NormalizeUrl(NormalizeUrl(t)) == NormalizeUrl(t)
  {
    var r := NormalizeUrl(t);
    NormalizeUrlSeparators(t);
    UrlPathStartAgree(t, r);
    NormalizeUrlKeepsTrimmed(t);
    TrimOfTrimmed(r);
    var r2 := NormalizeUrl(r);
    assert forall i :: 0 <= i < |r| ==> r2[i] == r[i];
  }

  /** Normalising an already normalised value of the same type changes nothing. */
  lemma NormalizeIdempotent(value: string, ty: IocType)
    ensures NormalizeIoc(NormalizeIoc(value, ty), ty) == NormalizeIoc(value, ty)
  {
    var t := Trim(value);
    match ty
    case Cve => UpperNormalizeIdempotent(t);
    case Url => UrlNormalizeIdempotent(t);
    case _ => LowerNormalizeIdempotent(t);
  }
}

=== FILE: json.dfy ===
/**
 * `serde_json::Value`, used for enrichment payloads and sighting context.
 * Objects are maps, as in serde_json's default (sorted, unique keys).
 */
module Json {
  import opened Wrappers

  datatype Json =
    | Null
    | Bool(b: bool)
    | Num(n: int)
    | Str(s: string)
    | Arr(items: seq<Json>)
    | Obj(fields: map<string, Json>)

  /** `Value::get` on an object; `None` for a missing key or a non-object. */
  function Get(j: Json, key: string): (r: Option<Json>)
    ensures r.Some? <==> j.Obj? && key in j.fields
  {
    if j.Obj? && key in j.fields then Some(j.fields[key]) else None
  }

  /** `json!(option)`: `null` for `None`. */
  function OptStr(o: Option<string>): Json {
    match o
    case Some(s) => Str(s)
    case None => Null
  }

  function OptNum(o: Option<int>): Json {
    match o
    case Some(n) => Num(n)
    case None => Null
  }

  function OptBool(o: Option<bool>): Json {
    match o
    case Some(b) => Bool(b)
    case None => Null
  }

  function StrArr(xs: seq<string>): (j: Json)
    ensures j.Arr? && |j.items| == |xs|
    ensures forall i :: 0 <= i < |xs| ==> j.items[i] == Str(xs[i])
  {
    Arr(seq(|xs|, i requires 0 <= i < |xs| => Str(xs[i])))
  }
}

=== FILE: models.dfy ===
/**
 * The record shapes and enumerations shared by storage, enrichment, the API
 * and the collectors. Timestamps are whole seconds; ids are naturals handed in
 * by the caller in place of freshly generated UUIDs.
 */
module Models {
  import opened Wrappers
  import opened Json
  import Text

  type Uuid = nat
  type Timestamp = int

  const SecondsPerHour: int := 3600
  const SecondsPerDay: int := 86400

  /** The kinds of indicator of compromise. */
  datatype IocType = Ip | Domain | Url | Hash | Email | Cve

  /** `Display` for `IocType`; also its serde and database spelling. */
  function IocTypeName(t: IocType): string {
    match t
    case Ip => "ip"
    case Domain => "domain"
    case Url => "url"
    case Hash => "hash"
    case Email => "email"
    case Cve => "cve"
  }

  /** serde's reading of the lowercase spelling. */
  function ParseIocType(s: string): Option<IocType> {
    if s == "ip" then Some(Ip)
    else if s == "domain" then Some(Domain)
    else if s == "url" then Some(Url)
    else if s == "hash" then Some(Hash)
    else if s == "email" then Some(Email)
    else if s == "cve" then Some(Cve)
    else None
  }

  /**
   * The displayed name is lowercase and reads back as the same type, so no
   * two types share a name.
   */
  lemma IocTypeNameRoundTrip(t: IocType)
    ensures ParseIocType(IocTypeName(t)) == Some(t)
    ensures Text.Lower(IocTypeName(t)) == IocTypeName(t)
    ensures forall u :: IocTypeName(u) == IocTypeName(t) ==> u == t
  {
    forall u | IocTypeName(u) == IocTypeName(t)
      ensures u == t
    {
      assert ParseIocType(IocTypeName(u)) == Some(u);
    }
  }

  /** Severity levels, in the order the database enum compares them. */
  datatype Severity = Unknown | Low | Medium | High | Critical

  function SeverityRank(s: Severity): (r: nat)
    ensures r <= 4
  {
    match s
    case Unknown => 0
    case Low => 1
    case Medium => 2
    case High => 3
    case Critical => 4
  }

  /** `From<i32> for Severity`: score bands 0-20, 21-50, 51-80, 81-100. */
  function SeverityFromScore(score: int): (r: Severity)
    ensures r == Unknown <==> score < 0 || score > 100
    ensures r == Low <==> 0 <= score <= 20
    ensures r == Medium <==> 21 <= score <= 50
    ensures r == High <==> 51 <= score <= 80
    ensures r == Critical <==> 81 <= score <= 100
  {
    if 0 <= score <= 20 then Low
    else if 21 <= score <= 50 then Medium
    else if 51 <= score <= 80 then High
    else if 81 <= score <= 100 then Critical
    else Unknown
  }

  /** Within 0..100 a higher score never gives a lower severity. */
  lemma SeverityFromScoreMonotone(a: int, b: int)
    requires 0 <= a <= b <= 100
    ensures SeverityFromScore(a) != Unknown
    ensures SeverityRank(SeverityFromScore(a)) <= SeverityRank(SeverityFromScore(b))
  {
  }

  /** Traffic Light Protocol. */
  datatype Tlp = White | Green | Amber | Red

  /** One row of the `indicators` table. */
  datatype Indicator = Indicator(
    id: Uuid,
    iocType: IocType,
    value: string,
    severity: Severity,
    confidence: int,
    threatScore: int,
    tlp: Tlp,
    firstSeen: Timestamp,
    lastSeen: Timestamp,
    expiration: Option<Timestamp>,
    tags: seq<string>,
    sourceIds: seq<Uuid>,
    createdAt: Timestamp,
    updatedAt: Timestamp)

  /** One row of the `enrichments` table. */
  datatype Enrichment = Enrichment(
    id: Uuid,
    indicatorId: Uuid,
    enrichmentType: string,
    data: Json,
    provider: string,
    fetchedAt: Timestamp,
    expiresAt: Option<Timestamp>)

  /** One row of the `sightings` table. */
  datatype Sighting = Sighting(
    id: Uuid,
    indicatorId: Uuid,
    source: string,
    context: Option<Json>,
    observedAt: Timestamp,
    createdAt: Timestamp)

  /** A request to create or re-ingest an indicator; absent fields take defaults. */
  datatype CreateIndicatorRequest = CreateIndicatorRequest(
    value: string,
    iocType: Option<IocType>,
    severity: Option<Severity>,
    confidence: Option<int>,
    tlp: Option<Tlp>,
    tags: Option<seq<string>>,
    source: Option<string>,
    expirationDays: Option<int>)

  datatype BulkImportRequest = BulkImportRequest(
    indicators: seq<CreateIndicatorRequest>,
    source: string,
    tlp: Option<Tlp>,
    tags: Option<seq<string>>)

  datatype BulkImportResponse = BulkImportResponse(
    total: nat,
    created: nat,
    updated: nat,
    failed: nat,
    errors: seq<string>)

  /** The query parameters of the indicator listing. */
  datatype IndicatorFilter = IndicatorFilter(
    iocType: Option<IocType>,
    severity: Option<Severity>,
    minConfidence: Option<int>,
    minThreatScore: Option<int>,
    tags: Option<seq<string>>,
    sourceId: Option<Uuid>,
    firstSeenAfter: Option<Timestamp>,
    firstSeenBefore: Option<Timestamp>,
    search: Option<string>,
    page: Option<int>,
    perPage: Option<int>)

  datatype WhoisData = WhoisData(
    registrar: Option<string>,
    registrant: Option<string>,
    registrantOrg: Option<string>,
    registrantCountry: Option<string>,
    nameServers: seq<string>,
    status: seq<string>,
    raw: Option<string>)

  datatype DnsData = DnsData(
    aRecords: seq<string>,
    aaaaRecords: seq<string>,
    mxRecords: seq<string>,
    txtRecords: seq<string>,
    nsRecords: seq<string>,
    cnameRecords: seq<string>)

  datatype GeoIpData = GeoIpData(
    countryCode: Option<string>,
    countryName: Option<string>,
    city: Option<string>,
    region: Option<string>,
    asn: Option<int>,
    asOrg: Option<string>)
}

=== FILE: net.dfy ===
/**
 * Address literals as `std::net` parses them. IPv4 is modelled exactly
 * (`Ipv4Addr::from_str`); IPv6 text (section 2.2 of RFC 4291) is an
 * uninterpreted recogniser passed in by the caller.
 */
module Net {
  import opened Text
  import Decimal

  /** `Ipv6Addr::from_str(s).is_ok()`, supplied by the environment. */
  type Ipv6Syntax = string -> bool

  /**
   * What every IPv6 text accepted by `Ipv6Addr::from_str` satisfies: it has a
   * colon, and otherwise only hex digits and the dots of an embedded IPv4 tail.
   */
  ghost predicate Ipv6WellFormed(v6: Ipv6Syntax) {
    forall s :: v6(s) ==> ':' in s && forall i :: 0 <= i < |s| ==> IsAsciiHexDigit(s[i]) || s[i] == ':' || s[i] == '.'
  }

  /** One dotted-quad part: 1-3 digits, no leading zero, at most 255. */
  predicate IsOctet(p: string) {
    && 1 <= |p| <= 3
    && Decimal.AllDigits(p)
    && (|p| == 1 || p[0] != '0')
    && Decimal.DigitsValue(p) <= 255
  }

  /** `Ipv4Addr::from_str(s).is_ok()`: four octets separated by dots. */
  predicate IsIpv4(s: string) {
    var parts := Split(s, '.');
    |parts| == 4 && forall i :: 0 <= i < 4 ==> IsOctet(parts[i])
  }

  /** `IpAddr::from_str(s).is_ok()`: IPv4 is tried first, then IPv6. */
  predicate IsIpLiteral(s: string, v6: Ipv6Syntax) {
    IsIpv4(s) || v6(s)
  }

  /** An IPv4 literal is made of digits and dots only, and has a dot. */
  lemma Ipv4Chars(s: string)
    requires IsIpv4(s)
    ensures '.' in s
    ensures forall i :: 0 <= i < |s| ==> IsAsciiDigit(s[i]) || s[i] == '.'
    ensures |s| <= 15
  {
    var p := Split(s, '.');
    Ipv4Layout(s);
    assert s[|p[0]|] == '.';
    forall i | 0 <= i < |s|
      ensures IsAsciiDigit(s[i]) || s[i] == '.'
    {
      var a, b, c := |p[0]|, |p[0]| + 1 + |p[1]|, |p[0]| + 1 + |p[1]| + 1 + |p[2]|;
      if i < a { assert s[i] == p[0][i]; }
      else if a < i < b { assert s[i] == p[1][i - a - 1]; }
      else if b < i < c { assert s[i] == p[2][i - b - 1]; }
      else if c < i { assert s[i] == p[3][i - c - 1]; }
    }
  }

  /** An IPv4 literal is its four parts joined by dots. */
  lemma Ipv4Layout(s: string)
    requires |Split(s, '.')| == 4
    ensures var p := Split(s, '.'); s == p[0] + "." + (p[1] + "." + (p[2] + "." + p[3]))
  {
    var p := Split(s, '.');
    SplitPieces(s, '.');
    assert p[1..][1..][1..] == [p[3]];
    assert Join(p[1..][1..][1..], ".") == p[3];
    assert Join(p[1..][1..], ".") == p[2] + "." + p[3];
    assert Join(p[1..], ".") == p[1] + "." + (p[2] + "." + p[3]);
  }

  /** Gluing the pieces of a split back with the separator gives the input. */
  lemma {:induction false} SplitPieces(s: string, sep: char)
    ensures Join(Split(s, sep), [sep]) == s
    decreases |s|
  {
    match FindChar(s, sep)
    case None =>
    case Some(i) =>
      SplitPieces(s[i + 1..], sep);
      var rest := Split(s[i + 1..], sep);
      var parts := [s[..i]] + rest;
      assert parts[0] == s[..i] && parts[1..] == rest;
      assert Join(parts, [sep]) == s[..i] + [sep] + Join(rest, [sep]);
      assert s == s[..i] + [sep] + s[i + 1..];
  }

  /** A dotless value is never an IPv4 literal. */
  lemma DotlessNotIpv4(s: string)
    ensures '.' !in s ==> !IsIpv4(s)
  {
    if IsIpv4(s) {
      Ipv4Chars(s);
    }
  }

  lemma Ipv4FromParts(s: string, a: string, b: string, c: string, d: string)
    requires Split(s, '.') == [a, b, c, d]
    requires IsOctet(a) && IsOctet(b) && IsOctet(c) && IsOctet(d)
    ensures IsIpv4(s)
  {
    var parts := Split(s, '.');
    assert parts[0] == a && parts[1] == b && parts[2] == c && parts[3] == d;
  }

  lemma OctetEight()
    ensures IsOctet("8")
  {
    assert "8"[..0] == [];
    assert Decimal.DigitsValue("8") == 8;
  }

  /** A dotted quad is an address. */
  lemma Ipv4Example()
    ensures IsIpv4("8.8.8.8")
  {
    SplitEights();
    OctetEight();
    var e := "8";
    Ipv4FromParts("8.8.8.8", e, e, e, e);
  }

  lemma SplitEights()
    ensures Split("8.8.8.8", '.') == ["8", "8", "8", "8"]
  {
    var parts := ["8", "8", "8", "8"];
    assert Join(parts, ".") == "8.8.8.8";
    SplitJoin(parts, '.');
  }

  /** Five dotted numbers are not an address. */
  lemma FiveParts()
    ensures !IsIpv4("1.2.3.4.5")
  {
    var parts := ["1", "2", "3", "4", "5"];
    assert Join(parts, ".") == "1.2.3.4.5";
    SplitJoin(parts, '.');
  }
}

=== FILE: storage.dfy ===
/**
 * The indicator store (`ThreatIntelRepo`): the three tables as immutable
 * values and every SQL statement of the repository as one atomic state
 * transition. The clock (`now`) and freshly generated ids are parameters.
 */
module Storage {
  import opened Wrappers
  import opened Text
  import opened Net
  import opened Json
  import opened Models
  import opened IocUtils
  import Collections

  /** The unique key of the `indicators` table: type and normalised value. */
  type Key = (IocType, string)

  /** The unique key of the `enrichments` table: indicator, enrichment type, provider. */
  type EnrichmentKey = (Uuid, string, string)

  datatype Store = Store(
    indicators: map<Key, Indicator>,
    enrichments: map<EnrichmentKey, Enrichment>,
    sightings: seq<Sighting>)

  const Empty := Store(map[], map[], [])

  datatype StoreError =
    | UndetectableType(value: string)
    | ForeignKeyViolation(indicatorId: Uuid, context: string)
    | InvalidQuery(context: string)

  /** The text an error displays as. */
  function ErrorMessage(e: StoreError): (m: string)
    ensures e.UndetectableType? ==> m == "Could not detect IOC type for: " + e.value
    ensures !e.UndetectableType? ==> m == e.context
  {
    match e
    case UndetectableType(v) => "Could not detect IOC type for: " + v
    case ForeignKeyViolation(_, c) => c
    case InvalidQuery(c) => c
  }

  function KeyOf(ind: Indicator): Key {
    (ind.iocType, ind.value)
  }

  function EnrichmentKeyOf(e: Enrichment): EnrichmentKey {
    (e.indicatorId, e.enrichmentType, e.provider)
  }

  /** The ids of the stored indicators. */
  function Ids(st: Store): set<Uuid> {
    set k | k in st.indicators :: st.indicators[k].id
  }

  predicate HasId(st: Store, id: Uuid) {
    exists k :: k in st.indicators && st.indicators[k].id == id
  }

  /** Every row sits under its own (type, value), so `(ioc_type, value)` is unique. */
  predicate KeysMatch(st: Store) {
    forall k :: k in st.indicators ==> KeyOf(st.indicators[k]) == k
  }

  /** The primary key `id` is unique. */
  predicate UniqueIds(st: Store) {
    forall k1, k2 :: k1 in st.indicators && k2 in st.indicators && st.indicators[k1].id == st.indicators[k2].id ==> k1 == k2
  }

  predicate EnrichmentKeysMatch(st: Store) {
    forall k :: k in st.enrichments ==> EnrichmentKeyOf(st.enrichments[k]) == k
  }

  /** Enrichments and sightings belong to a stored indicator. */
  predicate NoOrphans(st: Store) {
    && (forall k :: k in st.enrichments ==> HasId(st, k.0))
    && (forall i :: 0 <= i < |st.sightings| ==> HasId(st, st.sightings[i].indicatorId))
  }

  /** The table constraints. */
  predicate Valid(st: Store) {
    KeysMatch(st) && UniqueIds(st) && EnrichmentKeysMatch(st) && NoOrphans(st)
  }

  /** `first_seen <= last_seen` for every row. */
  predicate SeenOrdered(st: Store) {
    forall k :: k in st.indicators ==> st.indicators[k].firstSeen <= st.indicators[k].lastSeen
  }

  /** No stored row was first seen after `now`: the clock does not run backwards. */
  predicate NotAfter(st: Store, now: Timestamp) {
    forall k :: k in st.indicators ==> st.indicators[k].firstSeen <= now
  }

  lemma EmptyValid()
    ensures Valid(Empty) && SeenOrdered(Empty)
  {
  }

  // ---------------------------------------------------------------- get_indicator

  /** `get_indicator`: the row with the given id, if any. */
  function GetIndicator(st: Store, id: Uuid): (r: Option<Indicator>)
    requires UniqueIds(st)
    ensures r.Some? <==> HasId(st, id)
    ensures r.Some? ==> exists k :: k in st.indicators && st.indicators[k] == r.value && r.value.id == id
  {
    if HasId(st, id) then
      var k :| k in st.indicators && st.indicators[k].id == id;
      Some(st.indicators[k])
    else None
  }

  // ---------------------------------------------------------------- upsert_indicator

  /** The type a request is filed under: the supplied one, else the detected one. */
  function ResolveType(req: CreateIndicatorRequest, v6: Ipv6Syntax): (r: Option<IocType>)
    ensures req.iocType.Some? ==> r == req.iocType
    ensures req.iocType.None? ==> r == DetectIocType(req.value, v6)
  {
    if req.iocType.Some? then req.iocType else DetectIocType(req.value, v6)
  }

  /** `now + Duration::days(days)`, in seconds. */
  function ExpirationAfter(now: Timestamp, days: Option<int>): (r: Option<Timestamp>)
    ensures r.Some? <==> days.Some?
    ensures r.Some? ==> r.value - now == days.value * SecondsPerDay
  {
    match days
    case None => None
    case Some(d) => Some(now + d * SecondsPerDay)
  }

  /** The single-element id array bound for a known source, else an empty one. */
  function SourceIdArray(sourceId: Option<Uuid>): (r: seq<Uuid>)
    ensures sourceId.None? ==> r == []
    ensures sourceId.Some? ==> r == [sourceId.value]
  {
    match sourceId
    case None => []
    case Some(id) => [id]
  }

  /** The row of the `VALUES` clause: what a fresh insert stores. */
  function NewRow(req: CreateIndicatorRequest, key: Key, sourceId: Option<Uuid>, now: Timestamp, freshId: Uuid): Indicator {
    var confidence := req.confidence.GetOr(50);
    Indicator(
      freshId, key.0, key.1,
      req.severity.GetOr(Unknown), confidence, confidence, req.tlp.GetOr(Amber),
      now, now, ExpirationAfter(now, req.expirationDays),
      req.tags.GetOr([]), SourceIdArray(sourceId), now, now)
  }

  /** `CASE WHEN EXCLUDED.severity > indicators.severity ...`, in declaration order. */
  function HigherSeverity(stored: Severity, incoming: Severity): (r: Severity)
    ensures SeverityRank(r) >= SeverityRank(stored) && SeverityRank(r) >= SeverityRank(incoming)
    ensures r == stored || r == incoming
  {
    if SeverityRank(incoming) > SeverityRank(stored) then incoming else stored
  }

  function Max(a: int, b: int): (m: int)
    ensures m >= a && m >= b && (m == a || m == b)
  {
    if a >= b then a else b
  }

  /** The `DO UPDATE SET` arm: merges the excluded row into the stored one. */
  function MergeRow(stored: Indicator, excluded: Indicator): Indicator {
    stored.(
      severity := HigherSeverity(stored.severity, excluded.severity),
      confidence := Max(stored.confidence, excluded.confidence),
      lastSeen := excluded.lastSeen,
      tags := stored.tags + excluded.tags,
      sourceIds := stored.sourceIds + excluded.sourceIds,
      updatedAt := excluded.updatedAt)
  }

  /**
   * `upsert_indicator`: resolves the type, normalises the value, and inserts
   * a row under (type, normalised value) or merges into the one already there.
   */
  function UpsertIndicator(st: Store, req: CreateIndicatorRequest, sourceId: Option<Uuid>,
                           now: Timestamp, freshId: Uuid, v6: Ipv6Syntax): (r: Result<(Store, Indicator), StoreError>)
    ensures r.Err? <==> ResolveType(req, v6).None?
    ensures r.Err? ==> r.error == UndetectableType(req.value)
    ensures r.Ok? ==>
      var t := ResolveType(req, v6).value;
      var key := (t, NormalizeIoc(req.value, t));
      && r.value.0.indicators == st.indicators[key := r.value.1]
      && r.value.0.enrichments == st.enrichments
      && r.value.0.sightings == st.sightings
  {
    match ResolveType(req, v6)
    case None => Err(UndetectableType(req.value))
    case Some(t) =>
      var key := (t, NormalizeIoc(req.value, t));
      var excluded := NewRow(req, key, sourceId, now, freshId);
      var row := if key in st.indicators then MergeRow(st.indicators[key], excluded) else excluded;
      Ok((st.(indicators := st.indicators[key := row]), row))
  }

  /** The key an upsert files a request under, when it files it at all. */
  function UpsertKey(req: CreateIndicatorRequest, v6: Ipv6Syntax): Option<Key> {
    match ResolveType(req, v6)
    case None => None
    case Some(t) => Some((t, NormalizeIoc(req.value, t)))
  }

  /** A request for a new key is stored with the documented defaults. */
  lemma UpsertFresh(st: Store, req: CreateIndicatorRequest, sourceId: Option<Uuid>, now: Timestamp, freshId: Uuid, v6: Ipv6Syntax)
    requires UpsertKey(req, v6).Some? && UpsertKey(req, v6).value !in st.indicators
    ensures UpsertIndicator(st, req, sourceId, now, freshId, v6).Ok?
    ensures var ind := UpsertIndicator(st, req, sourceId, now, freshId, v6).value.1;
      && ind.id == freshId
      && KeyOf(ind) == UpsertKey(req, v6).value
      && ind.firstSeen == now && ind.lastSeen == now && ind.createdAt == now && ind.updatedAt == now
      && (req.severity.None? ==> ind.severity == Unknown) && (req.severity.Some? ==> ind.severity == req.severity.value)
      && (req.confidence.None? ==> ind.confidence == 50 && ind.threatScore == 50)
      && (req.confidence.Some? ==> ind.confidence == req.confidence.value && ind.threatScore == req.confidence.value)
      && (req.tlp.None? ==> ind.tlp == Amber) && (req.tlp.Some? ==> ind.tlp == req.tlp.value)
      && (req.tags.None? ==> ind.tags == []) && (req.tags.Some? ==> ind.tags == req.tags.value)
      && ind.sourceIds == SourceIdArray(sourceId)
      && (req.expirationDays.None? <==> ind.expiration.None?)
      && (req.expirationDays.Some? ==> ind.expiration == Some(now + req.expirationDays.value * SecondsPerDay))
  {
  }

  /**
   * A request for a key that is already stored updates that row: severity and
   * confidence only rise, last_seen moves to now, tags and source ids are
   * appended, and identity, first_seen, threat score, TLP and expiration stay.
   */
  lemma UpsertMerge(st: Store, req: CreateIndicatorRequest, sourceId: Option<Uuid>, now: Timestamp, freshId: Uuid, v6: Ipv6Syntax)
    requires UpsertKey(req, v6).Some? && UpsertKey(req, v6).value in st.indicators
    ensures UpsertIndicator(st, req, sourceId, now, freshId, v6).Ok?
    ensures var prev := st.indicators[UpsertKey(req, v6).value];
      var r := UpsertIndicator(st, req, sourceId, now, freshId, v6).value;
      var ind := r.1;
      && r.0.indicators.Keys == st.indicators.Keys
      && SeverityRank(ind.severity) >= SeverityRank(prev.severity)
      && (req.severity.None? ==> ind.severity == prev.severity)
      && (req.severity.Some? ==> SeverityRank(ind.severity) >= SeverityRank(req.severity.value))
      && ind.confidence >= prev.confidence && ind.confidence >= req.confidence.GetOr(50)
      && (ind.confidence == prev.confidence || ind.confidence == req.confidence.GetOr(50))
      && ind.lastSeen == now && ind.updatedAt == now
      && ind.tags == prev.tags + req.tags.GetOr([])
      && ind.sourceIds == prev.sourceIds + SourceIdArray(sourceId)
      && ind.id == prev.id && ind.iocType == prev.iocType && ind.value == prev.value
      && ind.firstSeen == prev.firstSeen && ind.createdAt == prev.createdAt
      && ind.threatScore == prev.threatScore && ind.tlp == prev.tlp && ind.expiration == prev.expiration
  {
  }

  /** Filing the same request twice leaves one row, not two. */
  lemma UpsertTwiceOneRow(st: Store, req: CreateIndicatorRequest, sourceId: Option<Uuid>, now1: Timestamp, now2: Timestamp,
                          id1: Uuid, id2: Uuid, v6: Ipv6Syntax)
    requires UpsertIndicator(st, req, sourceId, now1, id1, v6).Ok?
    ensures var st1 := UpsertIndicator(st, req, sourceId, now1, id1, v6).value.0;
      var r2 := UpsertIndicator(st1, req, sourceId, now2, id2, v6);
      && r2.Ok?
      && r2.value.0.indicators.Keys == st1.indicators.Keys
      && |st1.indicators| <= |st.indicators| + 1
      && r2.value.1.id == UpsertIndicator(st, req, sourceId, now1, id1, v6).value.1.id
  {
    var key := UpsertKey(req, v6).value;
    var st1 := UpsertIndicator(st, req, sourceId, now1, id1, v6).value.0;
    assert st1.indicators.Keys == st.indicators.Keys + {key};
  }

  /** An undetectable value without a type is rejected. */
  lemma UpsertUndetectable(st: Store, req: CreateIndicatorRequest, sourceId: Option<Uuid>, now: Timestamp, freshId: Uuid, v6: Ipv6Syntax)
    requires req.iocType.None? && DetectIocType(req.value, v6).None?
    ensures UpsertIndicator(st, req, sourceId, now, freshId, v6) == Err(UndetectableType(req.value))
    ensures ErrorMessage(UpsertIndicator(st, req, sourceId, now, freshId, v6).error) == "Could not detect IOC type for: " + req.value
  {
  }

  /** A blank value has no type to detect, so without an explicit type it is rejected. */
  lemma UpsertBlankRejected(st: Store, req: CreateIndicatorRequest, sourceId: Option<Uuid>, now: Timestamp, freshId: Uuid, v6: Ipv6Syntax)
    requires req.iocType.None? && Trim(req.value) == []
    ensures UpsertIndicator(st, req, sourceId, now, freshId, v6) == Err(UndetectableType(req.value))
  {
    UpsertUndetectable(st, req, sourceId, now, freshId, v6);
  }

  /** With an unused fresh id, an upsert keeps the table constraints. */
  lemma {:induction false} UpsertPreservesValid(st: Store, req: CreateIndicatorRequest, sourceId: Option<Uuid>, now: Timestamp, freshId: Uuid, v6: Ipv6Syntax)
    requires Valid(st)
    requires !HasId(st, freshId)
    requires UpsertIndicator(st, req, sourceId, now, freshId, v6).Ok?
    ensures Valid(UpsertIndicator(st, req, sourceId, now, freshId, v6).value.0)
  {
    var key := UpsertKey(req, v6).value;
    var row := UpsertIndicator(st, req, sourceId, now, freshId, v6).value.1;
    if key in st.indicators {
      assert row.id == st.indicators[key].id;
    } else {
      assert row.id == freshId;
    }
    PutRowValid(st, key, row);
  }

  /**
   * Writing a row under its own key keeps the table constraints when it
   * keeps the id of the row it replaces, or brings an unused id.
   */
  lemma PutRowValid(st: Store, key: Key, row: Indicator)
    requires Valid(st)
    requires KeyOf(row) == key
    requires key in st.indicators ==> row.id == st.indicators[key].id
    requires key !in st.indicators ==> !HasId(st, row.id)
    ensures Valid(st.(indicators := st.indicators[key := row]))
  {
    var st1 := st.(indicators := st.indicators[key := row]);
    PutKeepsIds(st, key, row);
    assert KeysMatch(st1);
    assert UniqueIds(st1);
  }

  /** Every id stays present when the row it replaces keeps its id. */
  lemma PutKeepsIds(st: Store, key: Key, row: Indicator)
    requires key in st.indicators ==> row.id == st.indicators[key].id
    ensures forall id :: HasId(st, id) ==> HasId(st.(indicators := st.indicators[key := row]), id)
  {
    var st1 := st.(indicators := st.indicators[key := row]);
    forall id | HasId(st, id)
      ensures HasId(st1, id)
    {
      var k :| k in st.indicators && st.indicators[k].id == id;
      assert st1.indicators[k].id == id;
    }
  }

  /** With a clock that never runs backwards, an upsert keeps first_seen <= last_seen. */
  lemma UpsertKeepsSeenOrder(st: Store, req: CreateIndicatorRequest, sourceId: Option<Uuid>, now: Timestamp, freshId: Uuid, v6: Ipv6Syntax)
    requires SeenOrdered(st) && NotAfter(st, now)
    requires UpsertIndicator(st, req, sourceId, now, freshId, v6).Ok?
    ensures SeenOrdered(UpsertIndicator(st, req, sourceId, now, freshId, v6).value.0)
    ensures NotAfter(UpsertIndicator(st, req, sourceId, now, freshId, v6).value.0, now)
  {
  }

  // ---------------------------------------------------------------- get_indicator_by_value

  /** The declaration order of `IocType`, in which the raw fallback reports a match. */
  const TypeOrder: seq<IocType> := [Ip, Domain, Url, Hash, Email, Cve]

  lemma TypeOrderComplete(t: IocType)
    ensures t in TypeOrder
  {
  }

  function FirstRawMatch(st: Store, value: string, types: seq<IocType>): (r: Option<Indicator>)
    ensures r.Some? <==> exists i :: 0 <= i < |types| && (types[i], value) in st.indicators
    ensures r.Some? ==> exists i :: 0 <= i < |types| && (types[i], value) in st.indicators && r.value == st.indicators[(types[i], value)]
  {
    if types == [] then None
    else if (types[0], value) in st.indicators then Some(st.indicators[(types[0], value)])
    else
      var r := FirstRawMatch(st, value, types[1..]);
      assert forall i :: 0 <= i < |types| - 1 ==> types[1..][i] == types[i + 1];
      r
  }

  /**
   * `get_indicator_by_value`: a detectable value is looked up under its
   * detected type and normalised spelling; any other value is matched
   * verbatim against every type. The database returns one of several
   * verbatim matches; the model reports the first in type order.
   */
  function GetIndicatorByValue(st: Store, value: string, v6: Ipv6Syntax): (r: Option<Indicator>)
    ensures DetectIocType(value, v6).Some? ==>
      var t := DetectIocType(value, v6).value;
      var key := (t, NormalizeIoc(value, t));
      (r.Some? <==> key in st.indicators) && (r.Some? ==> r.value == st.indicators[key])
    ensures DetectIocType(value, v6).None? ==>
      (r.Some? <==> exists k :: k in st.indicators && k.1 == value)
      && (r.Some? ==> exists k :: k in st.indicators && k.1 == value && st.indicators[k] == r.value)
  {
    match DetectIocType(value, v6)
    case Some(t) =>
      var key := (t, NormalizeIoc(value, t));
      if key in st.indicators then Some(st.indicators[key]) else None
    case None =>
      var r := FirstRawMatch(st, value, TypeOrder);
      assert (exists k :: k in st.indicators && k.1 == value) ==> r.Some? by {
        if exists k :: k in st.indicators && k.1 == value {
          var k :| k in st.indicators && k.1 == value;
          TypeOrderComplete(k.0);
          var i :| 0 <= i < |TypeOrder| && TypeOrder[i] == k.0;
          assert (TypeOrder[i], value) == k;
        }
      }
      r
  }

  /** An indicator filed under its detected type is found again by its raw value. */
  lemma LookupFindsUpserted(st: Store, req: CreateIndicatorRequest, sourceId: Option<Uuid>, now: Timestamp, freshId: Uuid, v6: Ipv6Syntax)
    requires req.iocType.None?
    requires UpsertIndicator(st, req, sourceId, now, freshId, v6).Ok?
    ensures var r := UpsertIndicator(st, req, sourceId, now, freshId, v6).value;
      GetIndicatorByValue(r.0, req.value, v6) == Some(r.1)
  {
  }

  /**
   * A row filed under a type other than the detected one is invisible to a
   * lookup by value: "8.8.8.8" stored as a domain is not found.
   */
  lemma LookupMissesMistypedRow(v6: Ipv6Syntax, now: Timestamp, freshId: Uuid)
    ensures var req := CreateIndicatorRequest("8.8.8.8", Some(Domain), None, None, None, None, None, None);
      var r := UpsertIndicator(Empty, req, None, now, freshId, v6);
      && r.Ok? && KeyOf(r.value.1) == (Domain, "8.8.8.8")
      && GetIndicatorByValue(r.value.0, "8.8.8.8", v6).None?
  {
    DottedQuadFacts(v6);
    var req := CreateIndicatorRequest("8.8.8.8", Some(Domain), None, None, None, None, None, None);
    var st1 := UpsertIndicator(Empty, req, None, now, freshId, v6).value.0;
    assert st1.indicators.Keys == {(Domain, "8.8.8.8")};
  }

  lemma DottedQuadFacts(v6: Ipv6Syntax)
    ensures DetectIocType("8.8.8.8", v6) == Some(Ip)
    ensures NormalizeIoc("8.8.8.8", Domain) == "8.8.8.8"
    ensures NormalizeIoc("8.8.8.8", Ip) == "8.8.8.8"
  {
    DottedQuadTrimmed();
    ClassifyIpExample(v6);
    DottedQuadLower();
  }

  lemma DottedQuadTrimmed()
    ensures Trim("8.8.8.8") == "8.8.8.8"
  {
    TrimOfTrimmed("8.8.8.8");
  }

  lemma DottedQuadLower()
    ensures Lower("8.8.8.8") == "8.8.8.8"
  {
    var v := "8.8.8.8";
    assert forall i :: 0 <= i < |v| ==> v[i] == '8' || v[i] == '.';
  }

  // ---------------------------------------------------------------- search_indicators

  datatype IndicatorPage = IndicatorPage(data: seq<Indicator>, total: nat, page: int, perPage: int)

  /** `page.unwrap_or(1).max(1)`. */
  function PageNumber(f: IndicatorFilter): (p: int)
    ensures p >= 1
    ensures f.page.None? ==> p == 1
    ensures f.page.Some? && f.page.value >= 1 ==> p == f.page.value
    ensures f.page.Some? && f.page.value < 1 ==> p == 1
  {
    var p := f.page.GetOr(1);
    if p >= 1 then p else 1
  }

  /** `per_page.unwrap_or(50).min(1000)`: capped above, not below. */
  function PerPage(f: IndicatorFilter): (n: int)
    ensures n <= 1000
    ensures f.perPage.None? ==> n == 50
    ensures f.perPage.Some? && f.perPage.value <= 1000 ==> n == f.perPage.value
    ensures f.perPage.Some? && f.perPage.value > 1000 ==> n == 1000
  {
    var n := f.perPage.GetOr(50);
    if n <= 1000 then n else 1000
  }

  function Offset(f: IndicatorFilter): int {
    (PageNumber(f) - 1) * PerPage(f)
  }

  /** Filters whose placeholders `$1`..`$5` reach the query text without a bound value. */
  predicate HasUnboundFilter(f: IndicatorFilter) {
    f.iocType.Some? || f.severity.Some? || f.minConfidence.Some? || f.minThreatScore.Some? || f.search.Some?
  }

  predicate SortedByLastSeen(s: seq<Indicator>) {
    forall i, j :: 0 <= i < j < |s| ==> s[i].lastSeen >= s[j].lastSeen
  }

  /** Puts `x` after every row seen no earlier than it. */
  function InsertByLastSeen(x: Indicator, s: seq<Indicator>): (r: seq<Indicator>)
    requires SortedByLastSeen(s)
    ensures |r| == |s| + 1
    ensures SortedByLastSeen(r)
    ensures forall i :: 0 <= i < |r| ==> r[i].lastSeen <= x.lastSeen || (s != [] && r[i].lastSeen <= s[0].lastSeen)
  {
    if s == [] || s[0].lastSeen < x.lastSeen then
      [x] + s
    else
      var rest := InsertByLastSeen(x, s[1..]);
      var r := [s[0]] + rest;
      assert forall i :: 0 < i < |r| ==> r[i] == rest[i - 1];
      r
  }

  lemma {:induction false} InsertPermutes(x: Indicator, s: seq<Indicator>)
    requires SortedByLastSeen(s)
    ensures multiset(InsertByLastSeen(x, s)) == multiset(s) + multiset{x}
    decreases |s|
  {
    if s == [] || s[0].lastSeen < x.lastSeen {
    } else {
      InsertPermutes(x, s[1..]);
      assert s == [s[0]] + s[1..];
    }
  }

  /** `ORDER BY last_seen DESC`, stable with respect to the scan order. */
  function SortByLastSeen(s: seq<Indicator>): (r: seq<Indicator>)
    ensures SortedByLastSeen(r)
    ensures |r| == |s|
  {
    if s == [] then [] else InsertByLastSeen(s[0], SortByLastSeen(s[1..]))
  }

  /** The ordering is a permutation of the scanned rows. */
  lemma {:induction false} SortPermutes(s: seq<Indicator>)
    ensures multiset(SortByLastSeen(s)) == multiset(s)
    decreases |s|
  {
    if s != [] {
      SortPermutes(s[1..]);
      InsertPermutes(s[0], SortByLastSeen(s[1..]));
      assert s == [s[0]] + s[1..];
    }
  }

  /** `LIMIT n OFFSET o` over an ordered result. */
  function Window(s: seq<Indicator>, offset: int, limit: nat): (w: seq<Indicator>)
    requires offset >= 0
    ensures |w| == if offset >= |s| then 0 else if limit < |s| - offset then limit else |s| - offset
    ensures forall i :: 0 <= i < |w| ==> w[i] == s[offset + i]
  {
    if offset >= |s| then []
    else if limit < |s| - offset then s[offset..offset + limit]
    else s[offset..]
  }

  lemma WindowSorted(s: seq<Indicator>, offset: int, limit: nat)
    requires offset >= 0 && SortedByLastSeen(s)
    ensures SortedByLastSeen(Window(s, offset, limit))
  {
    var w := Window(s, offset, limit);
    forall i, j | 0 <= i < j < |w|
      ensures w[i].lastSeen >= w[j].lastSeen
    {
      assert w[i] == s[offset + i] && w[j] == s[offset + j];
    }
  }

  lemma WindowPart(s: seq<Indicator>, offset: int, limit: nat)
    requires offset >= 0
    ensures multiset(Window(s, offset, limit)) <= multiset(s)
  {
    if offset < |s| {
      var e := if limit < |s| - offset then offset + limit else |s|;
      assert s == s[..offset] + s[offset..e] + s[e..];
      assert Window(s, offset, limit) == s[offset..e];
    }
  }

  /** The table as the database scans it: every stored row once, in some order. */
  predicate IsTableScan(st: Store, rows: seq<Indicator>) {
    multiset(rows) == multiset(st.indicators.Values)
  }

  /**
   * `search_indicators`: only the page clamp and the ordering take effect.
   * A set type, severity, confidence, score or search filter leaves an
   * unbound placeholder in the query and fails it; a negative per_page makes
   * the LIMIT invalid. `rows` is the table in scan order, which fixes how
   * rows with equal last_seen are ordered.
   */
  function SearchIndicators(st: Store, f: IndicatorFilter, rows: seq<Indicator>): (r: Result<IndicatorPage, StoreError>)
    requires IsTableScan(st, rows)
    ensures r.Err? <==> HasUnboundFilter(f) || PerPage(f) < 0
    ensures r.Ok? ==>
      && r.value.page == PageNumber(f) && r.value.perPage == PerPage(f)
      && r.value.page >= 1 && 0 <= r.value.perPage <= 1000
      && r.value.total == |rows|
      && |r.value.data| == (if Offset(f) >= |rows| then 0 else if PerPage(f) < |rows| - Offset(f) then PerPage(f) else |rows| - Offset(f))
      && SortedByLastSeen(r.value.data)
  {
    if HasUnboundFilter(f) then Err(InvalidQuery("Failed to search indicators"))
    else if PerPage(f) < 0 then Err(InvalidQuery("Failed to search indicators"))
    else
      var ordered := SortByLastSeen(rows);
      WindowSorted(ordered, Offset(f), PerPage(f));
      Ok(IndicatorPage(Window(ordered, Offset(f), PerPage(f)), |rows|, PageNumber(f), PerPage(f)))
  }

  /** What a successful search returns: a window of the ordered table. */
  lemma SearchWindow(st: Store, f: IndicatorFilter, rows: seq<Indicator>)
    requires IsTableScan(st, rows)
    requires SearchIndicators(st, f, rows).Ok?
    ensures Offset(f) >= 0 && PerPage(f) >= 0
    ensures SearchIndicators(st, f, rows).value.data == Window(SortByLastSeen(rows), Offset(f), PerPage(f))
  {
    assert !HasUnboundFilter(f) && PerPage(f) >= 0;
    assert PageNumber(f) - 1 >= 0;
  }

  /** A page only holds stored rows, each at most as often as it is stored. */
  lemma SearchReturnsStoredRows(st: Store, f: IndicatorFilter, rows: seq<Indicator>)
    requires IsTableScan(st, rows)
    requires SearchIndicators(st, f, rows).Ok?
    ensures multiset(SearchIndicators(st, f, rows).value.data) <= multiset(st.indicators.Values)
  {
    SearchWindow(st, f, rows);
    SortPermutes(rows);
    WindowPart(SortByLastSeen(rows), Offset(f), PerPage(f));
  }

  lemma MulAtLeast(d: int, n: int)
    requires d >= 1 && n >= 0
    ensures d * n >= n
  {
  }

  /** Of two windows over a sorted sequence, the earlier one holds no row seen later. */
  lemma WindowsInOrder(s: seq<Indicator>, o1: int, o2: int, n: nat)
    requires SortedByLastSeen(s) && 0 <= o1 && o1 + n <= o2
    ensures forall x, y :: x in Window(s, o1, n) && y in Window(s, o2, n) ==> x.lastSeen >= y.lastSeen
  {
    var d1, d2 := Window(s, o1, n), Window(s, o2, n);
    forall x, y | x in d1 && y in d2
      ensures x.lastSeen >= y.lastSeen
    {
      var i :| 0 <= i < |d1| && d1[i] == x;
      var j :| 0 <= j < |d2| && d2[j] == y;
      assert x == s[o1 + i] && y == s[o2 + j];
    }
  }

  lemma OffsetsApart(p1: int, p2: int, n: int)
    requires 1 <= p1 < p2 && n >= 0
    ensures (p1 - 1) * n + n <= (p2 - 1) * n
  {
    assert (p2 - 1) * n == (p1 - 1) * n + (p2 - p1) * n;
    MulAtLeast(p2 - p1, n);
  }

  /** Every row on a page is seen no earlier than any row on a later page. */
  lemma PagesInOrder(st: Store, rows: seq<Indicator>, f1: IndicatorFilter, f2: IndicatorFilter)
    requires IsTableScan(st, rows)
    requires f1.perPage == f2.perPage && PageNumber(f1) < PageNumber(f2)
    requires SearchIndicators(st, f1, rows).Ok? && SearchIndicators(st, f2, rows).Ok?
    ensures forall x, y :: x in SearchIndicators(st, f1, rows).value.data && y in SearchIndicators(st, f2, rows).value.data
              ==> x.lastSeen >= y.lastSeen
  {
    SearchWindow(st, f1, rows);
    SearchWindow(st, f2, rows);
    OffsetsApart(PageNumber(f1), PageNumber(f2), PerPage(f1));
    WindowsInOrder(SortByLastSeen(rows), Offset(f1), Offset(f2), PerPage(f1));
  }

  /** A first page at least as large as the table returns every row. */
  lemma FirstPageHoldsAll(st: Store, rows: seq<Indicator>, f: IndicatorFilter)
    requires IsTableScan(st, rows)
    requires !HasUnboundFilter(f) && PageNumber(f) == 1 && PerPage(f) >= |rows|
    ensures SearchIndicators(st, f, rows).Ok?
    ensures multiset(SearchIndicators(st, f, rows).value.data) == multiset(st.indicators.Values)
  {
    SearchWindow(st, f, rows);
    SortPermutes(rows);
    var ordered := SortByLastSeen(rows);
    assert Offset(f) == 0;
    assert Window(ordered, 0, PerPage(f)) == ordered;
  }

  // ---------------------------------------------------------------- update_threat_score

  function Rescore(ind: Indicator, score: int, now: Timestamp): Indicator {
    ind.(threatScore := score, severity := SeverityFromScore(score), updatedAt := now)
  }

  /**
   * `update_threat_score`: the row with that id takes the score, the severity
   * band of the score and the update time; a missing id changes nothing.
   */
  function UpdateThreatScore(st: Store, id: Uuid, score: int, now: Timestamp): (r: Store)
    ensures r.indicators.Keys == st.indicators.Keys
    ensures r.enrichments == st.enrichments && r.sightings == st.sightings
    ensures forall k :: k in st.indicators && st.indicators[k].id != id ==> r.indicators[k] == st.indicators[k]
    ensures forall k :: k in st.indicators && st.indicators[k].id == id ==>
      var ind := r.indicators[k];
      && ind.threatScore == score && ind.severity == SeverityFromScore(score) && ind.updatedAt == now
      && ind == st.indicators[k].(threatScore := ind.threatScore, severity := ind.severity, updatedAt := ind.updatedAt)
  {
    var m := map k | k in st.indicators :: if st.indicators[k].id == id then Rescore(st.indicators[k], score, now) else st.indicators[k];
    st.(indicators := m)
  }

  lemma UpdateThreatScorePreservesValid(st: Store, id: Uuid, score: int, now: Timestamp)
    requires Valid(st) && SeenOrdered(st)
    ensures Valid(UpdateThreatScore(st, id, score, now)) && SeenOrdered(UpdateThreatScore(st, id, score, now))
  {
    var st1 := UpdateThreatScore(st, id, score, now);
    forall j | HasId(st, j)
      ensures HasId(st1, j)
    {
      var k :| k in st.indicators && st.indicators[k].id == j;
      assert st1.indicators[k].id == j;
    }
  }

  /**
   * Unlike an upsert, a rescore may lower the severity: a critical row
   * rescored to 10 becomes low.
   */
  lemma RescoreCanLowerSeverity(st: Store, k: Key, now: Timestamp)
    requires k in st.indicators && st.indicators[k].severity == Critical
    ensures UpdateThreatScore(st, st.indicators[k].id, 10, now).indicators[k].severity == Low
  {
  }

  // ---------------------------------------------------------------- delete_expired

  predicate Expired(ind: Indicator, now: Timestamp) {
    ind.expiration.Some? && ind.expiration.value < now
  }

  function ExpiredKeys(st: Store, now: Timestamp): set<Key> {
    set k | k in st.indicators && Expired(st.indicators[k], now)
  }

  /** The rows `delete_expired` leaves; the others are the expired keys. */
  function Unexpired(st: Store, now: Timestamp): (keep: map<Key, Indicator>)
    ensures forall k :: k in st.indicators ==> (k in keep <==> !Expired(st.indicators[k], now))
    ensures forall k :: k in keep ==> k in st.indicators && keep[k] == st.indicators[k]
    ensures |keep| + |ExpiredKeys(st, now)| == |st.indicators|
  {
    var keep := map k | k in st.indicators && !Expired(st.indicators[k], now) :: st.indicators[k];
    var gone := ExpiredKeys(st, now);
    assert st.indicators.Keys == keep.Keys + gone && keep.Keys * gone == {};
    keep
  }

  /**
   * `delete_expired`: removes every row whose expiration is set and past,
   * with the enrichments and sightings that reference it, and reports how
   * many indicator rows went.
   */
  function DeleteExpired(st: Store, now: Timestamp): (r: (Store, nat))
    ensures r.0.indicators.Keys <= st.indicators.Keys
    ensures forall k :: k in st.indicators ==> (k in r.0.indicators <==> !Expired(st.indicators[k], now))
    ensures forall k :: k in r.0.indicators ==> r.0.indicators[k] == st.indicators[k]
    ensures r.1 == |st.indicators| - |r.0.indicators|
    ensures forall k :: k in r.0.enrichments <==> k in st.enrichments && HasId(r.0, k.0)
    ensures forall k :: k in r.0.enrichments ==> r.0.enrichments[k] == st.enrichments[k]
    ensures r.0.sightings == Survivors(st.sightings, r.0)
  {
    var keep := Unexpired(st, now);
    var gone := ExpiredKeys(st, now);
    var kept := Store(keep, map[], []);
    var enrichments := map k | k in st.enrichments && HasId(kept, k.0) :: st.enrichments[k];
    var sightings := Survivors(st.sightings, kept);
    SurvivorsByIndicators(st.sightings, kept, Store(keep, enrichments, sightings));
    (Store(keep, enrichments, sightings), |gone|)
  }

  /** Which sightings survive depends only on the indicator table. */
  lemma {:induction false} SurvivorsByIndicators(s: seq<Sighting>, a: Store, b: Store)
    requires a.indicators == b.indicators
    ensures Survivors(s, a) == Survivors(s, b)
  {
    if s != [] {
      SurvivorsByIndicators(s[1..], a, b);
    }
  }

  /** The sightings whose indicator is still stored, in order. */
  function Survivors(s: seq<Sighting>, kept: Store): (r: seq<Sighting>)
    ensures forall i :: 0 <= i < |r| ==> HasId(kept, r[i].indicatorId) && r[i] in s
    ensures forall i :: 0 <= i < |s| && HasId(kept, s[i].indicatorId) ==> s[i] in r
  {
    if s == [] then []
    else if HasId(kept, s[0].indicatorId) then [s[0]] + Survivors(s[1..], kept)
    else Survivors(s[1..], kept)
  }

  /**
   * Survivors drops or keeps whole groups: a surviving sighting keeps its
   * multiplicity, duplicates included, and every other sighting is gone.
   * So each indicator's sighting count is kept or becomes 0.
   */
  lemma SurvivorsKeepCounts(s: seq<Sighting>, kept: Store)
    ensures forall x :: multiset(Survivors(s, kept))[x] == if HasId(kept, x.indicatorId) then multiset(s)[x] else 0
    ensures forall id :: CountFor(Survivors(s, kept), id) == if HasId(kept, id) then CountFor(s, id) else 0
  {
    forall x {
      SurvivorsMultiplicity(s, kept, x);
    }
    forall id {
      SurvivorsCountFor(s, kept, id);
    }
  }

  lemma {:induction false} SurvivorsMultiplicity(s: seq<Sighting>, kept: Store, x: Sighting)
    ensures multiset(Survivors(s, kept))[x] == if HasId(kept, x.indicatorId) then multiset(s)[x] else 0
  {
    if s != [] {
      var rest := Survivors(s[1..], kept);
      SurvivorsMultiplicity(s[1..], kept, x);
      assert s == [s[0]] + s[1..];
      var m := multiset(s[1..]);
      assert multiset(s) == multiset{s[0]} + m;
      if HasId(kept, s[0].indicatorId) {
        assert multiset(Survivors(s, kept)) == multiset{s[0]} + multiset(rest);
      } else {
        assert Survivors(s, kept) == rest;
        assert s[0] != x || !HasId(kept, x.indicatorId);
      }
    }
  }

  lemma {:induction false} SurvivorsCountFor(s: seq<Sighting>, kept: Store, id: Uuid)
    ensures CountFor(Survivors(s, kept), id) == if HasId(kept, id) then CountFor(s, id) else 0
  {
    if s != [] {
      SurvivorsCountFor(s[1..], kept, id);
      var rest := Survivors(s[1..], kept);
      if HasId(kept, s[0].indicatorId) {
        assert ([s[0]] + rest)[1..] == rest;
      }
    }
  }

  /** Deletion keeps the table constraints: nothing is left orphaned. */
  lemma DeleteExpiredPreservesValid(st: Store, now: Timestamp)
    requires Valid(st)
    ensures Valid(DeleteExpired(st, now).0)
  {
  }

  /** Nothing left behind is expired, and deleting again removes nothing. */
  lemma DeleteExpiredIdempotent(st: Store, now: Timestamp)
    ensures var st1 := DeleteExpired(st, now).0;
      && (forall k :: k in st1.indicators ==> !Expired(st1.indicators[k], now))
      && DeleteExpired(st1, now).1 == 0
      && DeleteExpired(st1, now).0.indicators == st1.indicators
  {
    var st1 := DeleteExpired(st, now).0;
    var st2 := DeleteExpired(st1, now).0;
    assert st2.indicators.Keys == st1.indicators.Keys;
  }

  // ---------------------------------------------------------------- add_enrichment

  /** `now + Duration::hours(h)`, in seconds. */
  function ExpiresAfterHours(now: Timestamp, ttlHours: Option<int>): (r: Option<Timestamp>)
    ensures r.Some? <==> ttlHours.Some?
    ensures r.Some? ==> r.value - now == ttlHours.value * SecondsPerHour
  {
    match ttlHours
    case None => None
    case Some(h) => Some(now + h * SecondsPerHour)
  }

  /**
   * `add_enrichment`: one row per (indicator, type, provider); a repeat
   * replaces data, fetch time and expiry but keeps the row's id. The
   * referenced indicator must exist.
   */
  function AddEnrichment(st: Store, indicatorId: Uuid, enrichmentType: string, provider: string,
                         data: Json, ttlHours: Option<int>, now: Timestamp, freshId: Uuid): (r: Result<(Store, Enrichment), StoreError>)
    ensures r.Err? <==> !HasId(st, indicatorId)
    ensures r.Ok? ==>
      var key := (indicatorId, enrichmentType, provider);
      && r.value.0 == st.(enrichments := st.enrichments[key := r.value.1])
      && EnrichmentKeyOf(r.value.1) == key
      && r.value.1.data == data && r.value.1.fetchedAt == now
      && r.value.1.expiresAt == ExpiresAfterHours(now, ttlHours)
      && r.value.1.id == (if key in st.enrichments then st.enrichments[key].id else freshId)
  {
    if !HasId(st, indicatorId) then Err(ForeignKeyViolation(indicatorId, "Failed to add enrichment"))
    else
      var key := (indicatorId, enrichmentType, provider);
      var expires := ExpiresAfterHours(now, ttlHours);
      var row :=
        if key in st.enrichments then Enrichment(st.enrichments[key].id, indicatorId, enrichmentType, data, provider, now, expires)
        else Enrichment(freshId, indicatorId, enrichmentType, data, provider, now, expires);
      Ok((st.(enrichments := st.enrichments[key := row]), row))
  }

  /** Refreshing an enrichment never adds a second row for the same provider and type. */
  lemma AddEnrichmentTwiceOneRow(st: Store, indicatorId: Uuid, ty: string, provider: string,
                                 d1: Json, d2: Json, ttl1: Option<int>, ttl2: Option<int>, now1: Timestamp, now2: Timestamp, id1: Uuid, id2: Uuid)
    requires AddEnrichment(st, indicatorId, ty, provider, d1, ttl1, now1, id1).Ok?
    ensures var r1 := AddEnrichment(st, indicatorId, ty, provider, d1, ttl1, now1, id1).value;
      var r2 := AddEnrichment(r1.0, indicatorId, ty, provider, d2, ttl2, now2, id2);
      && r2.Ok?
      && r2.value.0.enrichments.Keys == r1.0.enrichments.Keys
      && r2.value.1.id == r1.1.id
      && r2.value.1.data == d2
  {
    var r1 := AddEnrichment(st, indicatorId, ty, provider, d1, ttl1, now1, id1).value;
    assert r1.0.indicators == st.indicators;
  }

  lemma AddEnrichmentPreservesValid(st: Store, indicatorId: Uuid, ty: string, provider: string,
                                    data: Json, ttl: Option<int>, now: Timestamp, freshId: Uuid)
    requires Valid(st)
    requires AddEnrichment(st, indicatorId, ty, provider, data, ttl, now, freshId).Ok?
    ensures Valid(AddEnrichment(st, indicatorId, ty, provider, data, ttl, now, freshId).value.0)
  {
  }

  // ---------------------------------------------------------------- add_sighting

  function Touch(ind: Indicator, now: Timestamp): Indicator {
    ind.(lastSeen := now)
  }

  /**
   * `add_sighting`: appends a new sighting, identical or not, and moves the
   * indicator's last_seen to now. The referenced indicator must exist.
   */
  function AddSighting(st: Store, indicatorId: Uuid, source: string, context: Option<Json>,
                       now: Timestamp, freshId: Uuid): (r: Result<(Store, Sighting), StoreError>)
    ensures r.Err? <==> !HasId(st, indicatorId)
    ensures r.Ok? ==>
      var (st1, s) := r.value;
      && st1.sightings == st.sightings + [s]
      && s == Sighting(freshId, indicatorId, source, context, now, now)
      && st1.enrichments == st.enrichments
      && st1.indicators.Keys == st.indicators.Keys
      && (forall k :: k in st.indicators && st.indicators[k].id == indicatorId ==> st1.indicators[k] == st.indicators[k].(lastSeen := now))
      && (forall k :: k in st.indicators && st.indicators[k].id != indicatorId ==> st1.indicators[k] == st.indicators[k])
  {
    if !HasId(st, indicatorId) then Err(ForeignKeyViolation(indicatorId, "Failed to add sighting"))
    else
      var s := Sighting(freshId, indicatorId, source, context, now, now);
      var m := map k | k in st.indicators :: if st.indicators[k].id == indicatorId then Touch(st.indicators[k], now) else st.indicators[k];
      Ok((Store(m, st.enrichments, st.sightings + [s]), s))
  }

  /** `count_sightings`: how many sightings reference the indicator. */
  function CountSightings(st: Store, indicatorId: Uuid): (n: nat)
    ensures n <= |st.sightings|
    ensures n == 0 <==> forall i :: 0 <= i < |st.sightings| ==> st.sightings[i].indicatorId != indicatorId
    ensures n == |MatchingSightings(st.sightings, indicatorId)|
  {
    CountForMeaning(st.sightings, indicatorId);
    CountFor(st.sightings, indicatorId)
  }

  /** The positions of the sightings that reference the indicator: what `COUNT(*)` counts. */
  function MatchingSightings(s: seq<Sighting>, indicatorId: Uuid): (r: set<int>)
    ensures forall i :: i in r <==> 0 <= i < |s| && s[i].indicatorId == indicatorId
  {
    Collections.Selected(s, RefersTo(indicatorId))
  }

  function RefersTo(indicatorId: Uuid): Sighting -> bool {
    (x: Sighting) => x.indicatorId == indicatorId
  }

  /** The recursive count is the number of matching positions. */
  lemma {:induction false} CountForMeaning(s: seq<Sighting>, indicatorId: Uuid)
    ensures CountFor(s, indicatorId) == |MatchingSightings(s, indicatorId)|
    decreases |s|
  {
    if s == [] {
      assert Collections.Selected(s, RefersTo(indicatorId)) == {};
    } else {
      var n := |s| - 1;
      var init := s[..n];
      assert s == init + [s[n]];
      CountForMeaning(init, indicatorId);
      CountForAppend(init, s[n], indicatorId);
      Collections.SelectedSnoc(init, s[n], RefersTo(indicatorId));
    }
  }

  function CountFor(s: seq<Sighting>, indicatorId: Uuid): (n: nat)
    ensures n <= |s|
    ensures n == 0 <==> forall i :: 0 <= i < |s| ==> s[i].indicatorId != indicatorId
  {
    if s == [] then 0
    else (if s[0].indicatorId == indicatorId then 1 else 0) + CountFor(s[1..], indicatorId)
  }

  lemma {:induction false} CountForAppend(s: seq<Sighting>, x: Sighting, indicatorId: Uuid)
    ensures CountFor(s + [x], indicatorId) == CountFor(s, indicatorId) + (if x.indicatorId == indicatorId then 1 else 0)
    decreases |s|
  {
    if s == [] {
      assert [] + [x] == [x];
    } else {
      assert (s + [x])[1..] == s[1..] + [x];
      CountForAppend(s[1..], x, indicatorId);
    }
  }

  /** Each sighting counts once: the indicator's count rises by one and no other count moves. */
  lemma AddSightingCounts(st: Store, indicatorId: Uuid, source: string, context: Option<Json>, now: Timestamp, freshId: Uuid, other: Uuid)
    requires AddSighting(st, indicatorId, source, context, now, freshId).Ok?
    ensures var st1 := AddSighting(st, indicatorId, source, context, now, freshId).value.0;
      && CountSightings(st1, indicatorId) == CountSightings(st, indicatorId) + 1
      && (other != indicatorId ==> CountSightings(st1, other) == CountSightings(st, other))
  {
    var s := AddSighting(st, indicatorId, source, context, now, freshId).value.1;
    CountForAppend(st.sightings, s, indicatorId);
    CountForAppend(st.sightings, s, other);
  }

  lemma AddSightingPreservesValid(st: Store, indicatorId: Uuid, source: string, context: Option<Json>, now: Timestamp, freshId: Uuid)
    requires Valid(st)
    requires AddSighting(st, indicatorId, source, context, now, freshId).Ok?
    ensures Valid(AddSighting(st, indicatorId, source, context, now, freshId).value.0)
  {
    var st1 := AddSighting(st, indicatorId, source, context, now, freshId).value.0;
    forall j | HasId(st, j)
      ensures HasId(st1, j)
    {
      var k :| k in st.indicators && st.indicators[k].id == j;
      assert st1.indicators[k].id == j;
    }
  }

  /** With a clock that never runs backwards, a sighting keeps first_seen <= last_seen. */
  lemma AddSightingKeepsSeenOrder(st: Store, indicatorId: Uuid, source: string, context: Option<Json>, now: Timestamp, freshId: Uuid)
    requires SeenOrdered(st) && NotAfter(st, now)
    requires AddSighting(st, indicatorId, source, context, now, freshId).Ok?
    ensures SeenOrdered(AddSighting(st, indicatorId, source, context, now, freshId).value.0)
  {
  }
}

=== FILE: text.dfy ===
/**
 * The handful of Rust `str` operations the system relies on, over `string`
 * (a sequence of Unicode scalar values). Case mapping is restricted to ASCII;
 * whitespace is Rust's full `char::is_whitespace` set.
 */
module Text {
  import opened Wrappers

  /** `char::is_whitespace`: the Unicode White_Space property. */
  predicate IsWhitespace(c: char) {
    || c == ' '
    || ('\t' <= c <= '\r')
    || c == '\U{85}' || c == '\U{A0}' || c == '\U{1680}'
    || ('\U{2000}' <= c <= '\U{200A}')
    || c == '\U{2028}' || c == '\U{2029}' || c == '\U{202F}' || c == '\U{205F}' || c == '\U{3000}'
  }

  predicate IsAsciiDigit(c: char) {
    '0' <= c <= '9'
  }

  /** `char::is_ascii_hexdigit`. */
  predicate IsAsciiHexDigit(c: char) {
    IsAsciiDigit(c) || ('a' <= c <= 'f') || ('A' <= c <= 'F')
  }

  predicate IsAsciiUpper(c: char) {
    'A' <= c <= 'Z'
  }

  predicate IsAsciiLower(c: char) {
    'a' <= c <= 'z'
  }

  /** `char::is_alphanumeric`, restricted to ASCII. */
  predicate IsAlphanumeric(c: char) {
    IsAsciiDigit(c) || IsAsciiUpper(c) || IsAsciiLower(c)
  }

  predicate IsAscii(s: string) {
    forall i :: 0 <= i < |s| ==> s[i] < '\U{80}'
  }

  // ---------------------------------------------------------------- case

  function LowerChar(c: char): (d: char)
    ensures IsAsciiUpper(c) ==> IsAsciiLower(d) && d as int == c as int + 32
    ensures !IsAsciiUpper(c) ==> d == c
  {
    if IsAsciiUpper(c) then (c as int + 32) as char else c
  }

  function UpperChar(c: char): (d: char)
    ensures IsAsciiLower(c) ==> IsAsciiUpper(d) && d as int == c as int - 32
    ensures !IsAsciiLower(c) ==> d == c
  {
    if IsAsciiLower(c) then (c as int - 32) as char else c
  }

  /** `str::to_lowercase` on the ASCII range; other characters are kept. */
  function Lower(s: string): (r: string)
    ensures |r| == |s|
    ensures forall i :: 0 <= i < |s| ==> r[i] == LowerChar(s[i])
  {
    seq(|s|, i requires 0 <= i < |s| => LowerChar(s[i]))
  }

  /** `str::to_uppercase` on the ASCII range; other characters are kept. */
  function Upper(s: string): (r: string)
    ensures |r| == |s|
    ensures forall i :: 0 <= i < |s| ==> r[i] == UpperChar(s[i])
  {
    seq(|s|, i requires 0 <= i < |s| => UpperChar(s[i]))
  }

  lemma LowerIdempotent(s: string)
    ensures Lower(Lower(s)) == Lower(s)
  {
  }

  lemma UpperIdempotent(s: string)
    ensures Upper(Upper(s)) == Upper(s)
  {
  }

  lemma LowerAppend(a: string, b: string)
    ensures Lower(a + b) == Lower(a) + Lower(b)
  {
  }

  // ---------------------------------------------------------------- trim

  /** The index of the first non-whitespace character at or after i, or |s|. */
  function SkipWhitespace(s: string, i: nat): (k: nat)
    requires i <= |s|
    ensures i <= k <= |s|
    ensures forall j :: i <= j < k ==> IsWhitespace(s[j])
    ensures k < |s| ==> !IsWhitespace(s[k])
    decreases |s| - i
  {
    if i < |s| && IsWhitespace(s[i]) then SkipWhitespace(s, i + 1) else i
  }

  /** One past the last non-whitespace character in s[lo..hi], or lo when there is none. */
  function BackWhitespace(s: string, lo: nat, hi: nat): (k: nat)
    requires lo <= hi <= |s|
    ensures lo <= k <= hi
    ensures forall j :: k <= j < hi ==> IsWhitespace(s[j])
    ensures k > lo ==> !IsWhitespace(s[k - 1])
    decreases hi - lo
  {
    if hi > lo && IsWhitespace(s[hi - 1]) then BackWhitespace(s, lo, hi - 1) else hi
  }

  /** A string with no leading or trailing whitespace. */
  predicate IsTrimmed(s: string) {
    s == [] || (!IsWhitespace(s[0]) && !IsWhitespace(s[|s| - 1]))
  }

  /** How many leading characters `str::trim` cuts off. */
  function TrimOffset(s: string): (k: nat)
    ensures k <= |s|
    ensures forall i :: 0 <= i < k ==> IsWhitespace(s[i])
    ensures k < |s| ==> !IsWhitespace(s[k])
  {
    SkipWhitespace(s, 0)
  }

  /**
   * `str::trim`: the longest infix of `s` that neither starts nor ends with
   * whitespace; everything cut off is whitespace.
   */
  function Trim(s: string): (r: string)
    ensures IsTrimmed(r)
    ensures TrimOffset(s) + |r| <= |s| && r == s[TrimOffset(s)..TrimOffset(s) + |r|]
    ensures forall i :: 0 <= i < TrimOffset(s) ==> IsWhitespace(s[i])
    ensures forall i :: TrimOffset(s) + |r| <= i < |s| ==> IsWhitespace(s[i])
  {
    var k := TrimOffset(s);
    var e := BackWhitespace(s, k, |s|);
    assert e > k ==> !IsWhitespace(s[k..e][0]) && !IsWhitespace(s[k..e][e - k - 1]);
    s[k..e]
  }

  lemma TrimOfTrimmed(s: string)
    requires IsTrimmed(s)
    ensures Trim(s) == s
  {
    if s != [] {
      assert TrimOffset(s) == 0;
      assert BackWhitespace(s, 0, |s|) == |s|;
      assert s[0..|s|] == s;
    }
  }

  lemma TrimIdempotent(s: string)
    ensures Trim(Trim(s)) == Trim(s)
  {
    TrimOfTrimmed(Trim(s));
  }

  lemma TrimAllWhitespace(s: string)
    ensures Trim(s) == [] <==> forall i :: 0 <= i < |s| ==> IsWhitespace(s[i])
  {
  }

  /** Changing ASCII case never makes or removes whitespace at either end. */
  lemma LowerKeepsTrimmed(s: string)
    requires IsTrimmed(s)
    ensures IsTrimmed(Lower(s))
  {
  }

  lemma UpperKeepsTrimmed(s: string)
    requires IsTrimmed(s)
    ensures IsTrimmed(Upper(s))
  {
  }

  // ---------------------------------------------------------------- search

  predicate StartsWith(s: string, prefix: string) {
    |prefix| <= |s| && s[..|prefix|] == prefix
  }

  predicate OccursAt(s: string, sub: string, i: int) {
    0 <= i && i + |sub| <= |s| && s[i..i + |sub|] == sub
  }

  /** `str::contains` with a string pattern. */
  predicate Contains(s: string, sub: string) {
    exists i | 0 <= i <= |s| - |sub| :: OccursAt(s, sub, i)
  }

  function FindFrom(s: string, sub: string, from: nat): (r: Option<nat>)
    requires from <= |s|
    ensures r.Some? ==> from <= r.value && OccursAt(s, sub, r.value)
    ensures r.Some? ==> forall j :: from <= j < r.value ==> !OccursAt(s, sub, j)
    ensures r.None? ==> forall j :: from <= j ==> !OccursAt(s, sub, j)
    decreases |s| - from
  {
    if OccursAt(s, sub, from) then Some(from)
    else if from == |s| then None
    else FindFrom(s, sub, from + 1)
  }

  /** `str::find`: the first position at which `sub` occurs. */
  function Find(s: string, sub: string): (r: Option<nat>)
    ensures r.Some? <==> Contains(s, sub)
    ensures r.Some? ==> OccursAt(s, sub, r.value)
    ensures r.Some? ==> forall j :: 0 <= j < r.value ==> !OccursAt(s, sub, j)
  {
    FindFrom(s, sub, 0)
  }

  /** `str::find` with a character pattern. */
  function FindChar(s: string, c: char): (r: Option<nat>)
    ensures r.Some? <==> c in s
    ensures r.Some? ==> r.value < |s| && s[r.value] == c && c !in s[..r.value]
  {
    if s == [] then None
    else if s[0] == c then Some(0)
    else match FindChar(s[1..], c)
      case None => None
      case Some(i) => assert s[..i + 1] == [s[0]] + s[1..][..i]; Some(i + 1)
  }

  lemma FindCharAt(s: string, c: char, i: nat)
    requires i < |s| && s[i] == c && c !in s[..i]
    ensures FindChar(s, c) == Some(i)
  {
    var r := FindChar(s, c).value;
    assert forall j :: 0 <= j < i ==> s[..i][j] == s[j];
    assert forall j :: 0 <= j < r ==> s[..r][j] == s[j];
  }

  /** `str::split` with a character separator: never empty. */
  function Split(s: string, sep: char): (parts: seq<string>)
    ensures |parts| >= 1
    ensures forall i :: 0 <= i < |parts| ==> sep !in parts[i]
    decreases |s|
  {
    match FindChar(s, sep)
    case None => [s]
    case Some(i) => [s[..i]] + Split(s[i + 1..], sep)
  }

  /** A string without the separator splits into itself. */
  lemma SplitNone(s: string, sep: char)
    requires sep !in s
    ensures Split(s, sep) == [s]
  {
  }

  /** `str::split_once` with a character separator. */
  function SplitOnce(s: string, sep: char): (r: Option<(string, string)>)
    ensures r.None? <==> sep !in s
    ensures r.Some? ==> s == r.value.0 + [sep] + r.value.1 && sep !in r.value.0
  {
    match FindChar(s, sep)
    case None => None
    case Some(i) => assert s == s[..i] + [sep] + s[i + 1..]; Some((s[..i], s[i + 1..]))
  }

  /** `split_once` splits at the first separator: any first occurrence gives the two sides. */
  lemma SplitOnceAt(s: string, sep: char, i: nat)
    requires i < |s| && s[i] == sep && sep !in s[..i]
    ensures SplitOnce(s, sep) == Some((s[..i], s[i + 1..]))
  {
    var (k, v) := SplitOnce(s, sep).value;
    assert s == k + [sep] + v;
    assert forall j :: 0 <= j < |k| ==> s[j] == k[j];
    assert forall j :: 0 <= j < i ==> s[..i][j] == s[j];
    assert s[|k|] == sep;
    assert |k| == i;
    assert k == s[..i];
  }

  function Join(parts: seq<string>, sep: string): string {
    if parts == [] then ""
    else if |parts| == 1 then parts[0]
    else parts[0] + sep + Join(parts[1..], sep)
  }

  /** Splitting a join on a separator that no part contains gives the parts back. */
  lemma {:induction false} SplitJoin(parts: seq<string>, sep: char)
    requires |parts| >= 1
    requires forall i :: 0 <= i < |parts| ==> sep !in parts[i]
    ensures Split(Join(parts, [sep]), sep) == parts
  {
    if |parts| == 1 {
    } else {
      var rest := Join(parts[1..], [sep]);
      var s := parts[0] + [sep] + rest;
      assert Join(parts, [sep]) == s;
      assert s[..|parts[0]|] == parts[0];
      FindCharAt(s, sep, |parts[0]|);
      assert s[|parts[0]| + 1..] == rest;
      SplitJoin(parts[1..], sep);
    }
  }

  /** Drops one trailing carriage return. */
  function StripCr(line: string): string {
    if |line| > 0 && line[|line| - 1] == '\r' then line[..|line| - 1] else line
  }

  /**
   * `str::lines`: pieces between newlines; a piece ended by a newline also
   * loses one trailing carriage return, and a final newline opens no line.
   */
  function Lines(s: string): (ls: seq<string>)
    ensures forall i :: 0 <= i < |ls| ==> '\n' !in ls[i]
    ensures s == [] ==> ls == []
    decreases |s|
  {
    if s == [] then []
    else match FindChar(s, '\n')
      case None => [s]
      case Some(i) =>
        assert '\n' !in StripCr(s[..i]) by {
          assert forall j :: 0 <= j < |StripCr(s[..i])| ==> StripCr(s[..i])[j] == s[j];
        }
        [StripCr(s[..i])] + Lines(s[i + 1..])
  }

  /** The index of the first whitespace character at or after i, or |s|. */
  function WordEnd(s: string, i: nat): (k: nat)
    requires i <= |s|
    ensures i <= k <= |s|
    ensures forall j :: i <= j < k ==> !IsWhitespace(s[j])
    ensures k < |s| ==> IsWhitespace(s[k])
    decreases |s| - i
  {
    if i < |s| && !IsWhitespace(s[i]) then WordEnd(s, i + 1) else i
  }

  /** `split_whitespace().next()`: the first maximal run of non-whitespace. */
  function FirstToken(s: string): (r: Option<string>)
    ensures r.Some? ==> r.value != [] && forall i :: 0 <= i < |r.value| ==> !IsWhitespace(r.value[i])
    ensures r.Some? ==> TrimOffset(s) + |r.value| <= |s| && r.value == s[TrimOffset(s)..TrimOffset(s) + |r.value|]
    ensures r.Some? && TrimOffset(s) + |r.value| < |s| ==> IsWhitespace(s[TrimOffset(s) + |r.value|])
    ensures r.None? <==> forall i :: 0 <= i < |s| ==> IsWhitespace(s[i])
  {
    var k := TrimOffset(s);
    if k == |s| then None
    else
      var e := WordEnd(s, k);
      assert e > k;
      assert forall i :: 0 <= i < e - k ==> s[k..e][i] == s[k + i];
      Some(s[k..e])
  }
}

=== FILE: utf8.dfy ===
/**
 * The UTF-8 encoding of a string (`str::as_bytes`), as the Base64 encoder
 * sees it.
 */
module Utf8 {
  import Base64
  import Text

  /** The one to four bytes of one Unicode scalar value. */
  function EncodeChar(c: char): (bs: seq<Base64.Byte>)
    ensures 1 <= |bs| <= 4
    ensures c < '\U{80}' <==> |bs| == 1
    ensures c < '\U{80}' ==> bs[0] == c as int
  {
    var n := c as int;
    if n < 0x80 then [n]
    else if n < 0x800 then [0xC0 + n / 64, 0x80 + n % 64]
    else if n < 0x10000 then [0xE0 + n / 4096, 0x80 + (n / 64) % 64, 0x80 + n % 64]
    else [0xF0 + n / 262144, 0x80 + (n / 4096) % 64, 0x80 + (n / 64) % 64, 0x80 + n % 64]
  }

  function Encode(s: string): (bs: seq<Base64.Byte>)
    ensures |bs| >= |s|
  {
    if s == [] then [] else EncodeChar(s[0]) + Encode(s[1..])
  }

  /** An ASCII string is its own byte string: one byte per character, equal to its code. */
  lemma {:induction false} AsciiBytes(s: string)
    requires Text.IsAscii(s)
    ensures |Encode(s)| == |s|
    ensures forall i :: 0 <= i < |s| ==> Encode(s)[i] == s[i] as int
  {
    if s != [] {
      AsciiBytes(s[1..]);
      assert forall i :: 1 <= i < |s| ==> Encode(s)[i] == Encode(s[1..])[i - 1] && s[1..][i - 1] == s[i];
    }
  }
}

=== FILE: virustotal.dfy ===
/**
 * The VirusTotal provider: the request address per indicator type (with the
 * unpadded base64url id of a URL), the report `fetch` builds from a reply,
 * the detection ratio, the not-found gate of `enrich`, and the capability
 * table.
 */
module VirusTotal {
  import opened Wrappers
  import opened Text
  import opened Json
  import opened Models
  import Decimal
  import Base64
  import Utf8
  import Enrichment

  /** name "virustotal", enrichment type "reputation", four types, cached for 12 hours. */
  const VirusTotalProvider: Enrichment.Provider := Enrichment.Provider("virustotal", "reputation", {Ip, Domain, Hash, Url}, Some(12))

  const ApiUrl: string := "https://www.virustotal.com/api/v3"

  /** `last_analysis_stats`. */
  datatype Stats = Stats(malicious: int, suspicious: int, harmless: int, undetected: int, timeout: Option<int>)

  /** `total_votes`. */
  datatype Votes = Votes(harmless: int, malicious: int)

  /** The attributes of a reply that reach the report. */
  datatype Attributes = Attributes(
    stats: Option<Stats>,
    reputation: Option<int>,
    votes: Option<Votes>,
    tags: Option<seq<string>>,
    country: Option<string>,
    asn: Option<int>,
    asOwner: Option<string>,
    registrar: Option<string>,
    meaningfulName: Option<string>,
    typeDescription: Option<string>,
    size: Option<int>)

  /** `check_url`'s id: the URL's UTF-8 bytes in unpadded URL-safe Base64. */
  function UrlId(url: string): (id: string)
    ensures forall i :: 0 <= i < |id| ==> Base64.IsUrlSafe(id[i])
  {
    Base64.Encode(Utf8.Encode(url))
  }

  /** The id decodes back to the URL's bytes. */
  lemma UrlIdDecodes(url: string)
    ensures Base64.Decode(UrlId(url)) == Some(Utf8.Encode(url))
  {
    Base64.RoundTrip(Utf8.Encode(url));
  }

  /** Two ASCII URLs with the same id are the same URL. */
  lemma UrlIdInjective(u: string, w: string)
    requires IsAscii(u) && IsAscii(w)
    requires UrlId(u) == UrlId(w)
    ensures u == w
  {
    UrlIdDecodes(u);
    UrlIdDecodes(w);
    Utf8.AsciiBytes(u);
    Utf8.AsciiBytes(w);
    assert forall i :: 0 <= i < |u| ==> u[i] as int == w[i] as int;
  }

  /** The address `check_ip`, `check_domain`, `check_hash` or `check_url` fetches; none for other types. */
  function RequestUrl(t: IocType, value: string): (r: Option<string>)
    ensures r.Some? <==> Enrichment.Supports(VirusTotalProvider, t)
    ensures t == Ip ==> r == Some(ApiUrl + "/ip_addresses/" + value)
    ensures t == Domain ==> r == Some(ApiUrl + "/domains/" + value)
    ensures t == Hash ==> r == Some(ApiUrl + "/files/" + value)
    ensures t == Url ==> r == Some(ApiUrl + "/urls/" + UrlId(value))
  {
    match t
    case Ip => Some(ApiUrl + "/ip_addresses/" + value)
    case Domain => Some(ApiUrl + "/domains/" + value)
    case Hash => Some(ApiUrl + "/files/" + value)
    case Url => Some(ApiUrl + "/urls/" + UrlId(value))
    case _ => None
  }

  /** Engines that flagged the object: malicious plus suspicious. */
  function Flagged(s: Stats): int {
    s.malicious + s.suspicious
  }

  /** Engines that gave a verdict; timeouts are not counted. */
  function Counted(s: Stats): int {
    s.malicious + s.suspicious + s.harmless + s.undetected
  }

  /** `detection_ratio`: "<flagged>/<counted>". */
  function DetectionRatio(s: Stats): (r: string)
    ensures '/' in r
  {
    var r := Decimal.IntToString(Flagged(s)) + "/" + Decimal.IntToString(Counted(s));
    assert r[|Decimal.IntToString(Flagged(s))|] == '/';
    r
  }

  /** The ratio reads back as the two counts, and a timeout count never changes it. */
  lemma DetectionRatioRoundTrip(s: Stats, timeout: Option<int>)
    ensures |Split(DetectionRatio(s), '/')| == 2
    ensures Decimal.ParseInt(Split(DetectionRatio(s), '/')[0]) == Some(Flagged(s))
    ensures Decimal.ParseInt(Split(DetectionRatio(s), '/')[1]) == Some(Counted(s))
    ensures DetectionRatio(s.(timeout := timeout)) == DetectionRatio(s)
  {
    var a := Decimal.IntToString(Flagged(s));
    var b := Decimal.IntToString(Counted(s));
    assert forall k :: 0 <= k < |a| ==> a[k] != '/';
    assert forall k :: 0 <= k < |b| ==> b[k] != '/';
    assert Join([a, b], "/") == DetectionRatio(s);
    SplitJoin([a, b], '/');
    Decimal.IntRoundTrip(Flagged(s));
    Decimal.IntRoundTrip(Counted(s));
    TimeoutIgnored(s, timeout);
  }

  /** The ratio reads only the four verdict counts. */
  lemma TimeoutIgnored(s: Stats, timeout: Option<int>)
    ensures DetectionRatio(s.(timeout := timeout)) == DetectionRatio(s)
  {
    var s' := s.(timeout := timeout);
    assert Flagged(s') == Flagged(s) && Counted(s') == Counted(s);
  }

  function Analysis(s: Stats): (j: Json)
    ensures Get(j, "detection_ratio") == Some(Str(DetectionRatio(s)))
    ensures Get(j, "malicious") == Some(Num(s.malicious))
  {
    Obj(map[
      "malicious" := Num(s.malicious),
      "suspicious" := Num(s.suspicious),
      "harmless" := Num(s.harmless),
      "undetected" := Num(s.undetected),
      "detection_ratio" := Str(DetectionRatio(s))])
  }

  /** The one-key object `{key: value}` when the optional value is present, else nothing. */
  function Optional(key: string, v: Option<Json>): (m: map<string, Json>)
    ensures key in m <==> v.Some?
    ensures m.Keys <= {key}
    ensures v.Some? ==> m[key] == v.value
  {
    match v
    case Some(x) => map[key := x]
    case None => map[]
  }

  function MapStr(o: Option<string>): Option<Json> {
    match o
    case Some(s) => Some(Str(s))
    case None => None
  }

  function MapNum(o: Option<int>): Option<Json> {
    match o
    case Some(n) => Some(Num(n))
    case None => None
  }

  /** The keys of the core fields, of the address fields and of the domain and file fields. */
  const CoreKeys: set<string> := {"found", "reputation", "tags", "analysis", "votes"}
  const AddressKeys: set<string> := {"country", "asn", "as_owner"}
  const ObjectKeys: set<string> := {"registrar", "meaningful_name", "type_description", "size"}

  lemma CoreAddressDisjoint()
    ensures CoreKeys !! AddressKeys
  {
  }

  lemma CoreObjectDisjoint()
    ensures CoreKeys !! ObjectKeys
  {
  }

  lemma AddressObjectDisjoint()
    ensures AddressKeys !! ObjectKeys
  {
  }

  /** The fields every report of a found object has: found=true, reputation, tags and, when present, analysis and votes. */
  function CoreReport(a: Attributes): (j: Json)
    ensures j.Obj?
    ensures Get(j, "found") == Some(Bool(true))
    ensures "analysis" in j.fields <==> a.stats.Some?
    ensures a.stats.Some? ==> Get(j, "analysis") == Some(Analysis(a.stats.value))
    ensures "votes" in j.fields <==> a.votes.Some?
    ensures j.fields.Keys <= CoreKeys
  {
    var base := map[
      "reputation" := OptNum(a.reputation),
      "tags" := (match a.tags case Some(ts) => StrArr(ts) case None => Null),
      "found" := Bool(true)];
    var analysis := Optional("analysis", match a.stats case Some(s) => Some(Analysis(s)) case None => None);
    var votes := Optional("votes", match a.votes case Some(v) => Some(Obj(map["harmless" := Num(v.harmless), "malicious" := Num(v.malicious)])) case None => None);
    Obj(analysis + votes + base)
  }

  /**
   * The report of a found object: the core fields, then each optional
   * attribute that is present. The source inserts them one by one; the keys
   * are distinct, so the union below is the same object.
   */
  function Report(a: Attributes): Json {
    Obj(CoreReport(a).fields + AddressFields(a) + ObjectFields(a))
  }

  /** `country`, `asn` and `as_owner`, each when present. */
  function AddressFields(a: Attributes): (m: map<string, Json>)
    ensures "country" in m <==> a.country.Some?
    ensures "asn" in m <==> a.asn.Some?
    ensures "as_owner" in m <==> a.asOwner.Some?
    ensures m.Keys <= AddressKeys
  {
    Optional("country", MapStr(a.country)) + Optional("asn", MapNum(a.asn)) + Optional("as_owner", MapStr(a.asOwner))
  }

  /** `registrar`, `meaningful_name`, `type_description` and `size`, each when present. */
  function ObjectFields(a: Attributes): (m: map<string, Json>)
    ensures "registrar" in m <==> a.registrar.Some?
    ensures "meaningful_name" in m <==> a.meaningfulName.Some?
    ensures "type_description" in m <==> a.typeDescription.Some?
    ensures "size" in m <==> a.size.Some?
    ensures m.Keys <= ObjectKeys
  {
    Optional("registrar", MapStr(a.registrar)) + Optional("meaningful_name", MapStr(a.meaningfulName))
      + Optional("type_description", MapStr(a.typeDescription)) + Optional("size", MapNum(a.size))
  }

  /** A report of a found object says found=true and has an analysis exactly when the reply had statistics. */
  lemma ReportCore(a: Attributes)
    ensures Report(a).Obj?
    ensures Get(Report(a), "found") == Some(Bool(true))
    ensures "analysis" in Report(a).fields <==> a.stats.Some?
  {
    CoreAddressDisjoint();
    CoreObjectDisjoint();
    assert "found" in CoreKeys && "analysis" in CoreKeys;
  }

  /** The address attributes appear in the report exactly when the reply had them. */
  lemma ReportAddressFields(a: Attributes)
    ensures "country" in Report(a).fields <==> a.country.Some?
    ensures "asn" in Report(a).fields <==> a.asn.Some?
    ensures "as_owner" in Report(a).fields <==> a.asOwner.Some?
  {
    CoreAddressDisjoint();
    AddressObjectDisjoint();
    assert "country" in AddressKeys && "asn" in AddressKeys && "as_owner" in AddressKeys;
  }

  /** The domain and file attributes appear in the report exactly when the reply had them. */
  lemma ReportObjectFields(a: Attributes)
    ensures "registrar" in Report(a).fields <==> a.registrar.Some?
    ensures "meaningful_name" in Report(a).fields <==> a.meaningfulName.Some?
    ensures "type_description" in Report(a).fields <==> a.typeDescription.Some?
    ensures "size" in Report(a).fields <==> a.size.Some?
  {
    CoreObjectDisjoint();
    assert "registrar" in ObjectKeys && "meaningful_name" in ObjectKeys && "type_description" in ObjectKeys && "size" in ObjectKeys;
  }

  /** What `fetch` returns for a 404: a report saying the object is unknown. */
  const NotFoundReport: Json := Obj(map["found" := Bool(false)])

  /** `fetch`: 404 is an answer, any other non-2xx or an undecodable body is an error. */
  function Fetch(reply: Enrichment.Reply<Attributes>): (r: Result<Json, string>)
    ensures r.Ok? <==> reply.Status? && (reply.code == 404 || (Enrichment.IsSuccess(reply.code) && reply.body.Some?))
    ensures reply.Status? && reply.code == 404 ==> r == Ok(NotFoundReport)
    ensures r.Ok? && reply.code != 404 ==> r.value == Report(reply.body.value)
  {
    match reply
    case SendFailed => Err("Failed to send request to VirusTotal")
    case Status(code, body) =>
      if code == 404 then Ok(NotFoundReport)
      else if !Enrichment.IsSuccess(code) then Err("VirusTotal API error: " + Decimal.IntToString(code))
      else if body.None? then Err("Failed to parse VirusTotal response")
      else Ok(Report(body.value))
  }

  /**
   * `enrich`: unsupported types yield nothing without a request; a not-found
   * report yields nothing; any other fetched report is the payload.
   */
  function Enrich(ind: Indicator, reply: Enrichment.Reply<Attributes>): (o: Enrichment.Outcome)
    ensures !Enrichment.Supports(VirusTotalProvider, ind.iocType) ==> o == Enrichment.NoData
    ensures Enrichment.Supports(VirusTotalProvider, ind.iocType) ==> (o.NoData? <==> reply.Status? && reply.code == 404)
    ensures Enrichment.Supports(VirusTotalProvider, ind.iocType) ==> (o.Failed? <==> Fetch(reply).Err?)
    ensures o.Found? ==> o.data == Report(reply.body.value)
  {
    if RequestUrl(ind.iocType, ind.value).None? then Enrichment.NoData
    else
      match Fetch(reply)
      case Err(msg) => Enrichment.Failed(msg)
      case Ok(j) =>
        ReportCore(if reply.Status? && reply.body.Some? then reply.body.value else Attributes(None, None, None, None, None, None, None, None, None, None, None));
        if Get(j, "found") == Some(Bool(false)) then Enrichment.NoData else Enrichment.Found(j)
  }

  lemma VirusTotalCapabilities(t: IocType)
    ensures Enrichment.Supports(VirusTotalProvider, t) <==> t != Email && t != Cve
    ensures Enrichment.TtlHours(VirusTotalProvider) == 12
    ensures VirusTotalProvider.name == "virustotal" && VirusTotalProvider.enrichmentType == "reputation"
  {
  }
}

=== FILE: whois.dfy ===
/**
 * The WHOIS provider: the line-oriented parser for a raw WHOIS answer, the
 * "nothing useful" gate of `enrich`, and the provider's capability table.
 * The network lookup itself is an argument: the raw text it returned, if any.
 */
module Whois {
  import opened Wrappers
  import opened Text
  import opened Json
  import opened Models
  import Enrichment
  import Collections

  /** name "whois", enrichment type "whois", domains only, cached for a week. */
  const WhoisProvider: Enrichment.Provider := Enrichment.Provider("whois", "whois", {Domain}, Some(168))

  /** The capability table: only domains are looked up, and answers are kept for 168 hours. */
  lemma WhoisCapabilities(t: IocType)
    ensures Enrichment.Supports(WhoisProvider, t) <==> t == Domain
    ensures Enrichment.TtlHours(WhoisProvider) == 168
    ensures WhoisProvider.name == "whois" && WhoisProvider.enrichmentType == "whois"
  {
  }

  const RegistrarKeys: set<string> := {"registrar", "registrar name"}
  const RegistrantKeys: set<string> := {"registrant", "registrant name"}
  const OrgKeys: set<string> := {"registrant organization", "registrant org"}
  const CountryKeys: set<string> := {"registrant country"}
  const NameServerKeys: set<string> := {"name server", "nserver"}
  const StatusKeys: set<string> := {"status", "domain status"}

  /** Every key that sets a field; date keys and all others are ignored. */
  const TrackedKeys: set<string> := RegistrarKeys + RegistrantKeys + OrgKeys + CountryKeys + NameServerKeys + StatusKeys

  /** A `key: value` line after clean-up: the key trimmed and lowercased, the value trimmed. */
  datatype Entry = Entry(key: string, value: string)

  /** A line the parser ignores outright: blank, or a `%` or `#` comment. */
  predicate IsSkipped(line: string) {
    var l := Trim(line);
    l == [] || l[0] == '%' || l[0] == '#'
  }

  /** A key as the parser compares it: trimmed, then lowercased. */
  function CleanKey(k: string): (key: string)
    requires ':' !in k
    ensures key == Lower(Trim(k))
    ensures ':' !in key
    ensures IsTrimmed(key) && Lower(key) == key
  {
    var t := Trim(k);
    assert ':' !in t by {
      forall j | 0 <= j < |t| ensures t[j] != ':' {
        assert t[j] == k[TrimOffset(k) + j];
      }
    }
    var key := Lower(t);
    assert ':' !in key by {
      forall j | 0 <= j < |key| ensures key[j] != ':' {
        assert key[j] == LowerChar(t[j]);
      }
    }
    LowerKeepsTrimmed(t);
    LowerIdempotent(t);
    key
  }

  /** The entry a line yields: split at its first ':'; an empty value yields nothing. */
  function LineEntry(line: string): (r: Option<Entry>)
    ensures IsSkipped(line) ==> r.None?
    ensures ':' !in Trim(line) ==> r.None?
    ensures r.Some? ==> r.value.value != [] && IsTrimmed(r.value.value)
    ensures r.Some? ==> ':' !in r.value.key && IsTrimmed(r.value.key) && Lower(r.value.key) == r.value.key
    ensures forall i :: !IsSkipped(line) && 0 <= i < |Trim(line)| && Trim(line)[i] == ':' && ':' !in Trim(line)[..i] ==>
      r == (if Trim(Trim(line)[i + 1..]) == [] then None else Some(Entry(CleanKey(Trim(line)[..i]), Trim(Trim(line)[i + 1..]))))
  {
    var l := Trim(line);
    forall i | 0 <= i < |l| && l[i] == ':' && ':' !in l[..i] {
      SplitOnceAt(l, ':', i);
    }
    if l == [] || l[0] == '%' || l[0] == '#' then None
    else match SplitOnce(l, ':')
      case None => None
      case Some((k, v)) =>
        var value := Trim(v);
        if value == [] then None else Some(Entry(CleanKey(k), value))
  }

  /** The entries of a sequence of lines, in order; lines without one are skipped. */
  function Entries(lines: seq<string>): seq<Entry> {
    Collections.Somes(lines, LineEntry)
  }

  /** The value of the first entry whose key is one of `keys`. */
  function FirstValue(es: seq<Entry>, keys: set<string>): Option<string> {
    if es == [] then None
    else if es[0].key in keys then Some(es[0].value)
    else FirstValue(es[1..], keys)
  }

  /** The value of the last entry whose key is one of `keys`. */
  function LastValue(es: seq<Entry>, keys: set<string>): Option<string> {
    if es == [] then None
    else
      var rest := LastValue(es[1..], keys);
      if rest.Some? then rest
      else if es[0].key in keys then Some(es[0].value)
      else None
  }

  /** The values of all entries whose key is one of `keys`, in input order. */
  function ValuesOf(es: seq<Entry>, keys: set<string>): seq<string> {
    if es == [] then []
    else if es[0].key in keys then [es[0].value] + ValuesOf(es[1..], keys)
    else ValuesOf(es[1..], keys)
  }

  /** First-wins: the value of the earliest matching entry, if there is one. */
  lemma {:induction false} FirstValueMeaning(es: seq<Entry>, keys: set<string>)
    ensures FirstValue(es, keys).None? <==> forall i :: 0 <= i < |es| ==> es[i].key !in keys
    ensures FirstValue(es, keys).Some? ==> exists i :: 0 <= i < |es| && es[i].key in keys && es[i].value == FirstValue(es, keys).value && forall j :: 0 <= j < i ==> es[j].key !in keys
  {
    if es != [] && es[0].key !in keys {
      FirstValueMeaning(es[1..], keys);
      var r := FirstValue(es[1..], keys);
      assert forall i :: 1 <= i < |es| ==> es[i] == es[1..][i - 1];
      if r.Some? {
        var i :| 0 <= i < |es[1..]| && es[1..][i].key in keys && es[1..][i].value == r.value && forall j :: 0 <= j < i ==> es[1..][j].key !in keys;
        assert es[i + 1] == es[1..][i];
      }
    }
  }

  /** Last-wins: the value of the latest matching entry, if there is one. */
  lemma {:induction false} LastValueMeaning(es: seq<Entry>, keys: set<string>)
    ensures LastValue(es, keys).None? <==> forall i :: 0 <= i < |es| ==> es[i].key !in keys
    ensures LastValue(es, keys).Some? ==> exists i :: 0 <= i < |es| && es[i].key in keys && es[i].value == LastValue(es, keys).value && forall j :: i < j < |es| ==> es[j].key !in keys
  {
    if es != [] {
      LastValueMeaning(es[1..], keys);
      var rest := LastValue(es[1..], keys);
      assert forall i :: 1 <= i < |es| ==> es[i] == es[1..][i - 1];
      if rest.Some? {
        var i :| 0 <= i < |es[1..]| && es[1..][i].key in keys && es[1..][i].value == rest.value && forall j :: i < j < |es[1..]| ==> es[1..][j].key !in keys;
        assert es[i + 1] == es[1..][i];
      }
    }
  }

  /** The collected values are exactly the matching entries' values, in order. */
  lemma {:induction false} ValuesOfMeaning(es: seq<Entry>, keys: set<string>)
    ensures |ValuesOf(es, keys)| <= |es|
    ensures ValuesOf(es, keys) == [] <==> forall i :: 0 <= i < |es| ==> es[i].key !in keys
    ensures forall v :: v in ValuesOf(es, keys) ==> exists i :: 0 <= i < |es| && es[i].key in keys && es[i].value == v
    ensures forall i :: 0 <= i < |es| && es[i].key in keys ==> es[i].value in ValuesOf(es, keys)
    ensures |ValuesOf(es, keys)| == |set i | 0 <= i < |es| && es[i].key in keys|
  {
    ValuesOfComplete(es, keys);
    if es != [] {
      ValuesOfMeaning(es[1..], keys);
      assert forall i :: 1 <= i < |es| ==> es[i] == es[1..][i - 1];
      forall v | v in ValuesOf(es, keys)
        ensures exists i :: 0 <= i < |es| && es[i].key in keys && es[i].value == v
      {
        if !(es[0].key in keys && v == es[0].value) {
          assert v in ValuesOf(es[1..], keys);
          var i :| 0 <= i < |es[1..]| && es[1..][i].key in keys && es[1..][i].value == v;
          assert es[i + 1] == es[1..][i];
        }
      }
    }
  }

  /** Whether an entry's key is one of `keys`. */
  function KeyIn(keys: set<string>): Entry -> bool {
    (e: Entry) => e.key in keys
  }

  function EntryValue(e: Entry): string {
    e.value
  }

  /** The collected values are the matching entries' values in input order, as the reference filter gives them. */
  lemma {:induction false} ValuesOfIsFilterMap(es: seq<Entry>, keys: set<string>)
    ensures ValuesOf(es, keys) == Collections.FilterMap(es, KeyIn(keys), EntryValue)
    decreases |es|
  {
    if es != [] {
      var n := |es| - 1;
      ValuesOfIsFilterMap(es[..n], keys);
      assert es == es[..n] + [es[n]];
      ValuesOfAppend(es[..n], es[n], keys);
    }
  }

  /** Every matching entry's value is collected, one value per matching entry. */
  lemma ValuesOfComplete(es: seq<Entry>, keys: set<string>)
    ensures forall i :: 0 <= i < |es| && es[i].key in keys ==> es[i].value in ValuesOf(es, keys)
    ensures |ValuesOf(es, keys)| == |set i | 0 <= i < |es| && es[i].key in keys|
  {
    ValuesOfIsFilterMap(es, keys);
    Collections.FilterMapMeaning(es, KeyIn(keys), EntryValue);
    assert Collections.Selected(es, KeyIn(keys)) == set i | 0 <= i < |es| && es[i].key in keys;
  }

  /** `to_lowercase` applied to every element. */
  function LowerAll(xs: seq<string>): (r: seq<string>)
    ensures |r| == |xs|
    ensures forall i :: 0 <= i < |xs| ==> r[i] == Lower(xs[i])
  {
    seq(|xs|, i requires 0 <= i < |xs| => Lower(xs[i]))
  }

  /** The declarative meaning of the parse: each field as a function of the entries. */
  predicate DescribedBy(d: WhoisData, raw: string, es: seq<Entry>) {
    && d.raw == Some(raw)
    && d.registrar == FirstValue(es, RegistrarKeys)
    && d.registrant == LastValue(es, RegistrantKeys)
    && d.registrantOrg == LastValue(es, OrgKeys)
    && d.registrantCountry == LastValue(es, CountryKeys)
    && d.nameServers == LowerAll(ValuesOf(es, NameServerKeys))
    && d.status == ValuesOf(es, StatusKeys)
  }

  /** The effect of one entry on the record being built. */
  function Apply(d: WhoisData, e: Entry): WhoisData {
    var k := e.key;
    if k == "registrar" || k == "registrar name" then
      if d.registrar.None? then d.(registrar := Some(e.value)) else d
    else if k == "registrant" || k == "registrant name" then d.(registrant := Some(e.value))
    else if k == "registrant organization" || k == "registrant org" then d.(registrantOrg := Some(e.value))
    else if k == "registrant country" then d.(registrantCountry := Some(e.value))
    else if k == "name server" || k == "nserver" then d.(nameServers := d.nameServers + [Lower(e.value)])
    else if k == "status" || k == "domain status" then d.(status := d.status + [e.value])
    else d
  }

  /** A date key, or any key the parser does not know, changes no field. */
  lemma UntrackedKeyIgnored(d: WhoisData, e: Entry)
    requires e.key !in TrackedKeys
    ensures Apply(d, e) == d
  {
  }

  lemma {:induction false} FirstValueAppend(es: seq<Entry>, e: Entry, keys: set<string>)
    ensures FirstValue(es + [e], keys) == if FirstValue(es, keys).Some? then FirstValue(es, keys) else if e.key in keys then Some(e.value) else None
  {
    if es != [] {
      assert (es + [e])[1..] == es[1..] + [e];
      FirstValueAppend(es[1..], e, keys);
    }
  }

  lemma {:induction false} LastValueAppend(es: seq<Entry>, e: Entry, keys: set<string>)
    ensures LastValue(es + [e], keys) == if e.key in keys then Some(e.value) else LastValue(es, keys)
  {
    if es == [] {
      assert [e][1..] == [];
    } else {
      assert (es + [e])[1..] == es[1..] + [e];
      LastValueAppend(es[1..], e, keys);
    }
  }

  lemma {:induction false} ValuesOfAppend(es: seq<Entry>, e: Entry, keys: set<string>)
    ensures ValuesOf(es + [e], keys) == ValuesOf(es, keys) + if e.key in keys then [e.value] else []
  {
    if es == [] {
      assert [e][1..] == [];
    } else {
      assert (es + [e])[1..] == es[1..] + [e];
      ValuesOfAppend(es[1..], e, keys);
    }
  }

  /** Applying one more entry keeps the record described by the longer entry list. */
  lemma ApplyDescribed(d: WhoisData, raw: string, es: seq<Entry>, e: Entry)
    requires DescribedBy(d, raw, es)
    ensures DescribedBy(Apply(d, e), raw, es + [e])
  {
    FirstValueAppend(es, e, RegistrarKeys);
    LastValueAppend(es, e, RegistrantKeys);
    LastValueAppend(es, e, OrgKeys);
    LastValueAppend(es, e, CountryKeys);
    ValuesOfAppend(es, e, NameServerKeys);
    ValuesOfAppend(es, e, StatusKeys);
    var ns := ValuesOf(es, NameServerKeys);
    if e.key in NameServerKeys {
      assert LowerAll(ns + [e.value]) == LowerAll(ns) + [Lower(e.value)];
    } else {
      assert ValuesOf(es + [e], NameServerKeys) == ns;
    }
  }

  /** The record after one more line: unchanged unless the line yields an entry. */
  function Step(d: WhoisData, line: string): WhoisData {
    match LineEntry(line)
    case None => d
    case Some(e) => Apply(d, e)
  }

  /** Before any line, the record is empty apart from raw. */
  lemma InitialDescribed(raw: string)
    ensures DescribedBy(WhoisData(None, None, None, None, [], [], Some(raw)), raw, Entries([]))
  {
    assert LowerAll([]) == [];
  }

  lemma ParseStep(d: WhoisData, raw: string, prefix: seq<string>, line: string)
    requires DescribedBy(d, raw, Entries(prefix))
    ensures DescribedBy(Step(d, line), raw, Entries(prefix + [line]))
  {
    Collections.SomesSnoc(prefix, line, LineEntry);
    var es := Entries(prefix);
    match LineEntry(line) {
      case None =>
        assert es + [] == es;
      case Some(e) =>
        ApplyDescribed(d, raw, es, e);
    }
  }

  /**
   * `parse_whois_response`: one pass over the lines. Registrar is first-wins;
   * registrant, organisation and country are last-wins; name servers
   * (lowercased) and statuses accumulate in input order; raw is the input.
   */
  method ParseWhoisResponse(raw: string) returns (data: WhoisData)
    ensures data.raw == Some(raw)
    ensures data.registrar == FirstValue(Entries(Lines(raw)), RegistrarKeys)
    ensures data.registrant == LastValue(Entries(Lines(raw)), RegistrantKeys)
    ensures data.registrantOrg == LastValue(Entries(Lines(raw)), OrgKeys)
    ensures data.registrantCountry == LastValue(Entries(Lines(raw)), CountryKeys)
    ensures data.nameServers == LowerAll(ValuesOf(Entries(Lines(raw)), NameServerKeys))
    ensures data.status == ValuesOf(Entries(Lines(raw)), StatusKeys)
  {
    var lines := Lines(raw);
    data := WhoisData(None, None, None, None, [], [], Some(raw));
    assert lines[..0] == [];
    InitialDescribed(raw);
    for i := 0 to |lines|
      invariant DescribedBy(data, raw, Entries(lines[..i]))
    {
      Collections.TakeSnoc(lines, i);
      ParseStep(data, raw, lines[..i], lines[i]);
      data := Step(data, lines[i]);
    }
    Collections.TakeAll(lines);
  }

  /** The JSON payload `enrich` builds from a parse. */
  function Payload(d: WhoisData): (j: Json)
    ensures j.Obj? && j.fields.Keys == {"registrar", "registrant", "registrant_org", "registrant_country", "name_servers", "status"}
    ensures Get(j, "registrar") == Some(OptStr(d.registrar))
    ensures Get(j, "registrant") == Some(OptStr(d.registrant))
    ensures Get(j, "registrant_org") == Some(OptStr(d.registrantOrg))
    ensures Get(j, "registrant_country") == Some(OptStr(d.registrantCountry))
    ensures Get(j, "name_servers") == Some(StrArr(d.nameServers))
    ensures Get(j, "status") == Some(StrArr(d.status))
  {
    Obj(map[
      "registrar" := OptStr(d.registrar),
      "registrant" := OptStr(d.registrant),
      "registrant_org" := OptStr(d.registrantOrg),
      "registrant_country" := OptStr(d.registrantCountry),
      "name_servers" := StrArr(d.nameServers),
      "status" := StrArr(d.status)])
  }

  /** The gate of `enrich`: nothing useful means no registrar and no name server. */
  function Gate(d: WhoisData): (o: Enrichment.Outcome)
    ensures o.NoData? <==> d.registrar.None? && d.nameServers == []
    ensures !o.Failed?
    ensures o.Found? ==> o.data == Payload(d)
  {
    if d.registrar.None? && d.nameServers == [] then Enrichment.NoData
    else Enrichment.Found(Payload(d))
  }

  /**
   * `enrich` for a domain. `lookup` is what the blocking WHOIS lookup gave:
   * `Err` when the blocking lookup itself failed, otherwise the raw answer when the
   * WHOIS query succeeded. A failed query is parsed as the empty text.
   */
  method Enrich(lookup: Result<Option<string>, string>) returns (o: Enrichment.Outcome)
    ensures lookup.Err? <==> o.Failed?
    ensures lookup == Ok(None) ==> o == Enrichment.NoData
    ensures lookup.Ok? ==> (o.NoData? <==> FirstValue(Entries(Lines(lookup.value.GetOr(""))), RegistrarKeys).None? && ValuesOf(Entries(Lines(lookup.value.GetOr(""))), NameServerKeys) == [])
  {
    if lookup.Err? {
      return Enrichment.Failed("WHOIS lookup task failed");
    }
    var raw := lookup.value.GetOr("");
    var data := ParseWhoisResponse(raw);
    o := Gate(data);
  }
}

=== FILE: wrappers.dfy ===
/** Failure-compatible wrappers shared by every module of the model. */
module Wrappers {

  /** Rust's `Option<T>`. */
  datatype Option<+T> = None | Some(value: T) {

    /** `unwrap_or`: the wrapped value, or `default` when there is none. */
    function GetOr(default: T): T {
      match this
      case Some(v) => v
      case None => default
    }
  }

  /** Rust's `Result<T, E>` as used through `anyhow`. */
  datatype Result<+T, +E> = Ok(value: T) | Err(error: E) {

    predicate IsFailure() {
      Err?
    }

    function PropagateFailure<U>(): Result<U, E>
      requires Err?
    {
      Err(error)
    }

    function Extract(): T
      requires Ok?
    {
      value
    }
  }
}
